=== FILE: README.md ===
# SearchVision core, modelled in Dafny

SearchVision builds a small object detector from a text query:
1. It searches the web for images and downloads them.
2. It picks the most dissimilar images for the user to label by dragging rectangles.
3. It turns those rectangles into annotation files.
4. It writes a label map and a training record.
5. It trains a model and auto-annotates the remaining images with it.
6. It retrains on everything and exports a TensorFlow Lite model.

This project models the pure logic inside that pipeline and proves what it does:

- **Download filter and file naming** (`download.dfy`, module `Download`). A URL keeps its file exactly when its response has status 200. The file is named after its *input* position.
- **Diversity ranking** (`diversity.dfy`, module `Diversity`).
  - Row sums of the distance matrix.
  - Any ascending arg-sort.
  - Python's `[-k:]` slice.
  - The lookup of the selected indices in the URL list.
- **Label map writer and reader** (`labelmap.dfy`, module `LabelMap`). `create_label_map` writes `item { id: N name: '...' }` blocks. `load_label_map_dict` reads them back line by line.
- **Annotation transformations**:
  - the manual record built from a dragged rectangle (`manual.dfy`);
  - the 0.5 confidence filter of the auto-annotator (`autoannotate.dfy`);
  - the per-object lists and the image/annotation pairing of the record builder (`tfrecord.dfy`);
  - the class collection of `create_data_yaml` (`datayaml.dfy`, with `strorder.dfy` for `sorted(set(...))`);
  - the shared `splitext(name)[0] + '.json'` naming (`paths.dfy`).
- **The stage sequence of `train_initial_model`** (`pipeline.dfy`). Label map, manual record, training, auto-annotation, full record, retraining, export. The first stage that raises ends the run.

Shared pieces:
- `outcomes.dfy`: the `Result` type. A Python exception becomes a `Failure` carrying its kind.
- `pystrings.dfy` and `pylists.dfy`: the Python built-ins the code relies on.
  - `str.split(' ')` and `str.strip()`.
  - `int()` and `str(n)`.
  - Line iteration over a text file.
  - Slicing with negative bounds.
- `store.dfy`: the annotations directory, as a map from file name to the list of records the file holds. Both annotation writers walk their input in order and overwrite files.

External effects are inputs to the model:
- **HTTP**: one `Response` per URL.
- **Cosine distances**: a matrix of reals.
- **Image sizes**: a map from image name to size.
- **The detector**: a map from image file to its output.
- **Training and export**: whether each call completes.

Two pieces of the wiring are broken in the code and are modelled with their intended data flow:
- `main.py` uses `json` and `Image` without importing them, and `create_tfrecord.py` uses `Image` (line 12) without importing it.
- `main.py:259,263`: `train_model` and `auto_annotate_images` are called with arguments that do not match their parameters.

Behaviour of the code worth knowing:
- **Selected images** come back by ascending score, most dissimilar last.
- **Auto-annotation** overwrites the annotation file of every image it annotates, manual ones included.
- **Box corners** are stored as dragged: a leftward or upward drag (the canvas script posts a negative width or height) gives reversed corners.
- **Unreadable images** are not skipped; the exception they raise ends the step.

## Model

| member | source | states |
|---|---|---|
| Download.SucceededIndices | src/download_images.py:25-38 | The input positions kept are exactly those whose response is status 200 with no exception. They come in ascending input order. |
| Download.DownloadImages | src/download_images.py:22-44 | Each path is `image_{i}.jpg` under the download directory for a successful position `i`. The path of position `i` is present exactly when its download succeeded. Paths are in input order and pairwise distinct, there are at most as many as URLs, and all failures give `[]` without error. |
| Download.ImagePathInjective | src/download_images.py:30 | Two input positions never get the same file path. |
| Diversity.ComputeRowSums | src/search_most_dissimilar_images.py:53 | Adding up each row of the distance matrix left to right, row after row, gives one score per image, equal to the `Sum` of its row that the ranking uses. |
| Diversity.Argsort | src/search_most_dissimilar_images.py:54 | For every score list there is an order satisfying the arg-sort contract: a permutation of the indices whose scores never decrease. Ties are left open, as numpy's default sort is unstable. |
| Diversity.MostDissimilarIndices | src/search_most_dissimilar_images.py:54 | The selection is the tail of the ascending order. It has exactly `k` entries for `1 <= k <= n`. It has all `n` for `k > n`, and also for `k == 0`, because `[-0:]` keeps everything. A negative `k` keeps `n + k` entries, at least 0. The selection is duplicate-free and ascending by score, and no unselected index scores higher than a selected one. |
| Diversity.SuffixBeatsRest | src/search_most_dissimilar_images.py:54 | An index outside a tail of an ascending order scores no higher than any index inside it. |
| Diversity.SelectMostDissimilarImages | src/search_most_dissimilar_images.py:44-59 | As written: the result is `image_urls` looked up at the selected indices. Those indices count downloaded images, not URLs. With every downloaded file decoding as an image, the call fails exactly when nothing was downloaded. |
| Diversity.SelectDownloadedImages | src/search_most_dissimilar_images.py:44-57 | With the intended lookup, each returned URL is the one its selected image was downloaded from, so every returned URL was downloaded successfully. |
| Diversity.DownloadedUrlsAt | src/search_most_dissimilar_images.py:57 | The intended lookup maps the `idx`-th downloaded image to the URL at the input position its file came from, and that position's download succeeded. |
| Diversity.AllDownloadsAligned | src/search_most_dissimilar_images.py:44-57 | When every download succeeds, the downloaded images are the URLs in order, so the as-written lookup names the scored images. |
| Diversity.MisalignedAfterFailedDownload | src/search_most_dissimilar_images.py:44-57 | Take two distinct URLs whose first download answers 404 and whose second answers 200, and any positive count. The one scored image is selected. The as-written lookup returns the first URL, which was not downloaded. The intended lookup returns the second. |
| LabelMap.CreateLabelMap | src/create_label_map.py:3-9 | The text written is the four lines of each class's block, classes in input order and numbered from 1, one after another. `LabelMap.LabelMapLines` states what those lines are. |
| LabelMap.LabelMapLines | src/create_label_map.py:5-9 | The file read back has four lines per class, in input order. Block `i` (0-based) is `item {`, `  id: i+1`, `  name: '<name>'` and `}`, with the name verbatim. No classes give an empty file. |
| LabelMap.ParseLabelMap | src/create_tfrecord.py:66-75 | The file is read line by line into the dictionary, and a file without any `name:` line that loads gives `{}`. `LoadLabelMapDict` is this reader with the as-written last-token rule; `LabelMap.RoundTrip` states what it reads back from the writer's output. |
| LabelMap.ParseLines | src/create_tfrecord.py:69-74 | Reading lines only adds or overwrites dictionary entries. Lines without `name:` leave the dictionary unchanged. |
| LabelMap.NameBeforeIdFails | src/create_tfrecord.py:70-74 | A `name:` line met before any `id:` line ends the load with the unassigned `class_id`. |
| LabelMap.IdLineStep | src/create_tfrecord.py:70-71 | A written id line sets the current id to its number, read through `int()` of the last space-separated token. |
| LabelMap.NameLineStep | src/create_tfrecord.py:72-74 | A written name line maps its name to the current id, for names the reader can represent. |
| LabelMap.RoundTrip | src/create_tfrecord.py:66-75 | Reading back what `create_label_map` wrote gives `{names[i]: i+1}` and nothing else. This holds for distinct names on one line, free of `id:`, that neither start nor end with an apostrophe and (as written) contain no space. |
| LabelMap.LaterIdWins | src/create_tfrecord.py:74 | When a name is written twice, its last block's id is the one read back. The keys are exactly the written names. |
| LabelMap.MultiWordNameKeepsLastWord | src/create_tfrecord.py:73 | As written, a class name `a + " " + w` reads back as `{w: 1}`: only the last word survives. |
| LabelMap.RedAppleReadsAsApple | src/create_tfrecord.py:73 | As written, the label map of `red apple` reads back as `{apple: 1}`. |
| LabelMap.RedAppleRoundTrips | src/create_tfrecord.py:73 | The corrected reader, which takes all the text after `name:`, reads `red apple` back as `{red apple: 1}`. |
| PyStrings.Lines | src/create_tfrecord.py:69 | Iterating a file yields pieces that each end in their one line break (the last may lack it). Concatenated, they give the text back. |
| PyStrings.Split | src/create_tfrecord.py:71 | `str.split(' ')` gives at least one piece, none containing a space. Joined with spaces, the pieces give the string back. |
| PyStrings.ParseIntOfNatToString | src/create_tfrecord.py:71 | `int()` reads back the digits written for `id`. |
| PyStrings.ParseInt | src/create_tfrecord.py:71 | `int()` either raises ValueError or succeeds on text whose stripped form ends in a digit. A negative result has a stripped form that starts with `-`. |
| PyStrings.ParseIntOfIntToString | src/create_tfrecord.py:71 | `int(str(n)) == n` for every integer, negative ones included. |
| Paths.Join | src/create_tfrecord.py:53 | `os.path.join` inserts one `/` unless the directory is empty or ends in one, and an absolute name replaces the directory. |
| Paths.SplitExt | src/create_tfrecord.py:54 | `os.path.splitext` splits a path into two parts that concatenate back to it. The extension is empty or starts with its only dot and holds no `/`. |
| Paths.SplitExtFindsExtension | src/create_tfrecord.py:54 | `splitext` finds an extension exactly when the last path component has a dot after a non-dot character. |
| Paths.AnnotationFileName | src/create_tfrecord.py:54 | The annotation file name ends in `.json`, and what stands in front of it is a prefix of the image name. `Paths.AnnotationFileNameShape` pins which prefix. |
| Paths.AnnotationFileNameShape | src/create_tfrecord.py:54 | The annotation file name is the image name without its extension, followed by `.json`. With no extension the whole name stays. Otherwise everything before the last dot stays, that dot lies in the last path component, and no dot follows it. |
| Paths.AnnotationFileNameOfImage | src/auto_annotate_images.py:56 | `stem.jpg`, `stem.jpeg` and `stem.png` all get the annotation file `stem.json`. |
| Paths.ImageFiles | src/auto_annotate_images.py:17-18 | A listed name is kept exactly when it ends in `.jpg`, `.jpeg` or `.png`, and nothing else is kept. |
| Paths.ImageFilesInOrder | src/auto_annotate_images.py:17-18 | The files kept are the listing filtered by that test: one entry per listed image file, at increasing listing positions, so in listing order. |
| TfRecord.RowOf | src/create_tfrecord.py:25-32 | An annotation converts exactly when its box has four coordinates and its class is in the label map. A short box raises IndexError before the lookup. An unmapped class raises KeyError. |
| TfRecord.CreateTfExample | src/create_tfrecord.py:24-32 | The example is built exactly when every annotation converts. Its six lists have one entry per annotation, in order, with `xmin=bbox[1]`, `xmax=bbox[3]`, `ymin=bbox[0]`, `ymax=bbox[2]`, the class text and the label map's id. Otherwise the first annotation that does not convert gives the exception. |
| TfRecord.PairedImages | src/create_tfrecord.py:51-57 | A listed name is used exactly when it is an image file whose annotation file exists, and nothing else is used. |
| TfRecord.PairedImagesInOrder | src/create_tfrecord.py:51-57 | The images used are the listing filtered by that test: one entry per paired image, at increasing listing positions, so in listing order. |
| TfRecord.ExampleOf | src/create_tfrecord.py:55-62 | A paired image's example is built from its annotation file exactly when every annotation in it converts, and then it names the image and has one entry per annotation. |
| TfRecord.CreateTfRecord | src/create_tfrecord.py:49-64 | The record holds one example per paired image, in listing order, when all can be built. Otherwise it holds the exception of the first one that cannot. |
| TfRecord.ExampleIffAnnotated | src/create_tfrecord.py:52-57 | In a built record, an image file has an example exactly when its annotation file exists. |
| AutoAnnotate.TruncToInt | src/auto_annotate_images.py:30 | `int()` of a float truncates toward zero. |
| AutoAnnotate.Truncate | src/auto_annotate_images.py:30-33 | Every detection array is cut to its first `int(num_detections)` entries. |
| AutoAnnotate.KeptIndices | src/auto_annotate_images.py:41-43 | Detection `i` is kept exactly when its score is at least 0.5. Kept indices stay in detection order, and there are at most `num_detections` of them. |
| AutoAnnotate.SaveBelowSucceeds | src/auto_annotate_images.py:40-53 | The loop over the first `n` detections completes exactly when each of them is readable and, when kept, has a mapped class. |
| AutoAnnotate.SaveBelowContents | src/auto_annotate_images.py:40-53 | After the first `n` detections, the list holds one record per kept index below `n`, in order. |
| AutoAnnotate.SaveAnnotations | src/auto_annotate_images.py:39-53 | The list is built exactly when every visited index is readable and every kept class id is in the category index. It holds one record per kept detection, in order, with box and score copied unchanged and the class name from the category index. |
| AutoAnnotate.ThresholdInclusive | src/auto_annotate_images.py:43 | A detection scoring exactly 0.5 is kept. |
| AutoAnnotate.NothingConfidentWritesEmpty | src/auto_annotate_images.py:40-59 | With no detection reaching the threshold, the list written is `[]`. |
| AutoAnnotate.AutoAnnotateImages | src/auto_annotate_images.py:16-36 | The annotator completes exactly when every image file of the listing has detector output that can be annotated. |
| AutoAnnotate.AutoAnnotateWritesImageFiles | src/auto_annotate_images.py:17-18 | Every file the annotator adds is the annotation file of an image file in the listing. |
| AutoAnnotate.AutoAnnotationContents | src/auto_annotate_images.py:56-59 | After a completed pass, each image file's annotation file holds what `save_annotations` computed for it, replacing any earlier content. The exception is an image that a later image with the same stem overwrites. |
| AnnotationStore.ApplyWrites | src/main.py:210-230 | A walk of writes completes exactly when every item succeeds. It only adds or overwrites the files it names, and every other file keeps its content. |
| AnnotationStore.LastWriteWins | src/main.py:227-230 | The last item naming a file decides what the file holds. |
| AnnotationStore.FirstFailureStops | src/main.py:208-238 | The first failing item ends the walk with its exception. The files written before it stay written. |
| ManualAnnotations.ManualRecord | src/main.py:216-224 | The stored box is `[y, x, y+height, x+width]`: the pixel scaling cancels. The class is the query and the score 1.0. The corners are not put in order, so a negative width or height reverses them. |
| ManualAnnotations.ManualFile | src/main.py:211-223 | A posted pair yields its one-element list exactly when the rectangle parses, with four numeric values, and the image opens with a positive size. |
| ManualAnnotations.ZipTruncates | src/main.py:210 | Names or rectangles beyond the shorter list have no effect. |
| ManualAnnotations.SaveManualAnnotations | src/main.py:208-232 | The form handler completes exactly when every posted pair yields its list. |
| ManualAnnotations.ManualFileContents | src/main.py:221-230 | After a completed save, an image's annotation file holds a one-element list. That list is the image's record, with box `[y, x, y+height, x+width]`, unless a later pair rewrites the file. |
| ManualAnnotations.ManualFilesWritten | src/main.py:227-230 | A completed save adds exactly the annotation files of the posted images. |
| DataYaml.FileClasses | src/create_data_yaml.py:20-34 | A loaded file is read without error exactly when every class value it would add is a string. The classes it adds are exactly the `class` strings of its dict items (for a list) or its own (for a dict). Falsy data and other shapes add nothing. |
| DataYaml.CollectClasses | src/create_data_yaml.py:14-34 | The scan completes exactly when every `.json` entry parses and is read without error. The classes found are exactly those some `.json` file adds, and other names are never read. |
| DataYaml.ItemClass | src/create_data_yaml.py:28-31 | An item contributes a class exactly when it is a dict with a `class` key, and the class is that key's value. |
| DataYaml.ListClassesLoads | src/create_data_yaml.py:26-29 | A list file is read exactly when each of its items is. |
| DataYaml.ListClassesMembers | src/create_data_yaml.py:26-29 | The classes a list contributes are exactly the `class` values of its dict items. |
| DataYaml.NonJsonIgnored | src/create_data_yaml.py:15 | A file whose name does not end in `.json` is never read. |
| DataYaml.CreateDataYaml | src/create_data_yaml.py:9-62 | On success, `names` is strictly ascending and equals the set of classes found, `nc` is its length and `train` equals `val`. No classes raise ValueError. A file that cannot be read raises its exception. |
| DataYaml.PipelineRecordsHaveNoClass | src/create_data_yaml.py:26-42 | The records the pipeline writes carry `class_name`, not `class`. A labels directory of only such files therefore raises ValueError. |
| StringOrder.SortedDistinct | src/create_data_yaml.py:37 | `sorted(set(xs))` is strictly ascending and holds exactly the values of `xs`. |
| StringOrder.AscendingUnique | src/create_data_yaml.py:37 | Two strictly ascending lists with the same values are equal, so `sorted(set(xs))` is the only possible result. |
| Pipeline.TrainInitialModel | src/main.py:240-281 | A run succeeds only after starting all seven stages. When the label map cannot be read back, the run stops at the first stage with that exception. Otherwise the manual record stage starts. |
| Pipeline.RunStages | src/main.py:250-276 | A run that stops early reports one exception. Each record exists exactly when the training call consuming it started. The annotations directory changes only once auto-annotation starts. |
| Pipeline.AfterLabelMap | src/main.py:252-276 | After the label map, the run completes exactly when the manual record, both training calls, auto-annotation, the full record and the export all succeed. Auto-annotation starts exactly when the manual record and the first training completed. The full record starts exactly when auto-annotation also completed, and the retraining exactly when the full record also did. The export starts exactly when the retraining also completed. Each record is the one its stage built. |
| Pipeline.FirstRaiseDecides | src/main.py:252-281 | The first stage after the label map that raises decides the run. Every stage up to it started, and none after it did. Its exception is the run's: the record's error, `train_model`'s failure, the auto-annotator's first failure, or `convert_to_tflite`'s failure. When no stage raises, all seven stages ran. |
| Pipeline.AutoAnnotatedStore | src/main.py:261-267 | Once auto-annotation starts, the run leaves the annotations directory as the annotator wrote it. |
| Pipeline.SingleClassLabelMap | src/main.py:245-250 | The training label map holds exactly one class, the query, with id 1, for any query the reader can represent. |
| Pipeline.TrainingFailureStops | src/main.py:256-263 | A failed first training call ends the run after three stages with the annotations directory unchanged. |
| Pipeline.ManualRecordStageOutcome | src/main.py:252-259 | A failing manual record ends the run at stage two with its exception. Otherwise training starts with that record. |
| Pipeline.CompletedRun | src/main.py:240-278 | A completed run means every collaborator succeeded and auto-annotation completed. The manual record is built from the directory the form handler left, and the full record from the annotated one. |
| Pipeline.MultiWordQueryStopsAtManualRecord | src/main.py:245-254 | As written, and with `Image` imported, a query of two or more words stops at the manual record with KeyError. The label map holds only its last word. |
| Pipeline.CorrectedReaderBuildsManualRecord | src/main.py:245-259 | With the corrected reader, the same run builds the manual record, with the query's id 1, and starts training. |
| Pipeline.SaveAnnotationsAndTrain | src/main.py:202-238 | The form handler first saves every posted pair, and its outcome is that save's. Training starts exactly when every posted pair was saved, and it runs over the directory the save left. |
| Pipeline.DragReachesManualRecord | src/main.py:210-254 | One dragged rectangle saved for one image leads, with the corrected reader, to a manual record holding its corners and class id 1. |

## Left out

- HTTP, file-system and console effects are not modelled: `requests.get`, `os.makedirs`, `print`, `logging` and the writing of JSON, YAML and TFRecord files. Responses, listings and file contents are inputs, and written files are the annotation store.
- ResNet feature extraction and `cosine_distances` are foreign numeric code. The distance matrix is an input of reals, with one row per downloaded image. Its rows are not required to be square or symmetric.
- Diversity.RowSums: sums over `real`, so floating-point rounding is not modelled.
- Diversity.SelectMostDissimilarImages: every downloaded file is taken to decode as an image. A status-200 answer that is not one (an HTML page, say) makes `extract_features` raise at `search_most_dissimilar_images.py:28`, so the whole call raises; the model does not report that.
- ManualAnnotations.ManualRecord: scaling and dividing back are exact over `real`. In floating point the stored box can differ from the posted one in its last bits.
- ManualAnnotations.ManualFile: a posted annotation that is not JSON, or lacks one of its four keys, is a single ValueError. Python raises JSONDecodeError or KeyError; both end in the same HTTP 500. The model also reads the rectangle before opening the image, while Python opens the image first (`main.py:214`) and reads the keys after (`main.py:216-219`). So for valid JSON lacking a key, posted for an image that cannot be opened, Python raises the image error and the model a ValueError. A value among the four keys that is not a number also counts as an unparsed rectangle and is reported as ValueError. In Python a string, `null` or list raises TypeError at `main.py:216-219`; a string `x` is first repeated by `* width` and only fails at the `+`. JSON `true` and `false` compute as 1 and 0 there, so Python saves that rectangle, while the model reports ValueError.
- DataYaml.ItemClass: a `class` value that is not a string is reported as TypeError. Python adds hashable non-string values to the set and fails only if `sorted` then meets mixed types.
- Image decoding, the image bytes, width, height and format fields of a `tf.train.Example`, and the `basename` of the image path are not modelled. `Example` carries the listed file name and the six per-object lists.
- Reading annotation JSON in `create_tfrecord` is not modelled. The store holds parsed records, so a file without `bbox` or `class_name`, or one that does not parse, is outside the model.
- The detector, `train_model` and `convert_to_tflite` are collaborators. Their results are the `detect` map and the `trainOk`, `retrainOk` and `exportOk` flags of `Pipeline.Collaborators`.
- `load_model` and `load_label_map` are left out, as are the wrong arguments at `main.py:259,263`. The detector gets the single-class category index, and each training call gets the record just built.
- `os.path.abspath` is not modelled. The absolute images directory is a parameter of `DataYaml.CreateDataYaml`.
- The FastAPI routes, HTML and canvas script, startup directory clearing, and the HTTP 500 wrapping of exceptions are not modelled. The model returns the underlying exception.
- `search_images.py`, `scrape_similar.py`, `train_model.py` and `convert_to_tflite.py` are HTTP clients and thin library wrappers. They are not part of this model.
- PyStrings.ParseInt: accepts only the ASCII digits `0`-`9`. Python's `int()` also accepts every other Unicode decimal digit, so `int('٣') == 3`, where the model raises ValueError. The id lines it reads are written with ASCII digits, so the difference does not reach the label map.
- `PyStrings.IsSpace` lists the characters `str.strip()` removes. Unicode normalisation and case folding do not arise.

## Findings

| source | as written | input that shows it | evidently intended | confidence | as-written member | corrected member |
|---|---|---|---|---|---|---|
| src/search_most_dissimilar_images.py:44-57 | `image_urls[idx]`, with `idx` counting downloaded images | Two URLs whose first download answers 404 and whose second answers 200, with any positive `num_images`. The one scored image is the second URL's, yet the first URL is returned. | Return the URL each selected image was downloaded from. | not executed | Diversity.MisalignedAfterFailedDownload | Diversity.SelectDownloadedImages |
| src/create_tfrecord.py:73 | The class name is the last space-separated token of the line. | The query `red apple`: the label map reads back as `{apple: 1}`, and, with `Image` imported, the manual record raises `KeyError('red apple')`. | Keep the whole quoted name, giving `{red apple: 1}`. | not executed | Pipeline.MultiWordQueryStopsAtManualRecord | Pipeline.CorrectedReaderBuildsManualRecord |

=== FILE: autoannotate.dfy ===
/** The auto-annotator: runs the detector over every image file of the images
    directory and writes, per image, the detections it is confident about. */
module AutoAnnotate {
  import opened Outcomes
  import opened PyStrings
  import opened PyLists
  import opened Paths
  import opened AnnotationStore

  /** The confidence a detection needs to be kept; the test is `>=`. */
  const Threshold: real := 0.5

  /** What the detector returns for one image, batch dimension removed:
      the raw `num_detections` value and the per-detection arrays. */
  datatype Detections = Detections(
    count: real,
    boxes: seq<seq<real>>,
    classes: seq<real>,
    scores: seq<real>)

  /** Python's `int()` of a float: truncation toward zero. */
  function TruncToInt(x: real): (n: int)
    ensures x >= 0.0 ==> n as real <= x < n as real + 1.0
    ensures x < 0.0 ==> n as real - 1.0 < x <= n as real
  {
    if x >= 0.0 then x.Floor else -((-x).Floor)
  }

  /** The detections after `int(num_detections)` and the `[:num_detections]`
      cut of every array; the count itself is kept as the integer. */
  datatype Truncated = Truncated(num: int, boxes: seq<seq<real>>, classes: seq<real>, scores: seq<real>)

  function Truncate(d: Detections): (t: Truncated)
    ensures t.num == TruncToInt(d.count)
    ensures t.num >= 0 ==> t.scores == d.scores[..if t.num <= |d.scores| then t.num else |d.scores|]
    ensures t.num >= 0 ==> t.boxes == d.boxes[..if t.num <= |d.boxes| then t.num else |d.boxes|]
    ensures t.num >= 0 ==> t.classes == d.classes[..if t.num <= |d.classes| then t.num else |d.classes|]
  {
    var n := TruncToInt(d.count);
    Truncated(n, SliceTo(d.boxes, n), SliceTo(d.classes, n), SliceTo(d.scores, n))
  }

  /** The category index: class id to class name. */
  type CategoryIndex = map<int, string>

  /** The indices `range(num)` visits whose score reaches the threshold, in order. */
  function KeptIndices(t: Truncated): (ix: seq<nat>)
    ensures StrictlyIncreasing(ix)
    ensures |ix| <= (if t.num < 0 then 0 else t.num)
    ensures forall k :: 0 <= k < |ix| ==> ix[k] < t.num && ix[k] < |t.scores| && t.scores[ix[k]] >= Threshold
    ensures forall i :: 0 <= i < t.num && i < |t.scores| ==> (i in ix <==> t.scores[i] >= Threshold)
  {
    KeptBelow(t, if t.num < 0 then 0 else t.num)
  }

  function KeptBelow(t: Truncated, n: nat): (ix: seq<nat>)
    ensures StrictlyIncreasing(ix) && |ix| <= n
    ensures forall k :: 0 <= k < |ix| ==> ix[k] < n && ix[k] < |t.scores| && t.scores[ix[k]] >= Threshold
    ensures forall i :: 0 <= i < n && i < |t.scores| ==> (i in ix <==> t.scores[i] >= Threshold)
  {
    if n == 0 then []
    else
      var before := KeptBelow(t, n - 1);
      if n - 1 < |t.scores| && t.scores[n - 1] >= Threshold then before + [n - 1] else before
  }

  /** Index `i` can be read by the loop: its score, and for a kept
      detection its box, its class and the class's entry in the index. */
  predicate ReadableAt(t: Truncated, cat: CategoryIndex, i: nat) {
    && i < |t.scores|
    && (t.scores[i] >= Threshold ==> i < |t.boxes| && i < |t.classes| && TruncToInt(t.classes[i]) in cat)
  }

  /** Every index `save_annotations` visits can be read. */
  predicate Annotatable(t: Truncated, cat: CategoryIndex) {
    forall i: nat :: i < t.num ==> ReadableAt(t, cat, i)
  }

  /** The record of a kept detection: box and score copied unchanged, the
      class name looked up through the truncated class id. */
  function DetectionRecord(t: Truncated, cat: CategoryIndex, i: nat): Record
    requires i < |t.boxes| && i < |t.classes| && i < |t.scores| && TruncToInt(t.classes[i]) in cat
  {
    Record(cat[TruncToInt(t.classes[i])], t.boxes[i], t.scores[i])
  }

  /** The loop of `save_annotations` over the first `n` indices. */
  function SaveBelow(t: Truncated, cat: CategoryIndex, n: nat): Result<seq<Record>>
    decreases n
  {
    if n == 0 then Success([])
    else
      var before :- SaveBelow(t, cat, n - 1);
      var i := n - 1;
      if i >= |t.scores| then Failure(IndexError)
      else if t.scores[i] < Threshold then Success(before)
      else if i >= |t.boxes| || i >= |t.classes| then Failure(IndexError)
      else if TruncToInt(t.classes[i]) !in cat then Failure(KeyError(IntToString(TruncToInt(t.classes[i]))))
      else Success(before + [DetectionRecord(t, cat, i)])
  }

  /** `save_annotations`: the list written for one image. */
  function SaveAnnotations(t: Truncated, cat: CategoryIndex): (r: Result<seq<Record>>)
    ensures r.Success? <==> Annotatable(t, cat)
    ensures r.Success? ==> RecordsOf(t, cat, KeptIndices(t), r.value)
    ensures r.Success? ==> |r.value| <= (if t.num < 0 then 0 else t.num)
  {
    var n := if t.num < 0 then 0 else t.num;
    SaveAnnotationsSpec(t, cat, n);
    SaveBelow(t, cat, n)
  }

  lemma SaveAnnotationsSpec(t: Truncated, cat: CategoryIndex, n: nat)
    requires n == if t.num < 0 then 0 else t.num
    ensures SaveBelow(t, cat, n).Success? <==> Annotatable(t, cat)
    ensures SaveBelow(t, cat, n).Success? ==> RecordsOf(t, cat, KeptIndices(t), SaveBelow(t, cat, n).value)
  {
    SaveBelowSucceeds(t, cat, n);
    AnnotatableBelow(t, cat, n);
    SaveBelowContents(t, cat, n);
    assert KeptIndices(t) == KeptBelow(t, n);
  }

  lemma AnnotatableBelow(t: Truncated, cat: CategoryIndex, n: nat)
    requires n == if t.num < 0 then 0 else t.num
    ensures Annotatable(t, cat) <==> forall i :: 0 <= i < n ==> ReadableAt(t, cat, i)
  {
  }

  /** The loop over the first `n` indices completes exactly when each of them
      can be read. */
  lemma {:induction false} SaveBelowSucceeds(t: Truncated, cat: CategoryIndex, n: nat)
    ensures SaveBelow(t, cat, n).Success? <==> forall i :: 0 <= i < n ==> ReadableAt(t, cat, i)
    decreases n
  {
    if n > 0 {
      SaveBelowSucceeds(t, cat, n - 1);
      assert SaveBelow(t, cat, n).Success? <==> SaveBelow(t, cat, n - 1).Success? && ReadableAt(t, cat, n - 1);
    }
  }

  /** `r` holds the record of each index of `ix`, in order. */
  predicate RecordsOf(t: Truncated, cat: CategoryIndex, ix: seq<nat>, r: seq<Record>) {
    && |r| == |ix|
    && forall k :: 0 <= k < |ix| ==>
         && ix[k] < |t.scores| && ix[k] < |t.boxes| && ix[k] < |t.classes| && TruncToInt(t.classes[ix[k]]) in cat
         && r[k] == DetectionRecord(t, cat, ix[k])
  }

  lemma RecordsOfSnoc(t: Truncated, cat: CategoryIndex, ix: seq<nat>, r: seq<Record>, i: nat)
    requires RecordsOf(t, cat, ix, r)
    requires i < |t.scores| && i < |t.boxes| && i < |t.classes| && TruncToInt(t.classes[i]) in cat
    ensures RecordsOf(t, cat, ix + [i], r + [DetectionRecord(t, cat, i)])
  {
  }

  /** A completed loop over the first `n` indices holds one record per kept
      index, in order. */
  lemma {:induction false} SaveBelowContents(t: Truncated, cat: CategoryIndex, n: nat)
    ensures SaveBelow(t, cat, n).Success? ==> RecordsOf(t, cat, KeptBelow(t, n), SaveBelow(t, cat, n).value)
    decreases n
  {
    if n > 0 && SaveBelow(t, cat, n).Success? {
      var i := n - 1;
      SaveBelowContents(t, cat, i);
      if t.scores[i] >= Threshold {
        assert KeptBelow(t, n) == KeptBelow(t, i) + [i];
        RecordsOfSnoc(t, cat, KeptBelow(t, i), SaveBelow(t, cat, i).value, i);
      } else {
        assert KeptBelow(t, n) == KeptBelow(t, i);
      }
    }
  }

  /** Scores exactly at the threshold are kept. */
  lemma ThresholdInclusive(t: Truncated, cat: CategoryIndex, i: nat)
    requires Annotatable(t, cat) && i < t.num && i < |t.scores| && t.scores[i] == Threshold
    ensures var r := SaveAnnotations(t, cat).value;
      DetectionRecord(t, cat, i) in r
  {
    assert ReadableAt(t, cat, i);
    var ix := KeptIndices(t);
    var k :| 0 <= k < |ix| && ix[k] == i;
    assert SaveAnnotations(t, cat).value[k] == DetectionRecord(t, cat, i);
  }

  /** With no confident detection the image still gets a file, holding `[]`. */
  lemma NothingConfidentWritesEmpty(t: Truncated, cat: CategoryIndex)
    requires forall i :: 0 <= i < t.num ==> i < |t.scores| && t.scores[i] < Threshold
    ensures SaveAnnotations(t, cat) == Success([])
  {
    NoneKept(t, if t.num < 0 then 0 else t.num);
  }

  lemma {:induction false} NoneKept(t: Truncated, n: nat)
    requires forall i :: 0 <= i < n && i < |t.scores| ==> t.scores[i] < Threshold
    ensures KeptBelow(t, n) == []
  {
    if n > 0 {
      NoneKept(t, n - 1);
    }
  }

  /** The detector produced output for `file` and that output can be
      annotated. */
  predicate Annotates(file: string, detect: map<string, Detections>, cat: CategoryIndex) {
    file in detect && Annotatable(Truncate(detect[file]), cat)
  }

  /** Every file of `files` can be annotated. */
  predicate AllAnnotate(files: seq<string>, detect: map<string, Detections>, cat: CategoryIndex) {
    forall k :: 0 <= k < |files| ==> Annotates(files[k], detect, cat)
  }

  /** The write for one image file; a file the detector has no output for
      stands for inference raising. */
  function AutoWrite(file: string, detect: map<string, Detections>, cat: CategoryIndex): Write {
    if file !in detect then (AnnotationFileName(file), Failure(CollaboratorFailed("detector")))
    else (AnnotationFileName(file), SaveAnnotations(Truncate(detect[file]), cat))
  }

  /** The writes of `auto_annotate_images`: one per image file of the listing,
      in listing order. */
  function AutoWrites(listing: seq<string>, detect: map<string, Detections>, cat: CategoryIndex): seq<Write> {
    WritesFor(ImageFiles(listing), detect, cat)
  }

  /** The write of each file, in order. */
  function WritesFor(files: seq<string>, detect: map<string, Detections>, cat: CategoryIndex): (ws: seq<Write>)
    ensures |ws| == |files| && forall k :: 0 <= k < |files| ==> ws[k] == AutoWrite(files[k], detect, cat)
  {
    seq(|files|, k requires 0 <= k < |files| => AutoWrite(files[k], detect, cat))
  }

  /** `auto_annotate_images(image_folder, annotations_folder, model, category_index)`
      on a directory listing, with the detector as an oracle from image file
      name to its output. */
  function AutoAnnotateImages(listing: seq<string>, detect: map<string, Detections>, cat: CategoryIndex, store: Store)
    : (out: Outcome)
    ensures out.failure.None? <==> AllAnnotate(ImageFiles(listing), detect, cat)
  {
    AutoWritesSucceed(listing, detect, cat);
    ApplyWrites(AutoWrites(listing, detect, cat), store)
  }

  lemma AutoWritesSucceed(listing: seq<string>, detect: map<string, Detections>, cat: CategoryIndex)
    ensures AllSucceed(AutoWrites(listing, detect, cat)) <==> AllAnnotate(ImageFiles(listing), detect, cat)
  {
    WritesForSucceed(ImageFiles(listing), detect, cat);
  }

  lemma WritesForSucceed(files: seq<string>, detect: map<string, Detections>, cat: CategoryIndex)
    ensures AllSucceed(WritesFor(files, detect, cat)) <==> AllAnnotate(files, detect, cat)
  {
    var ws := WritesFor(files, detect, cat);
    forall k | 0 <= k < |ws| ensures ws[k].1.Success? <==> Annotates(files[k], detect, cat) {
      AutoWriteSucceeds(files[k], detect, cat, ws[k]);
    }
  }

  /** One image's write succeeds exactly when the detector ran on it and its
      output can be annotated. */
  lemma AutoWriteSucceeds(file: string, detect: map<string, Detections>, cat: CategoryIndex, w: Write)
    requires w == AutoWrite(file, detect, cat)
    ensures w.1.Success? <==> Annotates(file, detect, cat)
  {
  }

  /** Only image files are annotated: every file the annotator adds is the
      annotation file of an image file in the listing. */
  lemma AutoAnnotateWritesImageFiles(listing: seq<string>, detect: map<string, Detections>, cat: CategoryIndex, store: Store, x: string)
    requires x in AutoAnnotateImages(listing, detect, cat, store).store && x !in store
    ensures exists i | 0 <= i < |listing| :: IsImageFile(listing[i]) && x == AnnotationFileName(listing[i])
  {
    var ws := AutoWrites(listing, detect, cat);
    var imgs := ImageFiles(listing);
    var k :| 0 <= k < |ws| && ws[k].0 == x;
    assert imgs[k] in listing;
    var i :| 0 <= i < |listing| && listing[i] == imgs[k];
  }

  lemma NotRewrittenLater(listing: seq<string>, detect: map<string, Detections>, cat: CategoryIndex, k: nat)
    requires var imgs := ImageFiles(listing);
      k < |imgs| && forall j :: k < j < |imgs| ==> AnnotationFileName(imgs[j]) != AnnotationFileName(imgs[k])
    ensures var ws := AutoWrites(listing, detect, cat);
      k < |ws| && ws[k].0 == AnnotationFileName(ImageFiles(listing)[k]) && ws[k].0 !in FileNames(ws[k + 1..])
  {
    var imgs := ImageFiles(listing);
    var ws := AutoWrites(listing, detect, cat);
    var later := ws[k + 1..];
    forall j | 0 <= j < |later| ensures later[j].0 != ws[k].0 {
      assert later[j] == ws[k + 1 + j];
    }
  }

  /** A completed run leaves every image file's annotation file holding what
      `save_annotations` computed for it, unless a later image file of the
      listing has the same stem; an image with no confident detection ends up
      with `[]`, replacing any earlier record. */
  lemma AutoAnnotationContents(listing: seq<string>, detect: map<string, Detections>, cat: CategoryIndex, store: Store, k: nat)
    requires AutoAnnotateImages(listing, detect, cat, store).failure.None?
    requires var imgs := ImageFiles(listing);
      k < |imgs| && forall j :: k < j < |imgs| ==> AnnotationFileName(imgs[j]) != AnnotationFileName(imgs[k])
    ensures var imgs := ImageFiles(listing);
      var out := AutoAnnotateImages(listing, detect, cat, store).store;
      && imgs[k] in detect
      && AnnotationFileName(imgs[k]) in out
      && out[AnnotationFileName(imgs[k])] == SaveAnnotations(Truncate(detect[imgs[k]]), cat).value
  {
    var ws := AutoWrites(listing, detect, cat);
    NotRewrittenLater(listing, detect, cat, k);
    LastWriteWins(ws, store, k);
  }
}

=== FILE: datayaml.dfy ===
/** `create_data_yaml`: collects the class names found in the annotation
    files and describes the dataset for the trainer. */
module DataYaml {
  import opened Outcomes
  import opened PyStrings
  import opened StringOrder
  import opened AnnotationStore

  /** A JSON value as `json.load` returns it. */
  datatype Json =
    | JNull
    | JBool(b: bool)
    | JNum(n: real)
    | JStr(s: string)
    | JArr(items: seq<Json>)
    | JObj(fields: map<string, Json>)

  /** Python's truth test on a loaded JSON value. */
  predicate Falsy(j: Json) {
    match j
    case JNull => true
    case JBool(b) => !b
    case JNum(n) => n == 0.0
    case JStr(s) => |s| == 0
    case JArr(items) => |items| == 0
    case JObj(fields) => |fields| == 0
  }

  /** The class an item contributes: `item['class']` when the item is a dict
      with that key. A class value that is not a string is reported as a
      TypeError. */
  function ItemClass(item: Json): (r: Result<Option<string>>)
    ensures r == Success(None) <==> !(item.JObj? && "class" in item.fields)
    ensures r.Success? && r.value.Some? <==> item.JObj? && "class" in item.fields && item.fields["class"].JStr?
    ensures r.Success? && r.value.Some? ==> r.value.value == item.fields["class"].s
  {
    if item.JObj? && "class" in item.fields then
      match item.fields["class"]
      case JStr(c) => Success(Some(c))
      case _ => Failure(TypeError("class value is not a string"))
    else Success(None)
  }

  /** The classes of a list's items, in order. */
  function ListClasses(items: seq<Json>): Result<seq<string>>
    decreases |items|
  {
    if |items| == 0 then Success([])
    else
      var first :- ItemClass(items[0]);
      var rest :- ListClasses(items[1..]);
      Success((if first.Some? then [first.value] else []) + rest)
  }

  /** The classes one file contributes: nothing from falsy data, every item
      with a `class` key from a list, the dict itself if it has one, and
      nothing from any other shape. */
  function FileClasses(data: Json): (r: Result<seq<string>>)
    ensures r.Success? <==> Loads(data)
    ensures r.Success? ==> forall c :: c in r.value <==> Contributes(data, c)
  {
    if Falsy(data) then
      assert data.JObj? ==> data.fields == map[];
      Success([])
    else if data.JArr? then
      ListClassesLoads(data.items);
      ListClassesMembersAll(data.items);
      ListClasses(data.items)
    else if data.JObj? && "class" in data.fields then
      var c :- ItemClass(data);
      Success(if c.Some? then [c.value] else [])
    else Success([])
  }

  /** Every class value `data` would add is a string. */
  predicate Loads(data: Json) {
    && (data.JArr? ==> forall k :: 0 <= k < |data.items| ==> ItemClass(data.items[k]).Success?)
    && (data.JObj? && "class" in data.fields ==> data.fields["class"].JStr?)
  }

  /** `data` adds the class `c`: it is a list with a dict item whose `class`
      is `c`, or a dict whose own `class` is `c`. */
  predicate Contributes(data: Json, c: string) {
    || (data.JArr? && exists k | 0 <= k < |data.items| :: ClassOf(data.items[k], c))
    || ClassOf(data, c)
  }

  lemma ListClassesMembersAll(items: seq<Json>)
    ensures ListClasses(items).Success? ==>
      forall c :: c in ListClasses(items).value <==> exists k | 0 <= k < |items| :: ClassOf(items[k], c)
  {
    if ListClasses(items).Success? {
      forall c ensures c in ListClasses(items).value <==> exists k | 0 <= k < |items| :: ClassOf(items[k], c) {
        ListClassesMembers(items, c);
      }
    }
  }

  /** A directory entry: its name, and its content when it parses as JSON
      (`None` when `json.load` raises). */
  type Entry = (string, Option<Json>)

  /** An entry is read without error: it is not a `.json` file, or it
      parses and every class value in it is a string. */
  predicate EntryLoads(e: Entry) {
    EndsWith(e.0, ".json") ==> e.1.Some? && Loads(e.1.value)
  }

  /** An entry is a `.json` file that adds the class `c`. */
  predicate EntryContributes(e: Entry, c: string) {
    EndsWith(e.0, ".json") && e.1.Some? && Contributes(e.1.value, c)
  }

  /** The classes of every `.json` file of a listing, in listing order: the
      scan completes exactly when every entry is read without error, and the
      classes found are exactly those some `.json` file adds. */
  function CollectClasses(listing: seq<Entry>): (r: Result<seq<string>>)
    ensures r.Success? <==> forall k :: 0 <= k < |listing| ==> EntryLoads(listing[k])
    ensures r.Success? ==>
      forall c :: c in r.value <==> exists k | 0 <= k < |listing| :: EntryContributes(listing[k], c)
    decreases |listing|
  {
    if |listing| == 0 then Success([])
    else
      assert forall k :: 1 <= k < |listing| ==> listing[1..][k - 1] == listing[k];
      var (name, content) := listing[0];
      var first :-
        if !EndsWith(name, ".json") then Success([])
        else if content.None? then Failure(ValueError("invalid JSON in " + name))
        else FileClasses(content.value);
      var rest :- CollectClasses(listing[1..]);
      Success(first + rest)
  }

  /** The dictionary dumped to `data.yaml`. */
  datatype DataYamlFile = DataYamlFile(train: string, val: string, nc: nat, names: seq<string>)

  /** `create_data_yaml(labels_path)` on a listing of the labels directory;
      `imagesDir` is what `os.path.abspath("dataset/train/images")` gives in
      the working directory. */
  function CreateDataYaml(listing: seq<Entry>, imagesDir: string): (r: Result<DataYamlFile>)
    ensures CollectClasses(listing).Failure? ==> r == Failure(CollectClasses(listing).error)
    ensures r.Success? <==> CollectClasses(listing).Success? && CollectClasses(listing).value != []
    ensures r.Success? ==>
      && Ascending(r.value.names)
      && Elements(r.value.names) == Elements(CollectClasses(listing).value)
      && r.value.nc == |r.value.names| > 0
      && r.value.train == r.value.val == imagesDir
    ensures CollectClasses(listing) == Success([]) ==> r == Failure(ValueError(NoClasses))
  {
    var classes :- CollectClasses(listing);
    var names := SortedDistinct(classes);
    assert |classes| > 0 ==> classes[0] in Elements(names);
    if |names| == 0 then
      Failure(ValueError(NoClasses))
    else
      Success(DataYamlFile(imagesDir, imagesDir, |names|, names))
  }

  const NoClasses: string := "No classes found in annotations. Please check your annotation files."

  /** A list file loads exactly when every item's class, if it has one, is a
      string. */
  lemma {:induction false} ListClassesLoads(items: seq<Json>)
    ensures ListClasses(items).Success? <==> forall k :: 0 <= k < |items| ==> ItemClass(items[k]).Success?
    decreases |items|
  {
    if |items| > 0 {
      var tail := items[1..];
      assert forall k :: 0 <= k < |tail| ==> tail[k] == items[k + 1];
      ListClassesLoads(tail);
    }
  }

  /** The classes a list file contributes are exactly the string `class`
      values of its items. */
  lemma {:induction false} ListClassesMembers(items: seq<Json>, c: string)
    requires ListClasses(items).Success?
    ensures c in ListClasses(items).value <==>
      exists k | 0 <= k < |items| :: ClassOf(items[k], c)
    decreases |items|
  {
    if |items| > 0 {
      var tail := items[1..];
      assert forall k :: 0 <= k < |tail| ==> tail[k] == items[k + 1];
      var first := ItemClass(items[0]).value;
      ListClassesMembers(tail, c);
      var rest := ListClasses(tail).value;
      assert ListClasses(items).value == (if first.Some? then [first.value] else []) + rest;
      if exists k | 0 <= k < |items| :: ClassOf(items[k], c) {
        var k :| 0 <= k < |items| && ClassOf(items[k], c);
        if k > 0 { assert ClassOf(tail[k - 1], c); }
      }
    }
  }

  /** `item` is a dict whose `class` is the string `c`. */
  predicate ClassOf(item: Json, c: string) {
    item.JObj? && "class" in item.fields && item.fields["class"] == JStr(c)
  }

  /** Entries whose names do not end in `.json` are never read. */
  lemma {:induction false} NonJsonIgnored(listing: seq<Entry>, name: string, content: Option<Json>)
    requires !EndsWith(name, ".json")
    ensures CollectClasses([(name, content)] + listing) == CollectClasses(listing)
  {
    var l := [(name, content)] + listing;
    assert l[0] == (name, content) && l[1..] == listing;
    var rest := CollectClasses(listing);
    if rest.Success? {
      assert [] + rest.value == rest.value;
    }
  }

  /** A record as `json.dump` writes it. */
  function RecordJson(r: Record): Json {
    JObj(map["class_name" := JStr(r.className),
             "bbox" := JArr(seq(|r.bbox|, i requires 0 <= i < |r.bbox| => JNum(r.bbox[i]))),
             "score" := JNum(r.score)])
  }

  /** An annotation file as the pipeline writes it: a list of records. */
  function AnnotationJson(records: seq<Record>): Json {
    JArr(seq(|records|, i requires 0 <= i < |records| => RecordJson(records[i])))
  }

  /** An entry whose content is a list of records as the pipeline writes them. */
  ghost predicate HoldsRecords(e: Entry) {
    e.1.Some? && exists records: seq<Record> :: e.1.value == AnnotationJson(records)
  }

  /** The records the pipeline writes carry `class_name`, not `class`, so a
      labels directory holding only such files makes `create_data_yaml`
      raise ValueError. */
  lemma {:induction false} PipelineRecordsHaveNoClass(listing: seq<Entry>, imagesDir: string)
    requires forall k :: 0 <= k < |listing| ==> HoldsRecords(listing[k])
    ensures CollectClasses(listing) == Success([])
    ensures CreateDataYaml(listing, imagesDir) == Failure(ValueError(NoClasses))
    decreases |listing|
  {
    if |listing| > 0 {
      var tail := listing[1..];
      assert forall k :: 0 <= k < |tail| ==> tail[k] == listing[k + 1];
      PipelineRecordsHaveNoClass(tail, imagesDir);
      var records: seq<Record> :| listing[0].1.value == AnnotationJson(records);
      RecordFileHasNoClass(records);
      assert CollectClasses(listing) == Success([] + []);
      assert CollectClasses(listing).value == [];
    }
  }

  lemma RecordFileHasNoClass(records: seq<Record>)
    ensures FileClasses(AnnotationJson(records)) == Success([])
  {
    var items := AnnotationJson(records).items;
    assert forall k :: 0 <= k < |items| ==> items[k] == RecordJson(records[k]);
    NoClassItems(items);
  }

  lemma {:induction false} NoClassItems(items: seq<Json>)
    requires forall k :: 0 <= k < |items| ==> !(items[k].JObj? && "class" in items[k].fields)
    ensures ListClasses(items) == Success([])
    decreases |items|
  {
    if |items| > 0 {
      var tail := items[1..];
      assert forall k :: 0 <= k < |tail| ==> tail[k] == items[k + 1];
      NoClassItems(tail);
      assert ItemClass(items[0]) == Success(None);
      assert ListClasses(items) == Success([] + []);
      assert ListClasses(items).value == [];
    }
  }
}

=== FILE: diversity.dfy ===
/** `select_most_dissimilar_images`: rank the downloaded images by the sum of
    their distances to all the others and keep the highest-ranked ones.

    Feature extraction and the cosine-distance computation are foreign numeric
    code; the model takes the resulting distance matrix as an input of reals. */
module Diversity {
  import opened Outcomes
  import opened PyLists
  import Download

  /** `np.sum` of one row. */
  function Sum(xs: seq<real>): real {
    if |xs| == 0 then 0.0 else Sum(xs[..|xs| - 1]) + xs[|xs| - 1]
  }

  /** `np.sum(distance_matrix, axis=1)`: one dissimilarity score per image.
      The contract spells out the definition; `ComputeRowSums` is the
      independent loop proved to agree with it. */
  function RowSums(m: seq<seq<real>>): (scores: seq<real>)
    ensures |scores| == |m|
    ensures forall i :: 0 <= i < |m| ==> scores[i] == Sum(m[i])
  {
    seq(|m|, i requires 0 <= i < |m| => Sum(m[i]))
  }

  /** The row sums as a summation loop computes them: each row added up left
      to right, one row after another. */
  method ComputeRowSums(m: seq<seq<real>>) returns (scores: seq<real>)
    ensures scores == RowSums(m)
  {
    scores := [];
    var i := 0;
    while i < |m|
      invariant 0 <= i <= |m|
      invariant |scores| == i && forall k :: 0 <= k < i ==> scores[k] == Sum(m[k])
    {
      var row := m[i];
      var acc := 0.0;
      var j := 0;
      while j < |row|
        invariant 0 <= j <= |row|
        invariant acc == Sum(row[..j])
      {
        assert row[..j + 1][..j] == row[..j];
        acc := acc + row[j];
        j := j + 1;
      }
      assert row[..j] == row;
      scores := scores + [acc];
      i := i + 1;
    }
  }

  /** `order` lists every index below `n` exactly once. */
  predicate IsPermutation(order: seq<nat>, n: nat) {
    && |order| == n
    && (forall k :: 0 <= k < |order| ==> order[k] < n)
    && Distinct(order)
    && (forall i: nat :: i < n ==> i in order)
  }

  /** The scores of the indices listed in `order` never decrease. */
  predicate AscendingBy(scores: seq<real>, order: seq<nat>) {
    && (forall k :: 0 <= k < |order| ==> order[k] < |scores|)
    && (forall a, b | 0 <= a < b < |order| :: scores[order[a]] <= scores[order[b]])
  }

  /** What `np.argsort(scores)` may return: a permutation of the indices that
      sorts the scores ascending. The default sort is not stable, so the order
      among equal scores is left open. */
  predicate IsArgsort(scores: seq<real>, order: seq<nat>) {
    IsPermutation(order, |scores|) && AscendingBy(scores, order)
  }

  /** Insert index `x` into an index list, before the first index whose
      score is at least that of `x`. */
  function InsertByScore(scores: seq<real>, sorted: seq<nat>, x: nat): (r: seq<nat>)
    requires x < |scores|
    requires forall k :: 0 <= k < |sorted| ==> sorted[k] < |scores|
    ensures |r| == |sorted| + 1
    ensures forall y :: y in r <==> y in sorted || y == x
  {
    if |sorted| == 0 || scores[x] <= scores[sorted[0]] then
      [x] + sorted
    else
      assert forall y :: y in sorted[1..] ==> y in sorted;
      [sorted[0]] + InsertByScore(scores, sorted[1..], x)
  }

  /** Insertion keeps an ascending list ascending. */
  lemma {:induction false} InsertKeepsAscending(scores: seq<real>, sorted: seq<nat>, x: nat)
    requires x < |scores|
    requires AscendingBy(scores, sorted)
    ensures AscendingBy(scores, InsertByScore(scores, sorted, x))
  {
    if |sorted| == 0 || scores[x] <= scores[sorted[0]] {
      var r := [x] + sorted;
      assert forall k :: 1 <= k < |r| ==> r[k] == sorted[k - 1];
    } else {
      var tail := sorted[1..];
      assert forall k :: 0 <= k < |tail| ==> tail[k] == sorted[k + 1];
      InsertKeepsAscending(scores, tail, x);
      var rest := InsertByScore(scores, tail, x);
      forall k | 0 <= k < |rest|
        ensures scores[sorted[0]] <= scores[rest[k]]
      {
        assert rest[k] in rest;
        if rest[k] != x {
          var m :| 0 <= m < |tail| && tail[m] == rest[k];
        }
      }
      var r := [sorted[0]] + rest;
      assert forall k :: 1 <= k < |r| ==> r[k] == rest[k - 1];
    }
  }

  /** Inserting a new index into a duplicate-free list keeps it duplicate-free. */
  lemma {:induction false} InsertKeepsDistinct(scores: seq<real>, sorted: seq<nat>, x: nat)
    requires x < |scores|
    requires forall k :: 0 <= k < |sorted| ==> sorted[k] < |scores|
    requires Distinct(sorted) && x !in sorted
    ensures Distinct(InsertByScore(scores, sorted, x))
  {
    if |sorted| == 0 || scores[x] <= scores[sorted[0]] {
      var r := [x] + sorted;
      assert forall k :: 1 <= k < |r| ==> r[k] == sorted[k - 1];
    } else {
      var tail := sorted[1..];
      assert forall k :: 0 <= k < |tail| ==> tail[k] == sorted[k + 1];
      InsertKeepsDistinct(scores, tail, x);
      var rest := InsertByScore(scores, tail, x);
      assert sorted[0] !in rest;
      var r := [sorted[0]] + rest;
      assert forall k :: 1 <= k < |r| ==> r[k] == rest[k - 1];
    }
  }

  /** One admissible `np.argsort`, by insertion; its existence shows that
      `IsArgsort` can always be met. */
  method Argsort(scores: seq<real>) returns (order: seq<nat>)
    ensures IsArgsort(scores, order)
  {
    order := [];
    var i := 0;
    while i < |scores|
      invariant i <= |scores|
      invariant |order| == i
      invariant forall k :: 0 <= k < |order| ==> order[k] < i
      invariant forall y: nat :: y < i ==> y in order
      invariant Distinct(order)
      invariant AscendingBy(scores, order)
    {
      assert i !in order;
      InsertKeepsAscending(scores, order, i);
      InsertKeepsDistinct(scores, order, i);
      var next := InsertByScore(scores, order, i);
      assert forall k :: 0 <= k < |next| ==> next[k] in next;
      order := next;
      i := i + 1;
    }
  }

  /** A suffix of an ascending order is itself ascending and duplicate-free. */
  lemma SuffixAscending(scores: seq<real>, order: seq<nat>, start: nat)
    requires IsArgsort(scores, order)
    requires start <= |order|
    ensures Distinct(order[start..])
    ensures AscendingBy(scores, order[start..])
  {
    assert forall q :: 0 <= q < |order| - start ==> order[start..][q] == order[start + q];
  }

  /** An index left out of a suffix of an ascending order scores no higher
      than any index kept in it. */
  lemma SuffixBeatsRest(scores: seq<real>, order: seq<nat>, start: nat)
    requires IsArgsort(scores, order)
    requires start <= |order|
    ensures forall a, b | 0 <= a < |order| - start && 0 <= b < |scores| && b !in order[start..] ::
      scores[b] <= scores[order[start..][a]]
  {
    var sel := order[start..];
    forall a, b | 0 <= a < |sel| && 0 <= b < |scores| && b !in sel
      ensures scores[b] <= scores[sel[a]]
    {
      assert b in order;
      var p :| 0 <= p < |order| && order[p] == b;
      assert forall q :: start <= q < |order| ==> order[q] == sel[q - start];
      assert sel[a] == order[start + a];
    }
  }

  /** `np.argsort(dissimilarity_scores)[-num_images:]`: the last `k` entries
      of the ascending order, with Python's slice semantics for every `k`
      (in particular `[-0:]` keeps everything). */
  function MostDissimilarIndices(scores: seq<real>, order: seq<nat>, k: int): (sel: seq<nat>)
    requires IsArgsort(scores, order)
    ensures |sel| <= |order| && sel == order[|order| - |sel|..]
    ensures 1 <= k <= |scores| ==> |sel| == k
    ensures k > |scores| ==> |sel| == |scores|
    ensures k == 0 ==> |sel| == |scores|
    ensures k < 0 ==> |sel| == if |scores| + k >= 0 then |scores| + k else 0
    ensures forall j :: 0 <= j < |sel| ==> sel[j] < |scores|
    ensures Distinct(sel)
    ensures AscendingBy(scores, sel)
    ensures forall a, b | 0 <= a < |sel| && 0 <= b < |scores| && b !in sel :: scores[b] <= scores[sel[a]]
  {
    var start := SliceBound(|order|, -k);
    SuffixAscending(scores, order, start);
    SuffixBeatsRest(scores, order, start);
    order[start..]
  }

  /** `[image_urls[idx] for idx in indices]`. */
  function UrlsAt(urls: seq<string>, indices: seq<nat>): (r: seq<string>)
    requires forall j :: 0 <= j < |indices| ==> indices[j] < |urls|
    ensures |r| == |indices|
    ensures forall j :: 0 <= j < |r| ==> r[j] == urls[indices[j]]
  {
    seq(|indices|, j requires 0 <= j < |indices| => urls[indices[j]])
  }

  /** The whole of `select_most_dissimilar_images` as written: download into
      `temp_images`, score the downloaded images, keep the last `k` of the
      ascending order and look each kept index up in `image_urls`. The index
      ranges over downloaded images, of which there are at most as many as
      URLs, so the lookup is always in bounds. With nothing downloaded the
      cosine-distance call rejects the empty feature list. */
  method SelectMostDissimilarImages(urls: seq<string>, responses: seq<Download.Response>,
                                    distances: seq<seq<real>>, k: int)
    returns (r: Result<seq<string>>, order: seq<nat>)
    requires |responses| == |urls|
    requires |distances| == |Download.SucceededIndices(responses)|
    ensures IsArgsort(RowSums(distances), order)
    ensures r.Failure? <==> |distances| == 0
    ensures r.Success? ==> r.value == UrlsAt(urls, MostDissimilarIndices(RowSums(distances), order, k))
  {
    var paths := Download.DownloadImages(urls, responses, "temp_images");
    var scores := RowSums(distances);
    order := Argsort(scores);
    if |paths| == 0 {
      return Failure(ValueError("cosine_distances of an empty feature list")), order;
    }
    var selected := MostDissimilarIndices(scores, order, k);
    r := Success(UrlsAt(urls, selected));
  }

  /** The intended lookup: the URL the scored image was downloaded from, that
      is the input position recorded for the `idx`-th downloaded file. */
  function DownloadedUrlsAt(urls: seq<string>, responses: seq<Download.Response>, indices: seq<nat>): (r: seq<string>)
    requires |responses| == |urls|
    requires forall j :: 0 <= j < |indices| ==> indices[j] < |Download.SucceededIndices(responses)|
    ensures |r| == |indices|
    ensures forall j :: 0 <= j < |r| ==>
      var source := Download.SucceededIndices(responses)[indices[j]];
      source < |urls| && Download.Succeeded(responses[source]) && r[j] == urls[source]
  {
    var ix := Download.SucceededIndices(responses);
    assert forall m :: 0 <= m < |ix| ==> ix[m] in ix;
    UrlsAt(urls, seq(|indices|, j requires 0 <= j < |indices| => ix[indices[j]]))
  }

  /** `u` is the URL of some input position whose download succeeded. */
  predicate Downloaded(urls: seq<string>, responses: seq<Download.Response>, u: string)
    requires |responses| == |urls|
  {
    exists i :: 0 <= i < |urls| && Download.Succeeded(responses[i]) && urls[i] == u
  }

  /** `select_most_dissimilar_images` with the intended lookup: each URL
      returned is the one the selected image was downloaded from, so every
      one of them was downloaded successfully. */
  method SelectDownloadedImages(urls: seq<string>, responses: seq<Download.Response>,
                                distances: seq<seq<real>>, k: int)
    returns (r: Result<seq<string>>, order: seq<nat>)
    requires |responses| == |urls|
    requires |distances| == |Download.SucceededIndices(responses)|
    ensures IsArgsort(RowSums(distances), order)
    ensures r.Failure? <==> |distances| == 0
    ensures r.Success? ==>
      r.value == DownloadedUrlsAt(urls, responses, MostDissimilarIndices(RowSums(distances), order, k))
    ensures r.Success? ==> forall j :: 0 <= j < |r.value| ==> Downloaded(urls, responses, r.value[j])
  {
    var scores := RowSums(distances);
    order := Argsort(scores);
    if |distances| == 0 {
      return Failure(ValueError("cosine_distances of an empty feature list")), order;
    }
    var selected := MostDissimilarIndices(scores, order, k);
    var found := DownloadedUrlsAt(urls, responses, selected);
    forall j | 0 <= j < |found|
      ensures Downloaded(urls, responses, found[j])
    {
      var source := Download.SucceededIndices(responses)[selected[j]];
      assert source < |urls| && Download.Succeeded(responses[source]) && found[j] == urls[source];
    }
    r := Success(found);
  }

  /** When every download succeeds, the downloaded images are the URLs in
      order and the lookup as written names the scored images. */
  lemma {:induction false} AllDownloadsAligned(urls: seq<string>, responses: seq<Download.Response>, indices: seq<nat>)
    requires |responses| == |urls|
    requires forall i :: 0 <= i < |responses| ==> Download.Succeeded(responses[i])
    requires forall j :: 0 <= j < |indices| ==> indices[j] < |urls|
    ensures |Download.SucceededIndices(responses)| == |urls|
    ensures DownloadedUrlsAt(urls, responses, indices) == UrlsAt(urls, indices)
  {
    var ix := Download.SucceededIndices(responses);
    IdentityIndices(responses);
  }

  lemma {:induction false} IdentityIndices(responses: seq<Download.Response>)
    requires forall i :: 0 <= i < |responses| ==> Download.Succeeded(responses[i])
    ensures |Download.SucceededIndices(responses)| == |responses|
    ensures forall m :: 0 <= m < |responses| ==> Download.SucceededIndices(responses)[m] == m
  {
    if |responses| > 0 {
      var n := |responses| - 1;
      IdentityIndices(responses[..n]);
    }
  }

  /** One failed download shifts the lookup: the second of two URLs is the
      only one downloaded, so it is the only image scored and any positive
      count selects it, yet the lookup as written returns the first URL,
      whose download failed. */
  lemma MisalignedAfterFailedDownload(urls: seq<string>, responses: seq<Download.Response>,
                                      distances: seq<seq<real>>, k: int)
    requires |urls| == 2 && urls[0] != urls[1]
    requires responses == [Download.Status(404), Download.Status(200)]
    requires |distances| == 1 && k >= 1
    ensures Download.SucceededIndices(responses) == [1]
    ensures IsArgsort(RowSums(distances), [0])
    ensures MostDissimilarIndices(RowSums(distances), [0], k) == [0]
    ensures UrlsAt(urls, [0]) == [urls[0]]
    ensures DownloadedUrlsAt(urls, responses, [0]) == [urls[1]]
    ensures !Downloaded(urls, responses, urls[0])
  {
    var sel := OnlyImageSelected(distances, k);
    AsWrittenLooksUpFirst(urls);
    IntendedLooksUpSecond(urls, responses);
    FirstNotDownloaded(urls, responses);
  }

  lemma AsWrittenLooksUpFirst(urls: seq<string>)
    requires |urls| == 2
    ensures UrlsAt(urls, [0]) == [urls[0]]
  {
    var r := UrlsAt(urls, [0]);
    assert |r| == 1 && r[0] == urls[0];
  }

  lemma IntendedLooksUpSecond(urls: seq<string>, responses: seq<Download.Response>)
    requires |urls| == 2
    requires responses == [Download.Status(404), Download.Status(200)]
    ensures Download.SucceededIndices(responses) == [1]
    ensures DownloadedUrlsAt(urls, responses, [0]) == [urls[1]]
  {
    OnlySecondDownloaded(responses);
    var r := DownloadedUrlsAt(urls, responses, [0]);
    assert |r| == 1 && r[0] == urls[1];
  }

  lemma FirstNotDownloaded(urls: seq<string>, responses: seq<Download.Response>)
    requires |urls| == 2 && urls[0] != urls[1]
    requires responses == [Download.Status(404), Download.Status(200)]
    ensures !Downloaded(urls, responses, urls[0])
  {
    assert !Download.Succeeded(responses[0]);
  }

  lemma OnlySecondDownloaded(responses: seq<Download.Response>)
    requires responses == [Download.Status(404), Download.Status(200)]
    ensures Download.SucceededIndices(responses) == [1]
  {
    var first := responses[..1];
    assert first[..0] == [];
    assert Download.SucceededIndices(first[..0]) == [];
    assert Download.SucceededIndices(first) == [];
    assert responses[..1] == first;
  }

  /** With one image scored, every positive count selects it. */
  lemma OnlyImageSelected(distances: seq<seq<real>>, k: int) returns (sel: seq<nat>)
    requires |distances| == 1 && k >= 1
    ensures IsArgsort(RowSums(distances), [0])
    ensures sel == MostDissimilarIndices(RowSums(distances), [0], k) && sel == [0]
  {
    var scores := RowSums(distances);
    assert |scores| == 1;
    assert forall i: nat :: i < 1 ==> i in [0];
    sel := MostDissimilarIndices(scores, [0], k);
  }
}

=== FILE: download.dfy ===
/** `download_images`: fetch each URL and keep the files of the successful
    downloads. The HTTP exchange itself is abstracted to one `Response` per
    input position, supplied by the caller. */
module Download {
  import opened PyStrings
  import opened PyLists
  import opened Paths

  /** How the body of the `try` went for one URL: `requests.get(url)`
      answered with a status code (and, for 200, the file was written), or
      something in that body raised, whether the request itself or opening
      or writing the file after a 200 answer. */
  datatype Response = Status(code: int) | Raised

  /** Only an answer with status exactly 200 saves a file. */
  predicate Succeeded(r: Response) {
    r == Status(200)
  }

  /** The input positions whose download succeeded, in input order. */
  function SucceededIndices(responses: seq<Response>): (ix: seq<nat>)
    ensures |ix| <= |responses|
    ensures StrictlyIncreasing(ix)
    ensures forall k :: 0 <= k < |ix| ==> ix[k] < |responses|
    ensures forall i :: 0 <= i < |responses| ==> (i in ix <==> Succeeded(responses[i]))
  {
    if |responses| == 0 then []
    else
      var n := |responses| - 1;
      var prev := SucceededIndices(responses[..n]);
      assert forall i :: 0 <= i < n ==> responses[..n][i] == responses[i];
      if Succeeded(responses[n]) then prev + [n] else prev
  }

  /** `f"image_{idx}.jpg"`: files are named by input position. */
  function ImageFileName(i: nat): string {
    "image_" + NatToString(i) + ".jpg"
  }

  function ImagePath(dir: string, i: nat): string {
    Join(dir, ImageFileName(i))
  }

  /** Two input positions never share a file. */
  lemma ImagePathInjective(dir: string, i: nat, j: nat)
    requires ImagePath(dir, i) == ImagePath(dir, j)
    ensures i == j
  {
    JoinInjective(dir, ImageFileName(i), ImageFileName(j));
    var a := ImageFileName(i);
    var b := ImageFileName(j);
    assert |a| == |b|;
    assert NatToString(i) == a[6..|a| - 4];
    assert NatToString(j) == b[6..|b| - 4];
    NatToStringInjective(i, j);
  }

  /** The file of each listed input position, in order. */
  function PathsFor(dir: string, ix: seq<nat>): (paths: seq<string>)
    ensures |paths| == |ix|
    ensures forall k :: 0 <= k < |ix| ==> paths[k] == ImagePath(dir, ix[k])
  {
    seq(|ix|, k requires 0 <= k < |ix| => ImagePath(dir, ix[k]))
  }

  lemma PathsForSnoc(dir: string, ix: seq<nat>, i: nat)
    ensures PathsFor(dir, ix + [i]) == PathsFor(dir, ix) + [ImagePath(dir, i)]
  {
  }

  /** The file of input position `i` is among the listed ones exactly when `i` is listed. */
  lemma PathsForMember(dir: string, ix: seq<nat>, i: nat)
    ensures ImagePath(dir, i) in PathsFor(dir, ix) <==> i in ix
  {
    var paths := PathsFor(dir, ix);
    if ImagePath(dir, i) in paths {
      var k :| 0 <= k < |paths| && paths[k] == ImagePath(dir, i);
      ImagePathInjective(dir, ix[k], i);
    }
    if i in ix {
      var k :| 0 <= k < |ix| && ix[k] == i;
      assert paths[k] == ImagePath(dir, i);
    }
  }

  /** Distinct positions give distinct files. */
  lemma PathsForDistinct(dir: string, ix: seq<nat>)
    requires Distinct(ix)
    ensures Distinct(PathsFor(dir, ix))
  {
    var paths := PathsFor(dir, ix);
    forall a, b | 0 <= a < b < |paths|
      ensures paths[a] != paths[b]
    {
      if paths[a] == paths[b] {
        ImagePathInjective(dir, ix[a], ix[b]);
      }
    }
  }

  /** The loop of `download_images`: a URL contributes its path exactly when
      its response is status 200 without an exception; paths keep input order
      and carry the input position, so they have gaps after failures. */
  method DownloadImages(urls: seq<string>, responses: seq<Response>, dir: string)
    returns (paths: seq<string>)
    requires |responses| == |urls|
    ensures paths == PathsFor(dir, SucceededIndices(responses))
    ensures |paths| <= |urls|
    ensures forall i :: 0 <= i < |urls| ==> (ImagePath(dir, i) in paths <==> Succeeded(responses[i]))
    ensures Distinct(paths)
    ensures (forall i :: 0 <= i < |urls| ==> !Succeeded(responses[i])) ==> paths == []
  {
    paths := [];
    var idx := 0;
    while idx < |urls|
      invariant idx <= |urls|
      invariant paths == PathsFor(dir, SucceededIndices(responses[..idx]))
    {
      DownloadStep(dir, responses, idx, paths);
      if responses[idx] == Status(200) {
        paths := paths + [ImagePath(dir, idx)];
      }
      idx := idx + 1;
    }
    PrefixWhole(responses, idx);
    DownloadedPaths(dir, responses);
  }

  /** One pass of the loop keeps the paths those of the successes so far. */
  lemma DownloadStep(dir: string, responses: seq<Response>, idx: nat, paths: seq<string>)
    requires idx < |responses| && paths == PathsFor(dir, SucceededIndices(responses[..idx]))
    ensures (if responses[idx] == Status(200) then paths + [ImagePath(dir, idx)] else paths)
      == PathsFor(dir, SucceededIndices(responses[..idx + 1]))
  {
    SucceededIndicesStep(responses, idx);
    PathsForSnoc(dir, SucceededIndices(responses[..idx]), idx);
  }

  /** One more response adds its position exactly when it succeeded. */
  lemma SucceededIndicesStep(responses: seq<Response>, idx: nat)
    requires idx < |responses|
    ensures SucceededIndices(responses[..idx + 1]) ==
      if Succeeded(responses[idx]) then SucceededIndices(responses[..idx]) + [idx]
      else SucceededIndices(responses[..idx])
  {
    assert responses[..idx + 1][..idx] == responses[..idx];
  }

  /** The files of the successful downloads: one per success, none shared,
      and none at all when every download failed. */
  lemma DownloadedPaths(dir: string, responses: seq<Response>)
    ensures var paths := PathsFor(dir, SucceededIndices(responses));
      && |paths| <= |responses|
      && (forall i :: 0 <= i < |responses| ==> (ImagePath(dir, i) in paths <==> Succeeded(responses[i])))
      && Distinct(paths)
      && ((forall i :: 0 <= i < |responses| ==> !Succeeded(responses[i])) ==> paths == [])
  {
    var ix := SucceededIndices(responses);
    var paths := PathsFor(dir, ix);
    forall i | 0 <= i < |responses|
      ensures ImagePath(dir, i) in paths <==> Succeeded(responses[i])
    {
      PathsForMember(dir, ix, i);
    }
    PathsForDistinct(dir, ix);
    if |ix| > 0 {
      assert ix[0] in ix;
    }
  }
}

=== FILE: labelmap.dfy ===
/** The label map file: `create_label_map` writes one `item { ... }` block
    per class, and `load_label_map_dict` reads the file back into a
    dictionary from class name to id by scanning it line by line. */
module LabelMap {
  import opened Outcomes
  import opened PyStrings
  import opened PyLists

  // ---------------------------------------------------------------------------
  // Writing

  const ItemLine: string := "item {\n"
  const CloseLine: string := "}\n"

  /** `f'  id: {idx}\n'` */
  function IdLine(id: nat): string {
    "  id: " + NatToString(id) + "\n"
  }

  /** `f"  name: '{class_name}'\n"`: the name is written verbatim, unescaped. */
  function NameLine(name: string): string {
    "  name: '" + name + "'\n"
  }

  /** The four lines of one block. */
  function BlockLines(id: nat, name: string): seq<string> {
    [ItemLine, IdLine(id), NameLine(name), CloseLine]
  }

  /** The blocks of `names`, numbered from `first`. */
  function BlocksFrom(names: seq<string>, first: nat): string
    decreases |names|
  {
    if |names| == 0 then ""
    else Concat(BlockLines(first, names[0])) + BlocksFrom(names[1..], first + 1)
  }

  /** `create_label_map(class_names, path)`: the text written to `path`;
      `enumerate(class_names, 1)` numbers the classes from 1. */
  function CreateLabelMap(classNames: seq<string>): (text: string)
    ensures text == Concat(FileLines(classNames, 1))
  {
    BlocksAreFileLines(classNames, 1);
    BlocksFrom(classNames, 1)
  }

  /** The text of the blocks is their lines written one after another. */
  lemma {:induction false} BlocksAreFileLines(names: seq<string>, first: nat)
    ensures BlocksFrom(names, first) == Concat(FileLines(names, first))
    decreases |names|
  {
    if |names| > 0 {
      BlocksAreFileLines(names[1..], first + 1);
      ConcatAppend(BlockLines(first, names[0]), FileLines(names[1..], first + 1));
    }
  }

  /** The lines of the file, block after block. */
  function FileLines(names: seq<string>, first: nat): seq<string>
    decreases |names|
  {
    if |names| == 0 then []
    else BlockLines(first, names[0]) + FileLines(names[1..], first + 1)
  }

  /** No class name carries a line break of its own. */
  predicate SingleLine(name: string) {
    '\n' !in name && '\r' !in name
  }

  lemma DigitsSingleLine(n: nat)
    ensures '\n' !in NatToString(n) && '\r' !in NatToString(n)
    ensures ' ' !in NatToString(n) && '\'' !in NatToString(n) && 'n' !in NatToString(n)
  {
    var d := NatToString(n);
    assert forall k :: 0 <= k < |d| ==> IsDigit(d[k]);
  }

  lemma BlockTerminated(id: nat, name: string)
    requires SingleLine(name)
    ensures forall k :: 0 <= k < 4 ==> Terminated(BlockLines(id, name)[k])
  {
    assert ItemLine == "item {" + "\n";
    TerminatedLine("item {");
    IdLineTerminated(id);
    NameLineTerminated(name);
    assert CloseLine == "}" + "\n";
    TerminatedLine("}");
  }

  lemma IdLineTerminated(id: nat)
    ensures Terminated(IdLine(id))
  {
    DigitsSingleLine(id);
    var a := "  id: " + NatToString(id);
    assert '\n' !in a;
    assert IdLine(id) == a + "\n";
    TerminatedLine(a);
  }

  lemma NameLineTerminated(name: string)
    requires SingleLine(name)
    ensures Terminated(NameLine(name))
  {
    var b := "  name: '" + name + "'";
    assert '\n' !in b;
    assert NameLine(name) == b + "\n";
    TerminatedLine(b);
  }

  /** Reading the file back yields exactly its blocks' lines. */
  lemma {:induction false} LinesOfLabelMap(names: seq<string>, first: nat)
    requires forall i :: 0 <= i < |names| ==> SingleLine(names[i])
    ensures Lines(BlocksFrom(names, first)) == FileLines(names, first)
    decreases |names|
  {
    if |names| > 0 {
      var tail := names[1..];
      assert forall i :: 0 <= i < |tail| ==> tail[i] == names[i + 1];
      LinesOfLabelMap(tail, first + 1);
      BlockTerminated(first, names[0]);
      LinesOfTerminated(BlockLines(first, names[0]), BlocksFrom(tail, first + 1));
    } else {
      assert Lines("") == [];
    }
  }

  /** The file holds exactly one block of four lines per class name, in input
      order; block `i` carries id `first + i` and the name verbatim. */
  lemma {:induction false} FileLinesShape(names: seq<string>, first: nat)
    ensures var ls := FileLines(names, first);
      && |ls| == 4 * |names|
      && forall i :: 0 <= i < |names| ==> ls[4 * i..4 * i + 4] == BlockLines(first + i, names[i])
    decreases |names|
  {
    if |names| > 0 {
      var tail := names[1..];
      FileLinesShape(tail, first + 1);
      var ls := FileLines(names, first);
      var rest := FileLines(tail, first + 1);
      assert ls == BlockLines(first, names[0]) + rest;
      forall i | 0 <= i < |names|
        ensures ls[4 * i..4 * i + 4] == BlockLines(first + i, names[i])
      {
        QuadAfterBlock(BlockLines(first, names[0]), rest, i);
        if i > 0 {
          assert tail[i - 1] == names[i];
        }
      }
    }
  }

  /** Slicing the `i`-th group of four out of a four-element head followed by
      `rest`. */
  lemma QuadAfterBlock<T>(head: seq<T>, rest: seq<T>, i: nat)
    requires |head| == 4 && 4 * i <= |rest|
    ensures i == 0 ==> (head + rest)[4 * i..4 * i + 4] == head
    ensures i > 0 ==> (head + rest)[4 * i..4 * i + 4] == rest[4 * (i - 1)..4 * (i - 1) + 4]
  {
    var j := 4 * i;
    if i > 0 {
      assert 4 * (i - 1) + 4 == j;
    }
  }

  /** `create_label_map` writes four lines per class, block `i` (0-based)
      carrying id `i + 1` and the class name verbatim. */
  lemma LabelMapLines(names: seq<string>)
    requires forall i :: 0 <= i < |names| ==> SingleLine(names[i])
    ensures var ls := Lines(CreateLabelMap(names));
      && |ls| == 4 * |names|
      && forall i :: 0 <= i < |names| ==>
        ls[4 * i..4 * i + 4] == [ItemLine, IdLine(i + 1), NameLine(names[i]), CloseLine]
  {
    LinesOfLabelMap(names, 1);
    FileLinesShape(names, 1);
  }

  // ---------------------------------------------------------------------------
  // Reading

  /** What the loop of `load_label_map_dict` carries from line to line: the
      most recent `class_id` (unassigned before the first `id:` line) and the
      dictionary built so far. */
  datatype ParseState = ParseState(classId: Option<int>, dict: map<string, int>)

  /** How a `name:` line yields its class name. */
  datatype NameRule =
    | LastToken  // as written: the last space-separated token of the stripped line, then `.strip("'")`
    | AfterKey   // corrected: everything after `name:`, stripped, then `.strip("'")`

  function NameOf(line: string, rule: NameRule): string
    requires Contains(line, "name:")
  {
    match rule
    case LastToken => StripChar(Last(Split(Strip(line), ' ')), '\'')
    case AfterKey => StripChar(Strip(line[FindSub(line, "name:") + 5..]), '\'')
  }

  /** The `id:` test of one line: the last space-separated token of the
      stripped line becomes the current id, through `int()`. */
  function IdUpdate(line: string, st: ParseState): Result<ParseState> {
    if Contains(line, "id:") then
      var id :- ParseInt(Last(Split(Strip(line), ' ')));
      Success(st.(classId := Some(id)))
    else
      Success(st)
  }

  /** One iteration of the loop: the `id:` test, then the `name:` test, which
      maps the line's name to the current id and fails if none was read yet. */
  function Step(line: string, st: ParseState, rule: NameRule): Result<ParseState> {
    var withId :- IdUpdate(line, st);
    if !Contains(line, "name:") then Success(withId)
    else if withId.classId.None? then Failure(UnboundName("class_id"))
    else Success(withId.(dict := withId.dict[NameOf(line, rule) := withId.classId.value]))
  }

  /** The loop over the lines; the first failing line ends it. Names are only
      ever added or overwritten, never removed, and lines without `name:`
      leave the dictionary alone. */
  function ParseLines(lines: seq<string>, st: ParseState, rule: NameRule): (r: Result<ParseState>)
    ensures r.Success? ==> st.dict.Keys <= r.value.dict.Keys
    ensures r.Success? && (forall k :: 0 <= k < |lines| ==> !Contains(lines[k], "name:"))
      ==> r.value.dict == st.dict
    decreases |lines|
  {
    if |lines| == 0 then Success(st)
    else
      var next :- Step(lines[0], st, rule);
      assert forall k :: 1 <= k < |lines| ==> lines[1..][k - 1] == lines[k];
      ParseLines(lines[1..], next, rule)
  }

  /** The text of a label map file read into a dictionary with a given rule;
      a file without any `name:` line gives the empty dictionary. */
  function ParseLabelMap(text: string, rule: NameRule): (r: Result<map<string, int>>)
    ensures r.Success? && (forall k :: 0 <= k < |ReadLines(text)| ==> !Contains(ReadLines(text)[k], "name:"))
      ==> r.value == map[]
  {
    var final :- ParseLines(ReadLines(text), ParseState(None, map[]), rule);
    Success(final.dict)
  }

  /** `load_label_map_dict(path)` as written, on the file's contents. */
  function LoadLabelMapDict(text: string): Result<map<string, int>> {
    ParseLabelMap(text, LastToken)
  }

  lemma {:induction false} ParseLinesAppend(a: seq<string>, b: seq<string>, st: ParseState, rule: NameRule)
    requires ParseLines(a, st, rule).Success?
    ensures ParseLines(a + b, st, rule) == ParseLines(b, ParseLines(a, st, rule).value, rule)
    decreases |a|
  {
    if |a| > 0 {
      assert (a + b)[1..] == a[1..] + b;
      ParseLinesAppend(a[1..], b, Step(a[0], st, rule).value, rule);
    } else {
      assert a + b == b;
    }
  }

  /** A `name:` line met before any `id:` line ends the load with the
      unassigned `class_id`. */
  lemma {:induction false} NameBeforeIdFails(lines: seq<string>, st: ParseState, rule: NameRule, j: nat)
    requires st.classId.None?
    requires j < |lines| && Contains(lines[j], "name:")
    requires forall k :: 0 <= k <= j ==> !Contains(lines[k], "id:")
    ensures ParseLines(lines, st, rule) == Failure(UnboundName("class_id"))
    decreases j
  {
    if !Contains(lines[0], "name:") {
      assert Step(lines[0], st, rule) == Success(st);
      var tail := lines[1..];
      assert forall k :: 0 <= k < j ==> tail[k] == lines[k + 1];
      NameBeforeIdFails(tail, st, rule, j - 1);
    }
  }

  // ---------------------------------------------------------------------------
  // Reading one block back

  lemma PunctuationLineStep(line: string, st: ParseState, rule: NameRule)
    requires ':' !in line
    ensures Step(line, st, rule) == Success(st)
  {
    NotContainsWithoutLast(line, "id:");
    NotContainsWithoutLast(line, "name:");
  }

  lemma IdLineStrip(id: nat)
    ensures Strip(IdLine(id)) == "id:" + [' '] + NatToString(id)
  {
    var d := NatToString(id);
    assert IdLine(id) == "  " + ("id:" + [' '] + d) + "\n";
    StripFramed("  ", "id:" + [' '] + d, "\n");
  }

  lemma IdLineKeys(id: nat)
    ensures Contains(IdLine(id), "id:") && !Contains(IdLine(id), "name:")
  {
    var line := IdLine(id);
    assert OccursAt(line, "id:", 2) by { assert line[2..5] == "id:"; }
    DigitsSingleLine(id);
    assert 'n' !in line;
    NotContainsWithoutFirst(line, "name:");
  }

  lemma IdLineToken(id: nat)
    ensures ParseInt(Last(Split(Strip(IdLine(id)), ' '))) == Success(id)
  {
    DigitsSingleLine(id);
    IdLineStrip(id);
    SplitLastAfterSeparator("id:", ' ', NatToString(id));
    ParseIntOfNatToString(id);
  }

  lemma IdLineStep(id: nat, st: ParseState, rule: NameRule)
    ensures Step(IdLine(id), st, rule) == Success(st.(classId := Some(id)))
  {
    IdLineKeys(id);
    IdLineToken(id);
  }

  /** A class name that comes back unchanged through the file under `rule`:
      on one line, free of `id:` (which would make its line an id line) and
      neither starting nor ending with an apostrophe (which `.strip("'")`
      would eat). The rule as written also needs it free of spaces. */
  predicate Representable(name: string, rule: NameRule) {
    && SingleLine(name)
    && !Contains(name, "id:")
    && (|name| == 0 || (name[0] != '\'' && name[|name| - 1] != '\''))
    && (rule.LastToken? ==> ' ' !in name)
  }

  lemma NameLineKeys(name: string)
    requires !Contains(name, "id:")
    ensures Contains(NameLine(name), "name:") && !Contains(NameLine(name), "id:")
  {
    var line := NameLine(name);
    NameKeyAtTwo(name);
    assert line == "  name: '" + (name + "'\n");
    ContainsAfterPrefix("  name: '", name + "'\n", "id:");
    ContainsBeforeSuffix(name, "'\n", "id:");
  }

  /** `'name'` with its quotes stripped again. */
  lemma Unquote(name: string)
    requires |name| == 0 || (name[0] != '\'' && name[|name| - 1] != '\'')
    ensures StripChar("'" + name + "'", '\'') == name
  {
    StripCharFramed(name, '\'');
    assert [('\'')] + name + [('\'')] == "'" + name + "'";
  }

  lemma NameLineLastToken(name: string)
    requires Representable(name, LastToken)
    ensures Contains(NameLine(name), "name:") && NameOf(NameLine(name), LastToken) == name
  {
    NameLineKeys(name);
    var quoted := "'" + name + "'";
    NameLineStripped(name);
    assert ' ' !in quoted;
    SplitLastAfterSeparator("name:", ' ', quoted);
    Unquote(name);
  }

  /** The stripped name line: the key, one space, the quoted name. */
  lemma NameLineStripped(name: string)
    ensures Strip(NameLine(name)) == "name:" + [' '] + ("'" + name + "'")
  {
    var quoted := "'" + name + "'";
    assert NameLine(name) == "  " + ("name:" + [' '] + quoted) + "\n";
    StripFramed("  ", "name:" + [' '] + quoted, "\n");
  }

  lemma NameLineAfterKey(name: string)
    requires Representable(name, AfterKey)
    ensures Contains(NameLine(name), "name:") && NameOf(NameLine(name), AfterKey) == name
  {
    NameLineKeys(name);
    NameLineKeyAt(name);
    var quoted := "'" + name + "'";
    assert NameLine(name)[7..] == " " + quoted + "\n";
    StripFramed(" ", quoted, "\n");
    Unquote(name);
  }

  /** The key of a name line is found at position 2, after the indent. */
  lemma NameLineKeyAt(name: string)
    ensures Contains(NameLine(name), "name:") && FindSub(NameLine(name), "name:") == 2
  {
    var line := NameLine(name);
    assert line[0] == ' ' && line[1] == ' ';
    assert !OccursAt(line, "name:", 0) by { assert line[0..5][0] == line[0]; }
    assert !OccursAt(line, "name:", 1) by { assert line[1..6][0] == line[1]; }
    NameKeyAtTwo(name);
  }

  lemma NameKeyAtTwo(name: string)
    ensures OccursAt(NameLine(name), "name:", 2)
  {
    var indent := "  name: '";
    assert OccursAt(indent, "name:", 2) by { assert indent[2..7] == "name:"; }
    OccursInPrefix(indent, name + "'\n", "name:", 2);
    assert NameLine(name) == indent + (name + "'\n");
  }

  lemma NameLineStep(name: string, st: ParseState, rule: NameRule)
    requires Representable(name, rule)
    requires st.classId.Some?
    ensures Step(NameLine(name), st, rule) == Success(st.(dict := st.dict[name := st.classId.value]))
  {
    NameLineKeys(name);
    if rule.LastToken? {
      NameLineLastToken(name);
    } else {
      NameLineAfterKey(name);
    }
  }

  lemma ParseLinesFirst(lines: seq<string>, st: ParseState, next: ParseState, rule: NameRule)
    requires |lines| > 0 && Step(lines[0], st, rule) == Success(next)
    ensures ParseLines(lines, st, rule) == ParseLines(lines[1..], next, rule)
  {
  }

  /** One block read back maps its name to its id. */
  lemma BlockStep(id: nat, name: string, st: ParseState, rule: NameRule)
    requires Representable(name, rule)
    ensures ParseLines(BlockLines(id, name), st, rule)
      == Success(ParseState(Some(id), st.dict[name := id]))
  {
    NameLineStep(name, st.(classId := Some(id)), rule);
    BlockReadsAs(id, name, name, st, rule);
  }

  /** A block whose name line maps `key` to the block's id. */
  lemma BlockReadsAs(id: nat, name: string, key: string, st: ParseState, rule: NameRule)
    requires !Contains(name, "id:")
    requires Step(NameLine(name), st.(classId := Some(id)), rule)
      == Success(ParseState(Some(id), st.dict[key := id]))
    ensures ParseLines(BlockLines(id, name), st, rule)
      == Success(ParseState(Some(id), st.dict[key := id]))
  {
    var tail := [NameLine(name), CloseLine];
    assert BlockLines(id, name) == [ItemLine, IdLine(id)] + tail;
    BlockHeadReads(id, tail, st, rule);
    BlockTailReads(name, st.(classId := Some(id)), ParseState(Some(id), st.dict[key := id]), rule);
  }

  /** The item and id lines of a block only set the current id. */
  lemma BlockHeadReads(id: nat, rest: seq<string>, st: ParseState, rule: NameRule)
    ensures ParseLines([ItemLine, IdLine(id)] + rest, st, rule)
      == ParseLines(rest, st.(classId := Some(id)), rule)
  {
    var l1 := [IdLine(id)] + rest;
    assert [ItemLine, IdLine(id)] + rest == [ItemLine] + l1;
    assert ':' !in ItemLine;
    PunctuationLineStep(ItemLine, st, rule);
    ParseLinesCons(ItemLine, l1, st, st, rule);
    IdLineStep(id, st, rule);
    ParseLinesCons(IdLine(id), rest, st, st.(classId := Some(id)), rule);
  }

  /** The name and closing lines of a block do what the name line does. */
  lemma BlockTailReads(name: string, st1: ParseState, st2: ParseState, rule: NameRule)
    requires Step(NameLine(name), st1, rule) == Success(st2)
    ensures ParseLines([NameLine(name), CloseLine], st1, rule) == Success(st2)
  {
    var l3: seq<string> := [CloseLine];
    assert [NameLine(name), CloseLine] == [NameLine(name)] + l3;
    ParseLinesCons(NameLine(name), l3, st1, st2, rule);
    assert ':' !in CloseLine;
    PunctuationLineStep(CloseLine, st2, rule);
    ParseLinesCons(CloseLine, [], st2, st2, rule);
    assert l3 == [CloseLine] + [];
  }

  lemma ParseLinesCons(line: string, rest: seq<string>, st: ParseState, next: ParseState, rule: NameRule)
    requires Step(line, st, rule) == Success(next)
    ensures ParseLines([line] + rest, st, rule) == ParseLines(rest, next, rule)
  {
    assert ([line] + rest)[0] == line && ([line] + rest)[1..] == rest;
  }

  /** The names of a list, as a set. */
  function NameSet(names: seq<string>): set<string> {
    set i | 0 <= i < |names| :: names[i]
  }

  lemma NameSetCons(names: seq<string>)
    requires |names| > 0
    ensures NameSet(names) == {names[0]} + NameSet(names[1..])
  {
    forall x | x in NameSet(names)
      ensures x in {names[0]} + NameSet(names[1..])
    {
      var i :| 0 <= i < |names| && names[i] == x;
      if i > 0 { assert names[1..][i - 1] == x; }
    }
  }

  /** Reading back the blocks of `names` numbered from `first` adds every name,
      leaves each with the id of its last block and keeps every other entry. */
  lemma {:induction false} ParseBlocks(names: seq<string>, first: nat, st: ParseState, rule: NameRule)
    requires forall i :: 0 <= i < |names| ==> Representable(names[i], rule)
    ensures var r := ParseLines(FileLines(names, first), st, rule);
      && r.Success?
      && r.value.dict.Keys == st.dict.Keys + NameSet(names)
      && (forall i :: 0 <= i < |names| && names[i] !in names[i + 1..] ==> r.value.dict[names[i]] == first + i)
      && (forall x :: x in st.dict && x !in names ==> r.value.dict[x] == st.dict[x])
    decreases |names|
  {
    if |names| > 0 {
      var tail := names[1..];
      assert forall i :: 0 <= i < |tail| ==> tail[i] == names[i + 1];
      BlockStep(first, names[0], st, rule);
      var st1 := ParseState(Some(first), st.dict[names[0] := first]);
      ParseLinesAppend(BlockLines(first, names[0]), FileLines(tail, first + 1), st, rule);
      ParseBlocks(tail, first + 1, st1, rule);
      var r := ParseLines(FileLines(names, first), st, rule);
      assert r == ParseLines(FileLines(tail, first + 1), st1, rule);
      DictAfterBlocks(names, first, st.dict, r.value.dict);
    } else {
      assert NameSet(names) == {};
    }
  }

  /** The dictionary after a first block and the blocks of the tail, in
      terms of the whole list. */
  lemma DictAfterBlocks(names: seq<string>, first: nat, d0: map<string, int>, d: map<string, int>)
    requires |names| > 0
    requires d.Keys == d0[names[0] := first].Keys + NameSet(names[1..])
    requires forall i :: 0 <= i < |names[1..]| && names[1..][i] !in names[1..][i + 1..] ==> d[names[1..][i]] == first + 1 + i
    requires forall x :: x in d0[names[0] := first] && x !in names[1..] ==> d[x] == d0[names[0] := first][x]
    ensures d.Keys == d0.Keys + NameSet(names)
    ensures forall i :: 0 <= i < |names| && names[i] !in names[i + 1..] ==> d[names[i]] == first + i
    ensures forall x :: x in d0 && x !in names ==> d[x] == d0[x]
  {
    var tail := names[1..];
    NameSetCons(names);
    forall i | 0 <= i < |names| && names[i] !in names[i + 1..]
      ensures d[names[i]] == first + i
    {
      if i == 0 {
        assert tail == names[i + 1..];
      } else {
        assert tail[i - 1] == names[i];
        assert tail[i - 1 + 1..] == names[i + 1..];
      }
    }
    forall x | x in d0 && x !in names
      ensures d[x] == d0[x]
    {
      assert x != names[0];
      assert x !in tail;
    }
  }

  // ---------------------------------------------------------------------------
  // Round trip

  lemma {:induction false} NoCarriageReturn(names: seq<string>, first: nat)
    requires forall i :: 0 <= i < |names| ==> SingleLine(names[i])
    ensures '\r' !in BlocksFrom(names, first)
    decreases |names|
  {
    if |names| > 0 {
      var tail := names[1..];
      assert forall i :: 0 <= i < |tail| ==> tail[i] == names[i + 1];
      NoCarriageReturn(tail, first + 1);
      DigitsSingleLine(first);
      NotInConcat(BlockLines(first, names[0]), '\r');
    }
  }

  /** What a label map file read back holds, before the dictionary is taken. */
  lemma ReadBack(names: seq<string>, rule: NameRule)
    requires forall i :: 0 <= i < |names| ==> Representable(names[i], rule)
    ensures ReadLines(CreateLabelMap(names)) == FileLines(names, 1)
  {
    BlocksReadBack(names);
  }

  lemma BlocksReadBack(names: seq<string>)
    requires forall i :: 0 <= i < |names| ==> SingleLine(names[i])
    ensures ReadLines(BlocksFrom(names, 1)) == FileLines(names, 1)
  {
    NoCarriageReturn(names, 1);
    NormalizeNewlinesIdentity(BlocksFrom(names, 1));
    LinesOfLabelMap(names, 1);
  }

  /** The dictionary a faithful reader produces: the class at 0-based
      position `i` has id `i + 1`. */
  function ExpectedIds(names: seq<string>): map<string, int>
    requires Distinct(names)
  {
    map i | 0 <= i < |names| :: names[i] := i + 1
  }

  /** A dictionary holding exactly the names of a distinct list, each at its
      1-based position, is `ExpectedIds`. */
  lemma IsExpectedIds(names: seq<string>, d: map<string, int>)
    requires Distinct(names)
    requires d.Keys == NameSet(names)
    requires forall i :: 0 <= i < |names| && names[i] !in names[i + 1..] ==> d[names[i]] == i + 1
    ensures d == ExpectedIds(names)
  {
    var e := ExpectedIds(names);
    ExpectedIdsKeys(names);
    forall x | x in d ensures d[x] == e[x] {
      var i :| 0 <= i < |names| && names[i] == x;
      ExpectedIdAt(names, i);
      DistinctNotLater(names, i);
      assert d[names[i]] == i + 1;
    }
    assert d.Keys == e.Keys;
  }

  lemma ExpectedIdsKeys(names: seq<string>)
    requires Distinct(names)
    ensures ExpectedIds(names).Keys == NameSet(names)
  {
    var e := ExpectedIds(names);
    forall x | x in NameSet(names) ensures x in e {
      var i :| 0 <= i < |names| && names[i] == x;
    }
  }

  lemma ExpectedIdAt(names: seq<string>, i: nat)
    requires Distinct(names) && i < |names|
    ensures ExpectedIds(names)[names[i]] == i + 1
  {
  }

  /** Reading a written label map back: for distinct, representable names the
      dictionary maps each name to its 1-based position, and holds nothing else. */
  lemma RoundTrip(names: seq<string>, rule: NameRule)
    requires forall i :: 0 <= i < |names| ==> Representable(names[i], rule)
    requires Distinct(names)
    ensures ParseLabelMap(CreateLabelMap(names), rule) == Success(ExpectedIds(names))
  {
    ReadBack(names, rule);
    var st0 := ParseState(None, map[]);
    ParseBlocks(names, 1, st0, rule);
    var r := ParseLines(FileLines(names, 1), st0, rule);
    assert st0.dict.Keys + NameSet(names) == NameSet(names);
    IsExpectedIds(names, r.value.dict);
  }

  /** When a name is written more than once, its last block's id wins; every
      written name is in the dictionary and nothing else is. */
  lemma LaterIdWins(names: seq<string>, rule: NameRule, i: nat)
    requires forall k :: 0 <= k < |names| ==> Representable(names[k], rule)
    requires i < |names| && names[i] !in names[i + 1..]
    ensures var r := ParseLabelMap(CreateLabelMap(names), rule);
      && r.Success?
      && r.value.Keys == NameSet(names)
      && r.value[names[i]] == i + 1
  {
    ReadBack(names, rule);
    ParseBlocks(names, 1, ParseState(None, map[]), rule);
  }

  // ---------------------------------------------------------------------------
  // Class names with spaces

  lemma StripQuoteAfterWord(w: string)
    requires |w| > 0 && w[0] != '\'' && w[|w| - 1] != '\''
    ensures StripChar(w + "'", '\'') == w
  {
    var tail := w + "'";
    assert [] + tail == tail;
    LStripPrefix([], tail, c => c == '\'');
    RStripSuffix(w, "'", c => c == '\'');
  }

  lemma NameLineWithSpaceStrip(a: string, w: string)
    ensures Strip(NameLine(a + " " + w)) == ("name: '" + a) + [' '] + (w + "'")
  {
    var t := ("name: '" + a) + [' '] + (w + "'");
    assert NameLine(a + " " + w) == "  " + t + "\n";
    StripFramed("  ", t, "\n");
  }

  lemma NameLineWithSpace(a: string, w: string)
    requires ' ' !in w && |w| > 0 && w[0] != '\'' && w[|w| - 1] != '\''
    ensures StripChar(Last(Split(Strip(NameLine(a + " " + w)), ' ')), '\'') == w
  {
    NameLineWithSpaceStrip(a, w);
    assert ' ' !in w + "'";
    SplitLastAfterSeparator("name: '" + a, ' ', w + "'");
    StripQuoteAfterWord(w);
  }

  /** As written, a class name with a space keeps only its last word: the
      label map written for `a + " " + w` reads back as `{w: 1}`. */
  lemma MultiWordNameKeepsLastWord(a: string, w: string)
    requires Representable(a + " " + w, AfterKey)
    requires ' ' !in w && |w| > 0 && w[0] != '\''
    ensures LoadLabelMapDict(CreateLabelMap([a + " " + w])) == Success(map[w := 1])
  {
    var name := a + " " + w;
    SingleBlockReadBack(name);
    var st0 := ParseState(None, map[]);
    var st1 := ParseState(Some(1), map[]);
    NameLineKeys(name);
    NameLineWithSpace(a, w);
    assert Step(NameLine(name), st1, LastToken) == Success(ParseState(Some(1), map[w := 1]));
    BlockReadsAs(1, name, w, st0, LastToken);
  }

  /** The file written for one class holds the lines of one block. */
  lemma SingleBlockReadBack(name: string)
    requires SingleLine(name)
    ensures ReadLines(CreateLabelMap([name])) == BlockLines(1, name)
  {
    var names := [name];
    NoCarriageReturn(names, 1);
    NormalizeNewlinesIdentity(CreateLabelMap(names));
    LinesOfLabelMap(names, 1);
    assert FileLines(names, 1) == BlockLines(1, name) + FileLines(names[1..], 2);
    assert FileLines(names[1..], 2) == [];
  }

  lemma RedAppleHasNoIdKey()
    ensures Representable("red apple", AfterKey)
  {
    NotContainsWithoutFirst("red apple", "id:");
  }

  /** The label map of the query "red apple" reads back as `{"apple": 1}`. */
  lemma RedAppleReadsAsApple()
    ensures LoadLabelMapDict(CreateLabelMap(["red apple"])) == Success(map["apple" := 1])
  {
    assert "red apple" == "red" + " " + "apple";
    RedAppleHasNoIdKey();
    MultiWordNameKeepsLastWord("red", "apple");
  }

  lemma SingletonExpectedIds(name: string)
    ensures Distinct([name]) && ExpectedIds([name]) == map[name := 1]
  {
    var e := ExpectedIds([name]);
    assert [name][0] == name;
    assert name in e && e[name] == 1;
    assert forall x | x in e :: x == name;
  }

  /** The corrected reader keeps the whole name: "red apple" reads back as
      `{"red apple": 1}`. */
  lemma RedAppleRoundTrips()
    ensures ParseLabelMap(CreateLabelMap(["red apple"]), AfterKey) == Success(map["red apple" := 1])
  {
    RedAppleHasNoIdKey();
    SingletonExpectedIds("red apple");
    RoundTrip(["red apple"], AfterKey);
  }
}

=== FILE: manual.dfy ===
/** The form handler that turns the rectangles a user dragged over each image
    into one annotation file per image. */
module ManualAnnotations {
  import opened Outcomes
  import opened PyStrings
  import opened Paths
  import opened AnnotationStore

  /** The directory the images are stored in. */
  const ImagesDir: string := "dataset/train/images"

  /** A rectangle as the page posts it: corner and extent, each divided by
      the canvas side, so normally in [0, 1]; width or height is negative
      when the drag went left or up. */
  datatype DragRect = DragRect(x: real, y: real, width: real, height: real)

  /** The pixel size of an image. */
  datatype ImageSize = ImageSize(width: nat, height: nat)

  /** The record built from one rectangle on an image of positive size:
      scaled to pixels and divided back, in `[ymin, xmin, ymax, xmax]` order. */
  function ManualRecord(r: DragRect, size: ImageSize, query: string): (rec: Record)
    requires size.width > 0 && size.height > 0
    ensures rec.bbox == [r.y, r.x, r.y + r.height, r.x + r.width]
    ensures rec.className == query && rec.score == 1.0
    // the corners are not put in order: a drag to the left or upwards gives
    // a box whose maximum lies below its minimum
    ensures r.width < 0.0 <==> rec.bbox[3] < rec.bbox[1]
    ensures r.height < 0.0 <==> rec.bbox[2] < rec.bbox[0]
  {
    var w := size.width as real;
    var h := size.height as real;
    var xMin := r.x * w;
    var yMin := r.y * h;
    var xMax := xMin + r.width * w;
    var yMax := yMin + r.height * h;
    ScaleCancels(r.x, w);
    ScaleCancels(r.y, h);
    ExtentCancels(r.x, r.width, w);
    ExtentCancels(r.y, r.height, h);
    assert yMin / h == r.y && xMin / w == r.x;
    assert yMax / h == r.y + r.height && xMax / w == r.x + r.width;
    Record(query, [yMin / h, xMin / w, yMax / h, xMax / w], 1.0)
  }

  /** Scaling by a positive side and dividing by it gives the value back. */
  lemma ScaleCancels(a: real, w: real)
    requires w > 0.0
    ensures (a * w) / w == a
  {
  }

  lemma ExtentCancels(a: real, d: real, w: real)
    requires w > 0.0
    ensures (a * w + d * w) / w == a + d
  {
    assert a * w + d * w == (a + d) * w;
    ScaleCancels(a + d, w);
  }

  /** The list written for one posted pair. `rect` is `None` when the posted
      text does not parse as JSON with the four keys, or when one of their
      values is not a number; `sizes` holds the images that can be opened.
      The height is the first divisor met. */
  function ManualFile(name: string, rect: Option<DragRect>, sizes: map<string, ImageSize>, query: string)
    : (r: Result<seq<Record>>)
    ensures r.Success? <==> rect.Some? && name in sizes && sizes[name].width > 0 && sizes[name].height > 0
    ensures r.Success? ==> r.value == [ManualRecord(rect.value, sizes[name], query)]
  {
    if rect.None? then Failure(ValueError("annotation is not a JSON rectangle"))
    else if name !in sizes then Failure(ReadFailure(Join(ImagesDir, name)))
    else if sizes[name].height == 0 || sizes[name].width == 0 then Failure(ZeroDivision)
    else Success([ManualRecord(rect.value, sizes[name], query)])
  }

  /** Python's `zip`: pairs up to the shorter list. The contract spells out
      the definition; `ZipTruncates` states what it means for the handler. */
  function Zip<A, B>(a: seq<A>, b: seq<B>): (z: seq<(A, B)>)
    ensures |z| == if |a| <= |b| then |a| else |b|
    ensures forall i :: 0 <= i < |z| ==> z[i] == (a[i], b[i])
  {
    seq(if |a| <= |b| then |a| else |b|, i requires 0 <= i < |a| && 0 <= i < |b| => (a[i], b[i]))
  }

  /** The writes of the form handler, one per posted pair. */
  function ManualWrites(names: seq<string>, rects: seq<Option<DragRect>>, sizes: map<string, ImageSize>, query: string)
    : (ws: seq<Write>)
    ensures |ws| == |Zip(names, rects)|
    ensures forall i :: 0 <= i < |ws| ==> ws[i] == (AnnotationFileName(names[i]), ManualFile(names[i], rects[i], sizes, query))
  {
    var pairs := Zip(names, rects);
    seq(|pairs|, i requires 0 <= i < |pairs| => (AnnotationFileName(pairs[i].0), ManualFile(pairs[i].0, pairs[i].1, sizes, query)))
  }

  /** `save_annotations(image_names, annotations, original_query)` up to the
      hand-off to training: the annotations directory afterwards, and the
      exception that ended the loop early, if any. */
  function SaveManualAnnotations(
    names: seq<string>, rects: seq<Option<DragRect>>, sizes: map<string, ImageSize>,
    query: string, store: Store): (out: Outcome)
    ensures var n := |Zip(names, rects)|;
      out.failure.None? <==> forall i :: 0 <= i < n ==> ManualFile(names[i], rects[i], sizes, query).Success?
  {
    ApplyWrites(ManualWrites(names, rects, sizes, query), store)
  }

  /** When every pair is usable, each image whose annotation file no later
      pair rewrites gets a one-element list holding its record. */
  lemma ManualFileContents(
    names: seq<string>, rects: seq<Option<DragRect>>, sizes: map<string, ImageSize>,
    query: string, store: Store, i: nat)
    requires var ws := ManualWrites(names, rects, sizes, query);
      AllSucceed(ws) && i < |ws| && ws[i].0 !in FileNames(ws[i + 1..])
    ensures var out := SaveManualAnnotations(names, rects, sizes, query, store).store;
      var file := AnnotationFileName(names[i]);
      && file in out
      && out[file] == [ManualRecord(rects[i].value, sizes[names[i]], query)]
      && out[file][0].bbox == [rects[i].value.y, rects[i].value.x,
                               rects[i].value.y + rects[i].value.height, rects[i].value.x + rects[i].value.width]
  {
    LastWriteWins(ManualWrites(names, rects, sizes, query), store, i);
  }

  /** Pairs beyond the shorter list are ignored. */
  lemma ZipTruncates(
    names: seq<string>, rects: seq<Option<DragRect>>, sizes: map<string, ImageSize>,
    query: string, store: Store)
    ensures |names| > |rects| ==>
      SaveManualAnnotations(names, rects, sizes, query, store)
        == SaveManualAnnotations(names[..|rects|], rects, sizes, query, store)
    ensures |rects| > |names| ==>
      SaveManualAnnotations(names, rects, sizes, query, store)
        == SaveManualAnnotations(names, rects[..|names|], sizes, query, store)
  {
    if |names| > |rects| {
      assert ManualWrites(names, rects, sizes, query) == ManualWrites(names[..|rects|], rects, sizes, query);
    }
    if |rects| > |names| {
      assert ManualWrites(names, rects, sizes, query) == ManualWrites(names, rects[..|names|], sizes, query);
    }
  }

  /** A completed save writes exactly the annotation files of the posted
      images, in addition to what was there. */
  lemma ManualFilesWritten(
    names: seq<string>, rects: seq<Option<DragRect>>, sizes: map<string, ImageSize>,
    query: string, store: Store)
    requires SaveManualAnnotations(names, rects, sizes, query, store).failure.None?
    ensures SaveManualAnnotations(names, rects, sizes, query, store).store.Keys
      == store.Keys + (set i | 0 <= i < |Zip(names, rects)| :: AnnotationFileName(names[i]))
  {
    var ws := ManualWrites(names, rects, sizes, query);
    ApplyWritesKeys(ws, store);
    assert FileNames(ws) == (set i | 0 <= i < |Zip(names, rects)| :: AnnotationFileName(names[i])) by {
      forall x | x in FileNames(ws)
        ensures x in (set i | 0 <= i < |Zip(names, rects)| :: AnnotationFileName(names[i]))
      {
        var k :| 0 <= k < |ws| && ws[k].0 == x;
      }
    }
  }
}

=== FILE: outcomes.dfy ===
/** Failure-compatible result types shared by the whole model.

    The Python code reports every problem by raising an exception; the model
    returns a `Result` whose `Failure` carries the kind of exception raised. */
module Outcomes {

  datatype Option<+T> = None | Some(value: T)

  /** The kind of Python exception a step raises. */
  datatype Error =
    | KeyError(key: string)          // a dict lookup of a missing key
    | IndexError                     // a list or array index out of range
    | ValueError(reason: string)     // int() of a non-number, an empty class set, unreadable JSON
    | UnboundName(name: string)      // a local variable read before any assignment
    | ZeroDivision                   // a division by an image side of length 0
    | TypeError(reason: string)      // a value of a type the code does not handle
    | ReadFailure(path: string)      // a file that could not be opened or decoded
    | CollaboratorFailed(what: string) // an external trainer, detector or converter raised

  datatype Result<+T> = Success(value: T) | Failure(error: Error) {

    predicate IsFailure() {
      Failure?
    }

    function PropagateFailure<U>(): Result<U>
      requires Failure?
    {
      Failure(error)
    }

    function Extract(): T
      requires Success?
    {
      value
    }
  }

  /** `rs[k]` is the first result that failed. */
  predicate FirstFailure<T>(rs: seq<Result<T>>, k: nat)
    requires k < |rs|
  {
    rs[k].Failure? && forall j :: 0 <= j < k ==> rs[j].Success?
  }

  /** `r` is what a loop computing `rs` one after the other and stopping at
      its first exception gives: every value, in order, when all succeed, and
      otherwise the exception of the first that failed. */
  ghost predicate Collected<T>(rs: seq<Result<T>>, r: Result<seq<T>>) {
    && (r.Success? <==> forall k :: 0 <= k < |rs| ==> rs[k].Success?)
    && (r.Success? ==> |r.value| == |rs| && forall k :: 0 <= k < |rs| ==> r.value[k] == rs[k].value)
    && (r.Failure? ==> exists k :: 0 <= k < |rs| && FirstFailure(rs, k) && r.error == rs[k].error)
  }

  /** The values of results computed one after the other, or the exception
      of the first that failed. */
  function AllValues<T>(rs: seq<Result<T>>): (r: Result<seq<T>>)
    ensures Collected(rs, r)
    decreases |rs|
  {
    if |rs| == 0 then Success([])
    else if rs[0].Failure? then Failure(rs[0].error)
    else
      var tail := rs[1..];
      assert forall k :: 0 <= k < |tail| ==> tail[k] == rs[k + 1];
      var rest := AllValues(tail);
      if rest.Failure? then
        var k :| 0 <= k < |tail| && FirstFailure(tail, k) && rest.error == tail[k].error;
        assert FirstFailure(rs, k + 1);
        Failure(rest.error)
      else
        Success([rs[0].value] + rest.value)
  }
}

=== FILE: paths.dfy ===
/** The `os.path` operations the pipeline uses to name files, with the
    semantics of Python's `posixpath`. */
module Paths {
  import opened Outcomes
  import opened PyStrings
  import opened PyLists

  /** What `os.path.join(dir, name)` puts in front of a relative `name`. */
  function JoinPrefix(dir: string): string {
    if |dir| == 0 || dir[|dir| - 1] == '/' then dir else dir + "/"
  }

  /** `os.path.join(dir, name)`: an absolute `name` replaces `dir`; otherwise a
      `/` is inserted unless `dir` is empty or already ends in one. */
  function Join(dir: string, name: string): (path: string)
    ensures |name| > 0 && name[0] == '/' ==> path == name
    ensures (|name| == 0 || name[0] != '/') ==> path == JoinPrefix(dir) + name
    ensures EndsWith(path, name)
  {
    if |name| > 0 && name[0] == '/' then name
    else if |dir| == 0 || dir[|dir| - 1] == '/' then dir + name
    else dir + "/" + name
  }

  /** Joining two relative names to the same directory gives the same path
      only for the same name. */
  lemma JoinInjective(dir: string, a: string, b: string)
    requires |a| > 0 && a[0] != '/' && |b| > 0 && b[0] != '/'
    requires Join(dir, a) == Join(dir, b)
    ensures a == b
  {
    var pre := JoinPrefix(dir);
    assert a == (pre + a)[|pre|..];
    assert b == (pre + b)[|pre|..];
  }

  /** Where the last path component starts: just after the last `/`. */
  function BasenameStart(p: string): (b: nat)
    ensures b <= |p| && '/' !in p[b..]
    ensures b > 0 ==> p[b - 1] == '/'
  {
    if '/' in p then LastIndexOf(p, '/') + 1 else 0
  }

  /** The last component of `p` has a dot somewhere after a non-dot character;
      a leading run of dots (`.bashrc`, `..`) does not start an extension. */
  predicate HasExtension(p: string) {
    exists i, j | BasenameStart(p) <= j < i < |p| :: p[i] == '.' && p[j] != '.'
  }

  /** The position of the last dot of the last component of `p`, if any. */
  function LastDotInBasename(p: string): (d: Option<nat>)
    ensures d.Some? ==> BasenameStart(p) <= d.value < |p| && p[d.value] == '.'
    ensures d.Some? ==> forall k :: d.value < k < |p| ==> p[k] != '.' && p[k] != '/'
    ensures d.None? ==> forall k :: BasenameStart(p) <= k < |p| ==> p[k] != '.'
  {
    NoSlashInBasename(p);
    LastDotBetween(p, BasenameStart(p), |p|)
  }

  lemma NoSlashInBasename(p: string)
    ensures forall k :: BasenameStart(p) <= k < |p| ==> p[k] != '/'
  {
    var b := BasenameStart(p);
    forall k | b <= k < |p| ensures p[k] != '/' {
      assert p[b..][k - b] == p[k];
    }
  }

  /** The last dot of `p[lo..hi]`, if any. */
  function LastDotBetween(p: string, lo: nat, hi: nat): (d: Option<nat>)
    requires lo <= hi <= |p|
    ensures d.Some? ==> lo <= d.value < hi && p[d.value] == '.'
    ensures d.Some? ==> forall k :: d.value < k < hi ==> p[k] != '.'
    ensures d.None? ==> forall k :: lo <= k < hi ==> p[k] != '.'
    decreases hi - lo
  {
    if lo == hi then None
    else if p[hi - 1] == '.' then Some(hi - 1)
    else LastDotBetween(p, lo, hi - 1)
  }

  /** `os.path.splitext(p)`: split at the last dot of the last component,
      provided some non-dot character of that component precedes it. */
  function SplitExt(p: string): (r: (string, string))
    ensures r.0 + r.1 == p
    ensures r.1 != [] ==> r.1[0] == '.' && '.' !in r.1[1..] && '/' !in r.1
  {
    var b := BasenameStart(p);
    match LastDotInBasename(p)
    case Some(dot) =>
      if exists j | b <= j < dot :: p[j] != '.' then
        ExtensionChars(p, dot);
        (p[..dot], p[dot..])
      else
        (p, "")
    case None => (p, "")
  }

  /** The tail of `p` from its last dot holds that one dot and no `/`. */
  lemma ExtensionChars(p: string, dot: nat)
    requires dot < |p| && p[dot] == '.'
    requires forall k :: dot < k < |p| ==> p[k] != '.' && p[k] != '/'
    ensures '/' !in p[dot..] && '.' !in p[dot..][1..]
  {
    var ext := p[dot..];
    forall k | 0 <= k < |ext| ensures ext[k] != '/' && (k > 0 ==> ext[k] != '.') {
      assert ext[k] == p[dot + k];
    }
    assert forall k :: 0 <= k < |ext| - 1 ==> ext[1..][k] == ext[k + 1];
  }

  /** `splitext` finds an extension exactly when the last component has a dot
      after a non-dot character. */
  lemma SplitExtFindsExtension(p: string)
    ensures SplitExt(p).1 != [] <==> HasExtension(p)
  {
    var b := BasenameStart(p);
    match LastDotInBasename(p)
    case Some(dot) =>
      if exists j | b <= j < dot :: p[j] != '.' {
        var j :| b <= j < dot && p[j] != '.';
        assert p[dot] == '.';
      } else {
        forall i, j | b <= j < i < |p| && p[i] == '.'
          ensures p[j] == '.'
        {
          assert i <= dot;
        }
      }
    case None =>
  }

  /** Python's `name.endswith(('.jpg', '.jpeg', '.png'))`, the filter both
      the record builder and the auto-annotator apply to directory listings. */
  predicate IsImageFile(name: string) {
    EndsWith(name, ".jpg") || EndsWith(name, ".jpeg") || EndsWith(name, ".png")
  }

  /** The image files of a directory listing, in listing order. */
  function ImageFiles(listing: seq<string>): (imgs: seq<string>)
    ensures |imgs| <= |listing|
    ensures forall k :: 0 <= k < |imgs| ==> IsImageFile(imgs[k]) && imgs[k] in listing
    ensures forall i :: 0 <= i < |listing| ==> (listing[i] in imgs <==> IsImageFile(listing[i]))
    decreases |listing|
  {
    if |listing| == 0 then []
    else
      var rest := ImageFiles(listing[1..]);
      assert forall i :: 1 <= i < |listing| ==> (listing[i] in rest <==> IsImageFile(listing[i])) by {
        forall i | 1 <= i < |listing| ensures listing[i] in rest <==> IsImageFile(listing[i]) {
          assert listing[i] == listing[1..][i - 1];
        }
      }
      FilterStep(listing, IsImageFile, rest);
      if IsImageFile(listing[0]) then [listing[0]] + rest else rest
  }

  /** The image files are the listing filtered by the extension test: one
      entry per listed image file, in listing order, and nothing else. */
  lemma {:induction false} ImageFilesInOrder(listing: seq<string>)
    ensures IsFilter(listing, IsImageFile, ImageFiles(listing))
    decreases |listing|
  {
    if |listing| == 0 {
      assert FilteredAt(listing, IsImageFile, [], []);
    } else {
      ImageFilesInOrder(listing[1..]);
      FilteredCons(listing, IsImageFile, ImageFiles(listing[1..]));
    }
  }

  /** `os.path.splitext(name)[0] + '.json'`: the name of the annotation file
      that belongs to an image file. */
  function AnnotationFileName(name: string): (ann: string)
    ensures EndsWith(ann, ".json")
    ensures ann[..|ann| - 5] <= name
  {
    var (root, ext) := SplitExt(name);
    assert root <= root + ext;
    root + ".json"
  }

  /** In front of `.json` stands the name without its extension: all of it
      when it has none, and otherwise everything before its last dot, which
      lies in the last path component. */
  lemma AnnotationFileNameShape(name: string)
    ensures EndsWith(AnnotationFileName(name), ".json")
    ensures !HasExtension(name) ==> AnnotationFileName(name) == name + ".json"
    ensures var stem := SplitExt(name).0;
      && AnnotationFileName(name) == stem + ".json"
      && (HasExtension(name) ==>
            && |stem| < |name| && name[..|stem|] == stem && name[|stem|] == '.'
            && '.' !in name[|stem| + 1..] && '/' !in name[|stem|..])
  {
    var (root, ext) := SplitExt(name);
    SplitExtFindsExtension(name);
    assert name == root + ext && name[..|root|] == root && name[|root|..] == ext;
  }

  /** An image file named `stem` plus one of the image extensions gets the
      annotation file `stem.json`, whichever extension it had. */
  lemma AnnotationFileNameOfImage(stem: string, ext: string)
    requires ext == ".jpg" || ext == ".jpeg" || ext == ".png"
    requires '/' !in stem
    requires exists j | 0 <= j < |stem| :: stem[j] != '.'
    ensures SplitExt(stem + ext) == (stem, ext)
    ensures AnnotationFileName(stem + ext) == stem + ".json"
  {
    var p := stem + ext;
    ImageNameChars(stem, ext);
    assert BasenameStart(p) == 0;
    LastDotBetweenIs(p, 0, |p|, |stem|);
    var j :| 0 <= j < |stem| && stem[j] != '.';
    assert p[j] == stem[j];
    assert p[..|stem|] == stem && p[|stem|..] == ext;
  }

  lemma ImageNameChars(stem: string, ext: string)
    requires |ext| > 0 && ext[0] == '.' && '.' !in ext[1..] && '/' !in ext
    requires '/' !in stem
    ensures var p := stem + ext;
      && '/' !in p && p[|stem|] == '.'
      && forall k :: |stem| < k < |p| ==> p[k] != '.'
  {
    var p := stem + ext;
    forall k | 0 <= k < |p| ensures p[k] != '/' && (k > |stem| ==> p[k] != '.') {
      if k < |stem| {
        assert p[k] == stem[k];
      } else if k > |stem| {
        assert p[k] == ext[1..][k - |stem| - 1];
      } else {
        assert p[k] == ext[0];
      }
    }
  }

  /** A dot with no dot after it below `hi` is the one `LastDotBetween` finds. */
  lemma {:induction false} LastDotBetweenIs(p: string, lo: nat, hi: nat, i: nat)
    requires lo <= i < hi <= |p| && p[i] == '.'
    requires forall k :: i < k < hi ==> p[k] != '.'
    ensures LastDotBetween(p, lo, hi) == Some(i)
    decreases hi - lo
  {
    if hi - 1 != i {
      LastDotBetweenIs(p, lo, hi - 1, i);
    }
  }
}

=== FILE: pipeline.dfy ===
/** `train_initial_model` and the form handler that leads into it: a fixed
    sequence of stages over the label map, the annotations directory and the
    two training records, where the first stage that raises ends the run.

    Training, detection with the trained model and export to TensorFlow Lite
    are outside the model; what each of them does to the run is given as a
    `Collaborators` value. The calls are modelled with the arguments they are
    evidently meant to receive: the detector gets the category index of the
    single class, and each training call gets the record just built. */
module Pipeline {
  import opened Outcomes
  import opened PyLists
  import opened Paths
  import opened AnnotationStore
  import opened LabelMap
  import opened TfRecord
  import opened AutoAnnotate
  import opened ManualAnnotations

  datatype Stage =
    | LabelMapStage       // create_label_map, then load_label_map_dict
    | ManualRecordStage   // create_tfrecord over the manual annotations
    | TrainStage          // train_model on the manual record
    | AutoAnnotateStage   // auto_annotate_images with the trained model
    | FullRecordStage     // create_tfrecord over the expanded annotations
    | RetrainStage        // train_model on the full record
    | ExportStage         // convert_to_tflite

  /** The order the stages run in. */
  const StageOrder: seq<Stage> := [
    LabelMapStage, ManualRecordStage, TrainStage, AutoAnnotateStage,
    FullRecordStage, RetrainStage, ExportStage]

  /** What the external steps do: whether each training call and the export
      complete, and what the trained detector outputs per image file. */
  datatype Collaborators = Collaborators(
    trainOk: bool,
    detect: map<string, Detections>,
    retrainOk: bool,
    exportOk: bool)

  /** The 0-based place of a stage in `StageOrder`. */
  function Position(s: Stage): (i: nat)
    ensures i < |StageOrder| && StageOrder[i] == s
  {
    match s
    case LabelMapStage => 0
    case ManualRecordStage => 1
    case TrainStage => 2
    case AutoAnnotateStage => 3
    case FullRecordStage => 4
    case RetrainStage => 5
    case ExportStage => 6
  }

  /** The state a run leaves behind: how many stages of `StageOrder` it
      started, the exception that ended it early, the annotations directory,
      and the records built. */
  datatype Run = Run(
    reached: nat,
    failure: Option<Error>,
    store: Store,
    manualRecord: Option<seq<Example>>,
    fullRecord: Option<seq<Example>>)

  predicate Started(run: Run, s: Stage) {
    Position(s) < run.reached
  }

  /** The stages a run started, in order. */
  function Ran(run: Run): seq<Stage>
    requires run.reached <= |StageOrder|
  {
    StageOrder[..run.reached]
  }

  /** The category index handed to the detector: the single class with id 1. */
  function CategoryIndexFor(query: string): (cat: CategoryIndex)
    ensures cat.Keys == {1} && cat[1] == query
  {
    map[1 := query]
  }

  /** The label map the run writes and reads back with the given reader. */
  function TrainingLabels(query: string, rule: NameRule): Result<LabelMapDict> {
    ParseLabelMap(CreateLabelMap([query]), rule)
  }

  /** `train_initial_model(original_query)`, with `listing` the images
      directory and `store` the annotations directory when it is called. */
  function TrainInitialModel(query: string, listing: seq<string>, store: Store, c: Collaborators, rule: NameRule)
    : (run: Run)
    ensures 1 <= run.reached <= |StageOrder|
    ensures run.failure.None? ==> run.reached == |StageOrder|
    // the label map is the first stage: when it cannot be read back, nothing
    // else starts
    ensures TrainingLabels(query, rule).Failure? ==>
      run.reached == 1 && run.failure == Some(TrainingLabels(query, rule).error)
    ensures TrainingLabels(query, rule).Success? ==> Started(run, ManualRecordStage)
  {
    RunStages(TrainingLabels(query, rule), query, listing, store, c)
  }

  /** The stages of `train_initial_model` from the label map on, given what
      reading the label map back gave. */
  function RunStages(labels: Result<LabelMapDict>, query: string, listing: seq<string>, store: Store, c: Collaborators)
    : (run: Run)
    ensures 1 <= run.reached <= |StageOrder|
    // only a run that started every stage can succeed, and a run that
    // stopped early reports the one exception that stopped it
    ensures run.failure.None? ==> run.reached == |StageOrder|
    ensures run.reached < |StageOrder| ==> run.failure.Some?
    // a record exists exactly when the stage after the one building it started
    ensures run.manualRecord.Some? <==> Started(run, TrainStage)
    ensures run.fullRecord.Some? <==> Started(run, RetrainStage)
    ensures labels.Failure? <==> run.reached == 1
    // the annotations directory changes only through auto-annotation
    ensures !Started(run, AutoAnnotateStage) ==> run.store == store
  {
    if labels.Failure? then
      Run(1, Some(labels.error), store, None, None)
    else
      var auto := AutoAnnotateImages(listing, c.detect, CategoryIndexFor(query), store);
      AfterLabelMap(CreateTfRecord(listing, store, labels.value), c, auto,
                    CreateTfRecord(listing, auto.store, labels.value), store)
  }

  /** Once auto-annotation started, the run leaves the annotations
      directory as the annotator wrote it. */
  lemma AutoAnnotatedStore(labels: Result<LabelMapDict>, query: string, listing: seq<string>, store: Store, c: Collaborators)
    ensures var run := RunStages(labels, query, listing, store, c);
      Started(run, AutoAnnotateStage) ==>
        run.store == AutoAnnotateImages(listing, c.detect, CategoryIndexFor(query), store).store
  {
    if labels.Success? {
      var auto := AutoAnnotateImages(listing, c.detect, CategoryIndexFor(query), store);
      var run := RunStages(labels, query, listing, store, c);
      assert run == AfterLabelMap(CreateTfRecord(listing, store, labels.value), c, auto,
                                  CreateTfRecord(listing, auto.store, labels.value), store);
    }
  }

  /** What each stage after the label map raises when it runs, in the order of
      `StageOrder` from the manual record on; `None` for a stage that completes.
      The auto-annotation raises its own first failure; the training and export
      calls raise the failure of the collaborator they call. */
  function LaterOutcomes(manual: Result<seq<Example>>, c: Collaborators, auto: Outcome,
                         full: Result<seq<Example>>): (raised: seq<Option<Error>>)
    ensures |raised| == |StageOrder| - 1
  {
    [ if manual.Failure? then Some(manual.error) else None,
      if c.trainOk then None else Some(CollaboratorFailed("train_model")),
      auto.failure,
      if full.Failure? then Some(full.error) else None,
      if c.retrainOk then None else Some(CollaboratorFailed("train_model")),
      if c.exportOk then None else Some(CollaboratorFailed("convert_to_tflite")) ]
  }

  /** The index of the first exception in `raised`, or `|raised|` when none is. */
  function FirstRaised(raised: seq<Option<Error>>): (k: nat)
    ensures k <= |raised|
    ensures forall j :: 0 <= j < k ==> raised[j].None?
    ensures k < |raised| ==> raised[k].Some?
  {
    if |raised| == 0 || raised[0].Some? then 0 else 1 + FirstRaised(raised[1..])
  }

  /** `FirstRaised` is the one index with no exception before it and one at it. */
  lemma {:induction false} FirstRaisedAt(raised: seq<Option<Error>>, k: nat)
    requires k <= |raised|
    requires forall j :: 0 <= j < k ==> raised[j].None?
    requires k < |raised| ==> raised[k].Some?
    ensures FirstRaised(raised) == k
    decreases k
  {
    if k > 0 {
      FirstRaisedAt(raised[1..], k - 1);
    }
  }

  /** The stages after the label map, given what each of them returns: the
      manual record, the auto-annotation of `store`, and the full record over
      the directory it leaves. A stage's result counts only once every stage
      before it completed. */
  function AfterLabelMap(manual: Result<seq<Example>>, c: Collaborators, auto: Outcome,
                         full: Result<seq<Example>>, store: Store): (run: Run)
    ensures 2 <= run.reached <= |StageOrder|
    // the run completes exactly when no stage raises
    ensures run.failure.None? <==>
      manual.Success? && c.trainOk && auto.failure.None? && full.Success? && c.retrainOk && c.exportOk
    ensures run.failure.None? ==> run.reached == |StageOrder|
    ensures run.reached < |StageOrder| ==> run.failure.Some?
    ensures manual.Failure? ==> run.reached == 2 && run.failure == Some(manual.error)
    ensures Started(run, AutoAnnotateStage) <==> manual.Success? && c.trainOk
    // each record is the one its stage built, and it exists exactly when
    // the training call that consumes it started
    ensures run.manualRecord.Some? <==> Started(run, TrainStage)
    ensures run.manualRecord.Some? ==> manual == Success(run.manualRecord.value)
    ensures run.fullRecord.Some? <==> Started(run, RetrainStage)
    ensures run.fullRecord.Some? ==> full == Success(run.fullRecord.value)
    ensures run.store == if Started(run, AutoAnnotateStage) then auto.store else store
    ensures Started(run, FullRecordStage) <==> manual.Success? && c.trainOk && auto.failure.None?
    ensures Started(run, RetrainStage) <==>
      manual.Success? && c.trainOk && auto.failure.None? && full.Success?
    ensures Started(run, ExportStage) <==>
      manual.Success? && c.trainOk && auto.failure.None? && full.Success? && c.retrainOk
  {
    if manual.Failure? then
      Run(2, Some(manual.error), store, None, None)
    else if !c.trainOk then
      Run(3, Some(CollaboratorFailed("train_model")), store, Some(manual.value), None)
    else if auto.failure.Some? then
      Run(4, auto.failure, auto.store, Some(manual.value), None)
    else if full.Failure? then
      Run(5, Some(full.error), auto.store, Some(manual.value), None)
    else if !c.retrainOk then
      Run(6, Some(CollaboratorFailed("train_model")), auto.store, Some(manual.value), Some(full.value))
    else if !c.exportOk then
      Run(7, Some(CollaboratorFailed("convert_to_tflite")), auto.store, Some(manual.value), Some(full.value))
    else
      Run(7, None, auto.store, Some(manual.value), Some(full.value))
  }

  /** The first stage after the label map that raises decides the run: every
      stage up to it started, none after it did, and its exception is the
      run's; with none raising, all seven stages ran. */
  lemma FirstRaiseDecides(manual: Result<seq<Example>>, c: Collaborators, auto: Outcome,
                          full: Result<seq<Example>>, store: Store)
    ensures var run := AfterLabelMap(manual, c, auto, full, store);
      var raised := LaterOutcomes(manual, c, auto, full);
      var k := FirstRaised(raised);
      && run.reached == (if k < |raised| then k + 2 else |StageOrder|)
      && run.failure == (if k < |raised| then raised[k] else None)
  {
    var raised := LaterOutcomes(manual, c, auto, full);
    if manual.Failure? {
      FirstRaisedAt(raised, 0);
    } else if !c.trainOk {
      FirstRaisedAt(raised, 1);
    } else if auto.failure.Some? {
      FirstRaisedAt(raised, 2);
    } else if full.Failure? {
      FirstRaisedAt(raised, 3);
    } else if !c.retrainOk {
      FirstRaisedAt(raised, 4);
    } else if !c.exportOk {
      FirstRaisedAt(raised, 5);
    } else {
      FirstRaisedAt(raised, 6);
    }
  }

  lemma RanTwo(run: Run)
    requires run.reached == 2
    ensures Ran(run) == [LabelMapStage, ManualRecordStage]
  {
  }

  lemma RanThree(run: Run)
    requires run.reached == 3
    ensures Ran(run) == [LabelMapStage, ManualRecordStage, TrainStage]
  {
  }

  /** The stages a run started are a prefix of `StageOrder`: a stage started
      exactly when every stage before it did. */
  lemma StartedInOrder(run: Run, s: Stage, t: Stage)
    requires Position(s) < Position(t) && Started(run, t)
    ensures Started(run, s)
  {
  }

  /** The run's label map holds the one class, the query, with id 1, for any
      query the reader can represent. */
  lemma SingleClassLabelMap(query: string, rule: NameRule)
    requires Representable(query, rule)
    ensures TrainingLabels(query, rule) == Success(map[query := 1])
  {
    SingletonExpectedIds(query);
    RoundTrip([query], rule);
  }

  /** A failed training call ends the run before auto-annotation: the
      annotations directory is left as the form handler wrote it. */
  lemma TrainingFailureStops(query: string, listing: seq<string>, store: Store, c: Collaborators, rule: NameRule)
    requires TrainingLabels(query, rule).Success?
    requires CreateTfRecord(listing, store, TrainingLabels(query, rule).value).Success?
    requires !c.trainOk
    ensures var run := TrainInitialModel(query, listing, store, c, rule);
      && run.reached == 3 && Ran(run) == [LabelMapStage, ManualRecordStage, TrainStage]
      && run.failure == Some(CollaboratorFailed("train_model"))
      && run.store == store
  {
    RanThree(TrainInitialModel(query, listing, store, c, rule));
  }

  /** For a query the reader can represent, the run is the later stages fed
      with the single-class label map. */
  lemma RunWithSingleClass(query: string, listing: seq<string>, store: Store, c: Collaborators, rule: NameRule)
    requires Representable(query, rule)
    ensures TrainInitialModel(query, listing, store, c, rule)
      == RunStages(Success(map[query := 1]), query, listing, store, c)
  {
    SingleClassLabelMap(query, rule);
  }

  /** The manual record stage: when the record builder fails on the
      directory the form handler left, the run stops there with its exception;
      otherwise training starts with the record it built. */
  lemma ManualRecordStageOutcome(labels: LabelMapDict, query: string, listing: seq<string>, store: Store, c: Collaborators)
    ensures var run := RunStages(Success(labels), query, listing, store, c);
      var manual := CreateTfRecord(listing, store, labels);
      && (manual.Failure? ==> run.reached == 2 && run.failure == Some(manual.error))
      && (manual.Success? ==> Started(run, TrainStage) && run.manualRecord == Some(manual.value))
  {
    LaterStages(labels, query, listing, store, c);
  }

  /** A completed run: every image file was auto-annotated, the manual
      record was built from the directory the form handler left and the full
      record from the auto-annotated one, one example per image file that has
      an annotation file (as `CreateTfRecord` states). */
  lemma CompletedRun(labels: LabelMapDict, query: string, listing: seq<string>, store: Store, c: Collaborators)
    requires RunStages(Success(labels), query, listing, store, c).failure.None?
    ensures var run := RunStages(Success(labels), query, listing, store, c);
      var auto := AutoAnnotateImages(listing, c.detect, CategoryIndexFor(query), store);
      && c.trainOk && c.retrainOk && c.exportOk
      && auto.failure.None? && run.store == auto.store
      && run.manualRecord.Some? && CreateTfRecord(listing, store, labels) == Success(run.manualRecord.value)
      && run.fullRecord.Some? && CreateTfRecord(listing, auto.store, labels) == Success(run.fullRecord.value)
  {
    LaterStages(labels, query, listing, store, c);
  }

  /** With the label map read, the run is the later stages fed with the
      manual record, the auto-annotation of the directory and the full record
      over the directory the annotator leaves. */
  lemma LaterStages(labels: LabelMapDict, query: string, listing: seq<string>, store: Store, c: Collaborators)
    ensures var auto := AutoAnnotateImages(listing, c.detect, CategoryIndexFor(query), store);
      RunStages(Success(labels), query, listing, store, c)
        == AfterLabelMap(CreateTfRecord(listing, store, labels), c, auto, CreateTfRecord(listing, auto.store, labels), store)
  {
  }

  // ---------------------------------------------------------------------------
  // A query of more than one word

  /** The annotations directory after the form handler saved one rectangle,
      with box `b`, for the image `img` under the query. */
  function OneRecordStore(img: string, query: string, b: seq<real>): Store {
    map[AnnotationFileName(img) := [Record(query, b, 1.0)]]
  }

  /** The record built from that directory: one example carrying the query's
      id when the label map has the query, and KeyError when it does not. */
  lemma OneRecordManualRecord(img: string, query: string, b: seq<real>, labels: LabelMapDict)
    requires IsImageFile(img) && |b| == 4
    ensures query !in labels ==>
      CreateTfRecord([img], OneRecordStore(img, query, b), labels) == Failure(KeyError(query))
    ensures query in labels ==>
      CreateTfRecord([img], OneRecordStore(img, query, b), labels)
        == Success([Example(img, [b[1]], [b[3]], [b[0]], [b[2]], [query], [labels[query]])])
  {
    var store := OneRecordStore(img, query, b);
    OnePairedImage(img, query, b);
    OneExample(img, query, b, labels);
    var e := ExampleOf(img, store, labels);
    var r := CreateTfRecord([img], store, labels);
    if r.Success? {
      assert [img][0] == img;
      assert r.value == [e.value];
    }
  }

  lemma OnePairedImage(img: string, query: string, b: seq<real>)
    requires IsImageFile(img)
    ensures PairedImages([img], OneRecordStore(img, query, b)) == [img]
  {
    assert [img][1..] == [];
  }

  lemma OneExample(img: string, query: string, b: seq<real>, labels: LabelMapDict)
    requires |b| == 4
    ensures query !in labels ==>
      ExampleOf(img, OneRecordStore(img, query, b), labels) == Failure(KeyError(query))
    ensures query in labels ==>
      ExampleOf(img, OneRecordStore(img, query, b), labels)
        == Success(Example(img, [b[1]], [b[3]], [b[0]], [b[2]], [query], [labels[query]]))
  {
    var recs := [Record(query, b, 1.0)];
    assert OneRecordStore(img, query, b)[AnnotationFileName(img)] == recs;
    var r := CreateTfExample(img, recs, labels);
    if r.Success? {
      var e := r.value;
      assert e.xmins == [b[1]] && e.xmaxs == [b[3]] && e.ymins == [b[0]] && e.ymaxs == [b[2]];
      assert e.classesText == [query] && e.classes == [labels[query]];
    }
  }

  /** With the reader as written, a run for a query of more than one word
      stops at the manual record: the label map holds only the query's last
      word, and the record builder looks up the whole query. For "red apple"
      the label map is `{"apple": 1}` and the run ends with KeyError. */
  lemma MultiWordQueryStopsAtManualRecord(a: string, w: string, img: string, b: seq<real>, c: Collaborators)
    requires Representable(a + " " + w, AfterKey)
    requires ' ' !in w && |w| > 0 && w[0] != '\''
    requires IsImageFile(img) && |b| == 4
    ensures var query := a + " " + w;
      var run := TrainInitialModel(query, [img], OneRecordStore(img, query, b), c, LastToken);
      && run.reached == 2 && Ran(run) == [LabelMapStage, ManualRecordStage]
      && run.failure == Some(KeyError(query))
  {
    var query := a + " " + w;
    LastWordLabels(a, w);
    assert |query| > |w|;
    LabelsWithoutQueryStop(query, img, b, c, LastToken, map[w := 1]);
    RanTwo(TrainInitialModel(query, [img], OneRecordStore(img, query, b), c, LastToken));
  }

  lemma LastWordLabels(a: string, w: string)
    requires Representable(a + " " + w, AfterKey)
    requires ' ' !in w && |w| > 0 && w[0] != '\''
    ensures TrainingLabels(a + " " + w, LastToken) == Success(map[w := 1])
  {
    MultiWordNameKeepsLastWord(a, w);
  }

  /** A label map that lacks the query stops the run at the manual record. */
  lemma LabelsWithoutQueryStop(query: string, img: string, b: seq<real>, c: Collaborators, rule: NameRule, labels: LabelMapDict)
    requires TrainingLabels(query, rule) == Success(labels)
    requires query !in labels && IsImageFile(img) && |b| == 4
    ensures var run := TrainInitialModel(query, [img], OneRecordStore(img, query, b), c, rule);
      run.reached == 2 && run.failure == Some(KeyError(query))
  {
    RunWithLabels(query, [img], OneRecordStore(img, query, b), c, rule, labels);
    UnmappedQueryStops(query, img, b, labels, c);
  }

  /** Once the label map is read, the run is the later stages fed with it. */
  lemma RunWithLabels(query: string, listing: seq<string>, store: Store, c: Collaborators, rule: NameRule, labels: LabelMapDict)
    requires TrainingLabels(query, rule) == Success(labels)
    ensures TrainInitialModel(query, listing, store, c, rule) == RunStages(Success(labels), query, listing, store, c)
  {
  }

  /** A label map without the query stops the run at the manual record. */
  lemma UnmappedQueryStops(query: string, img: string, b: seq<real>, labels: LabelMapDict, c: Collaborators)
    requires query !in labels && IsImageFile(img) && |b| == 4
    ensures var run := RunStages(Success(labels), query, [img], OneRecordStore(img, query, b), c);
      run.reached == 2 && run.failure == Some(KeyError(query))
  {
    OneRecordManualRecord(img, query, b, labels);
    ManualRecordStageOutcome(labels, query, [img], OneRecordStore(img, query, b), c);
  }

  /** With the corrected reader the same run builds the manual record, the
      query carrying class id 1. */
  lemma CorrectedReaderBuildsManualRecord(query: string, img: string, b: seq<real>, c: Collaborators)
    requires Representable(query, AfterKey)
    requires IsImageFile(img) && |b| == 4
    ensures var run := TrainInitialModel(query, [img], OneRecordStore(img, query, b), c, AfterKey);
      && Started(run, TrainStage)
      && run.manualRecord == Some([Example(img, [b[1]], [b[3]], [b[0]], [b[2]], [query], [1])])
  {
    RunWithSingleClass(query, [img], OneRecordStore(img, query, b), c, AfterKey);
    OneRecordManualRecord(img, query, b, map[query := 1]);
    ManualRecordStageOutcome(map[query := 1], query, [img], OneRecordStore(img, query, b), c);
  }

  // ---------------------------------------------------------------------------
  // The form handler

  /** `save_annotations(image_names, annotations, original_query)`: the
      annotations are saved, and training runs only if every pair was saved. */
  function SaveAnnotationsAndTrain(
    names: seq<string>, rects: seq<Option<DragRect>>, sizes: map<string, ImageSize>, query: string,
    store: Store, listing: seq<string>, c: Collaborators, rule: NameRule): (r: (Outcome, Option<Run>))
    // the response reports the save of every posted pair
    ensures r.0 == SaveManualAnnotations(names, rects, sizes, query, store)
    ensures r.0.failure.None? <==> forall i :: 0 <= i < |Zip(names, rects)| ==> ManualFile(names[i], rects[i], sizes, query).Success?
    ensures r.1.Some? <==> r.0.failure.None?
    ensures r.1.Some? ==> r.1.value == TrainInitialModel(query, listing, r.0.store, c, rule)
  {
    var saved := SaveManualAnnotations(names, rects, sizes, query, store);
    if saved.failure.Some? then (saved, None)
    else (saved, Some(TrainInitialModel(query, listing, saved.store, c, rule)))
  }

  /** From the drag to the record: one rectangle saved for one image into an
      empty annotations directory gives, with the corrected reader, a manual
      record whose one example carries the rectangle's corners and class id 1. */
  lemma DragReachesManualRecord(img: string, rect: DragRect, sizes: map<string, ImageSize>, query: string, c: Collaborators)
    requires IsImageFile(img) && Representable(query, AfterKey)
    requires img in sizes && sizes[img].width > 0 && sizes[img].height > 0
    ensures var r := SaveAnnotationsAndTrain([img], [Some(rect)], sizes, query, map[], [img], c, AfterKey);
      && r.1.Some?
      && r.1.value.manualRecord == Some([Example(img,
           [rect.x], [rect.x + rect.width], [rect.y], [rect.y + rect.height], [query], [1])])
  {
    var b := ManualRecord(rect, sizes[img], query).bbox;
    assert b == [rect.y, rect.x, rect.y + rect.height, rect.x + rect.width];
    OneManualSave(img, rect, sizes, query);
    var store := OneRecordStore(img, query, b);
    assert SaveAnnotationsAndTrain([img], [Some(rect)], sizes, query, map[], [img], c, AfterKey)
      == (Outcome(store, None), Some(TrainInitialModel(query, [img], store, c, AfterKey)));
    CorrectedReaderBuildsManualRecord(query, img, b, c);
  }

  lemma OneManualSave(img: string, rect: DragRect, sizes: map<string, ImageSize>, query: string)
    requires img in sizes && sizes[img].width > 0 && sizes[img].height > 0
    ensures SaveManualAnnotations([img], [Some(rect)], sizes, query, map[])
      == Outcome(OneRecordStore(img, query, ManualRecord(rect, sizes[img], query).bbox), None)
  {
    var rec := ManualRecord(rect, sizes[img], query);
    var ws := ManualWrites([img], [Some(rect)], sizes, query);
    assert |ws| == 1 && ws[0] == (AnnotationFileName(img), Success([rec]));
    assert ws[1..] == [];
    assert ApplyWrites(ws[1..], map[AnnotationFileName(img) := [rec]]) == Outcome(map[AnnotationFileName(img) := [rec]], None);
  }
}

=== FILE: pylists.dfy ===
/** Python list slicing and the ordering predicates the model states its
    results with. */
module PyLists {

  /** The position Python's slice `a[start:]` (or `a[:start]`) actually uses:
      a negative bound counts from the end, and both are clamped to the list. */
  function SliceBound(len: nat, bound: int): (b: nat)
    ensures b <= len
    ensures bound >= 0 ==> b == if bound <= len then bound else len
    ensures bound < 0 ==> b == if len + bound >= 0 then len + bound else 0
  {
    if bound < 0 then (if len + bound >= 0 then len + bound else 0)
    else if bound <= len then bound
    else len
  }

  /** Python's `a[start:]`. */
  function SliceFrom<T>(a: seq<T>, start: int): seq<T> {
    a[SliceBound(|a|, start)..]
  }

  /** Python's `a[:stop]`. */
  function SliceTo<T>(a: seq<T>, stop: int): seq<T> {
    a[..SliceBound(|a|, stop)]
  }

  /** No value occurs twice. */
  predicate Distinct<T(==)>(xs: seq<T>) {
    forall i, j | 0 <= i < j < |xs| :: xs[i] != xs[j]
  }

  predicate StrictlyIncreasing(xs: seq<nat>) {
    forall i, j | 0 <= i < j < |xs| :: xs[i] < xs[j]
  }

  /** In a distinct list no element occurs again later. */
  lemma DistinctNotLater<T>(xs: seq<T>, i: nat)
    requires Distinct(xs) && i < |xs|
    ensures xs[i] !in xs[i + 1..]
  {
    var later := xs[i + 1..];
    forall k | 0 <= k < |later| ensures later[k] != xs[i] {
      assert later[k] == xs[i + 1 + k];
    }
  }

  /** The prefix as long as the whole list is the list. */
  lemma PrefixWhole<T>(xs: seq<T>, n: nat)
    requires n == |xs|
    ensures xs[..n] == xs
  {
  }

  /** `ys` is `xs` filtered by `keep`, witnessed by `ix`: the positions of
      `xs` whose element passes `keep`, each once and in increasing order,
      with `ys[j]` the element at the `j`-th of them. */
  ghost predicate FilteredAt<T>(xs: seq<T>, keep: T -> bool, ys: seq<T>, ix: seq<nat>) {
    && |ix| == |ys|
    && StrictlyIncreasing(ix)
    && (forall j :: 0 <= j < |ix| ==> ix[j] < |xs| && ys[j] == xs[ix[j]])
    && (forall i :: 0 <= i < |xs| ==> (i in ix <==> keep(xs[i])))
  }

  /** `ys` keeps the elements of `xs` that pass `keep`, in their order in `xs`,
      and nothing else. */
  ghost predicate IsFilter<T>(xs: seq<T>, keep: T -> bool, ys: seq<T>) {
    exists ix :: FilteredAt(xs, keep, ys, ix)
  }

  /** Filtering keeps exactly the positions that pass, in order: putting
      the head in front of the filtered tail when it passes filters the whole
      list. */
  lemma FilteredCons<T>(xs: seq<T>, keep: T -> bool, rest: seq<T>)
    requires |xs| > 0 && IsFilter(xs[1..], keep, rest)
    ensures IsFilter(xs, keep, if keep(xs[0]) then [xs[0]] + rest else rest)
  {
    var ix :| FilteredAt(xs[1..], keep, rest, ix);
    ShiftedFilter(xs, keep, rest, ix);
    if keep(xs[0]) {
      HeadKept(xs, keep, rest, Shift(ix));
    } else {
      assert FilteredAt(xs, keep, rest, Shift(ix));
    }
  }

  /** Every position moved one place on. */
  function Shift(ix: seq<nat>): (sh: seq<nat>)
    ensures |sh| == |ix| && forall j :: 0 <= j < |ix| ==> sh[j] == ix[j] + 1
  {
    seq(|ix|, j requires 0 <= j < |ix| => ix[j] + 1)
  }

  /** The positions of the filtered tail, moved one place on, pick the same
      elements out of the whole list and never pick the head. */
  lemma ShiftedFilter<T>(xs: seq<T>, keep: T -> bool, rest: seq<T>, ix: seq<nat>)
    requires |xs| > 0 && FilteredAt(xs[1..], keep, rest, ix)
    ensures var sh := Shift(ix);
      && StrictlyIncreasing(sh)
      && (forall j :: 0 <= j < |sh| ==> 1 <= sh[j] < |xs| && rest[j] == xs[sh[j]])
      && (forall i :: 0 <= i < |xs| ==> (i in sh <==> i > 0 && keep(xs[i])))
  {
    ShiftPicks(xs, rest, ix);
    ShiftCovers(xs, keep, ix);
  }

  lemma ShiftPicks<T>(xs: seq<T>, rest: seq<T>, ix: seq<nat>)
    requires |xs| > 0 && |ix| == |rest|
    requires forall j :: 0 <= j < |ix| ==> ix[j] < |xs[1..]| && rest[j] == xs[1..][ix[j]]
    ensures forall j :: 0 <= j < |ix| ==> 1 <= Shift(ix)[j] < |xs| && rest[j] == xs[Shift(ix)[j]]
  {
  }

  lemma ShiftCovers<T>(xs: seq<T>, keep: T -> bool, ix: seq<nat>)
    requires |xs| > 0
    requires forall i :: 0 <= i < |xs[1..]| ==> (i in ix <==> keep(xs[1..][i]))
    requires forall j :: 0 <= j < |ix| ==> ix[j] < |xs[1..]|
    ensures forall i :: 0 <= i < |xs| ==> (i in Shift(ix) <==> i > 0 && keep(xs[i]))
  {
    var tail := xs[1..];
    var sh := Shift(ix);
    forall i | 0 < i < |xs| && keep(xs[i]) ensures i in sh {
      assert tail[i - 1] == xs[i];
      var j :| 0 <= j < |ix| && ix[j] == i - 1;
      assert sh[j] == i;
    }
    forall j | 0 <= j < |sh| ensures 0 < sh[j] && keep(xs[sh[j]]) {
      assert ix[j] in ix && tail[ix[j]] == xs[sh[j]];
    }
  }

  /** A passing head goes in front, at position 0. */
  lemma HeadKept<T>(xs: seq<T>, keep: T -> bool, rest: seq<T>, sh: seq<nat>)
    requires |xs| > 0 && keep(xs[0]) && |sh| == |rest| && StrictlyIncreasing(sh)
    requires forall j :: 0 <= j < |sh| ==> 1 <= sh[j] < |xs| && rest[j] == xs[sh[j]]
    requires forall i :: 0 <= i < |xs| ==> (i in sh <==> i > 0 && keep(xs[i]))
    ensures FilteredAt(xs, keep, [xs[0]] + rest, [0] + sh)
  {
    var ix := [0] + sh;
    var ys := [xs[0]] + rest;
    forall i | 0 <= i < |xs| ensures i in ix <==> keep(xs[i]) {
      assert i in ix <==> i == 0 || i in sh;
    }
    forall j | 0 <= j < |ix| ensures ix[j] < |xs| && ys[j] == xs[ix[j]] {
      if j > 0 { assert ix[j] == sh[j - 1] && ys[j] == rest[j - 1]; }
    }
  }

  /** Keeping the head in front of the filtered tail, exactly when `keep`
      holds for it, filters the whole list. */
  lemma FilterStep<T>(xs: seq<T>, keep: T -> bool, rest: seq<T>)
    requires |xs| > 0 && |rest| <= |xs| - 1
    requires forall k :: 0 <= k < |rest| ==> rest[k] in xs[1..] && keep(rest[k])
    requires forall i :: 1 <= i < |xs| ==> (xs[i] in rest <==> keep(xs[i]))
    ensures var ys := if keep(xs[0]) then [xs[0]] + rest else rest;
      && |ys| <= |xs|
      && (forall k :: 0 <= k < |ys| ==> ys[k] in xs && keep(ys[k]))
      && (forall i :: 0 <= i < |xs| ==> (xs[i] in ys <==> keep(xs[i])))
  {
    var ys := if keep(xs[0]) then [xs[0]] + rest else rest;
    FilterSound(xs, keep, rest, ys);
    FilterComplete(xs, keep, rest, ys);
  }

  lemma FilterSound<T>(xs: seq<T>, keep: T -> bool, rest: seq<T>, ys: seq<T>)
    requires |xs| > 0
    requires forall k :: 0 <= k < |rest| ==> rest[k] in xs[1..] && keep(rest[k])
    requires ys == if keep(xs[0]) then [xs[0]] + rest else rest
    ensures forall k :: 0 <= k < |ys| ==> ys[k] in xs && keep(ys[k])
  {
    forall k | 0 <= k < |rest| ensures rest[k] in xs {
      InTail(xs, rest[k]);
    }
  }

  lemma FilterComplete<T>(xs: seq<T>, keep: T -> bool, rest: seq<T>, ys: seq<T>)
    requires |xs| > 0
    requires forall k :: 0 <= k < |rest| ==> keep(rest[k])
    requires forall i :: 1 <= i < |xs| ==> (xs[i] in rest <==> keep(xs[i]))
    requires ys == if keep(xs[0]) then [xs[0]] + rest else rest
    ensures forall i :: 0 <= i < |xs| ==> (xs[i] in ys <==> keep(xs[i]))
  {
    forall i | 0 <= i < |xs| ensures xs[i] in ys <==> keep(xs[i]) {
      InCons(xs[0], rest, xs[i]);
      if xs[i] in rest {
        var j :| 0 <= j < |rest| && rest[j] == xs[i];
      }
    }
  }

  lemma InTail<T>(xs: seq<T>, x: T)
    requires |xs| > 0 && x in xs[1..]
    ensures x in xs
  {
    var i :| 0 <= i < |xs| - 1 && xs[1..][i] == x;
    assert xs[i + 1] == x;
  }

  lemma InCons<T>(h: T, rest: seq<T>, x: T)
    ensures x in [h] + rest <==> x == h || x in rest
  {
    if x in [h] + rest && x != h {
      var i :| 0 <= i < |rest| + 1 && ([h] + rest)[i] == x;
      assert rest[i - 1] == x;
    }
    if x in rest {
      var i :| 0 <= i < |rest| && rest[i] == x;
      assert ([h] + rest)[i + 1] == x;
    }
  }
}

=== FILE: pystrings.dfy ===
/** The handful of Python `str` operations the pipeline's text handling rests
    on, with Python's semantics: `sub in s`, `s.split(' ')`, `s.strip()`,
    `s.strip("'")`, `int(s)`, `f'{n}'` and iteration over the lines of a file
    opened in text mode. */
module PyStrings {
  import opened Outcomes

  // ---------------------------------------------------------------------------
  // Searching

  /** `sub` occurs in `s` starting at position `i`. */
  predicate OccursAt(s: string, sub: string, i: int) {
    0 <= i <= |s| - |sub| && s[i..i + |sub|] == sub
  }

  /** Python's `sub in s`. */
  predicate Contains(s: string, sub: string) {
    exists i | 0 <= i <= |s| - |sub| :: OccursAt(s, sub, i)
  }

  /** An occurrence inside `p` is an occurrence inside `p + t`. */
  lemma OccursInPrefix(p: string, t: string, sub: string, i: int)
    requires OccursAt(p, sub, i)
    ensures OccursAt(p + t, sub, i)
  {
    assert (p + t)[i..i + |sub|] == p[i..i + |sub|];
  }

  /** A substring whose first character does not occur in `p` cannot start inside `p`. */
  lemma ContainsAfterPrefix(p: string, t: string, sub: string)
    requires |sub| > 0 && sub[0] !in p
    ensures Contains(p + t, sub) <==> Contains(t, sub)
  {
    var s := p + t;
    if Contains(s, sub) {
      var i :| 0 <= i <= |s| - |sub| && OccursAt(s, sub, i);
      assert s[i] == sub[0];
      assert forall k :: 0 <= k < |p| ==> s[k] != sub[0];
      assert t[i - |p|..i - |p| + |sub|] == s[i..i + |sub|];
      assert OccursAt(t, sub, i - |p|);
    }
    if Contains(t, sub) {
      var i :| 0 <= i <= |t| - |sub| && OccursAt(t, sub, i);
      assert s[|p| + i..|p| + i + |sub|] == t[i..i + |sub|];
      assert OccursAt(s, sub, |p| + i);
    }
  }

  /** A substring whose last character does not occur in `q` cannot end inside `q`. */
  lemma ContainsBeforeSuffix(t: string, q: string, sub: string)
    requires |sub| > 0 && sub[|sub| - 1] !in q
    ensures Contains(t + q, sub) <==> Contains(t, sub)
  {
    var s := t + q;
    if Contains(s, sub) {
      var i :| 0 <= i <= |s| - |sub| && OccursAt(s, sub, i);
      assert s[i + |sub| - 1] == sub[|sub| - 1];
      assert forall k :: |t| <= k < |s| ==> s[k] != sub[|sub| - 1];
      assert t[i..i + |sub|] == s[i..i + |sub|];
      assert OccursAt(t, sub, i);
    }
    if Contains(t, sub) {
      var i :| 0 <= i <= |t| - |sub| && OccursAt(t, sub, i);
      assert s[i..i + |sub|] == t[i..i + |sub|];
      assert OccursAt(s, sub, i);
    }
  }

  /** A string that lacks the first character of `sub` does not contain `sub`. */
  lemma NotContainsWithoutFirst(s: string, sub: string)
    requires |sub| > 0 && sub[0] !in s
    ensures !Contains(s, sub)
  {
    ContainsAfterPrefix(s, [], sub);
    assert s + [] == s;
  }

  /** A string that lacks the last character of `sub` does not contain `sub`. */
  lemma NotContainsWithoutLast(s: string, sub: string)
    requires |sub| > 0 && sub[|sub| - 1] !in s
    ensures !Contains(s, sub)
  {
    ContainsBeforeSuffix([], s, sub);
    assert [] + s == s;
  }

  /** The first position at or after `from` where `sub` occurs in `s`. */
  function FindSubFrom(s: string, sub: string, from: nat): (i: nat)
    requires exists j | from <= j <= |s| - |sub| :: OccursAt(s, sub, j)
    ensures from <= i && OccursAt(s, sub, i)
    ensures forall j :: from <= j < i ==> !OccursAt(s, sub, j)
    decreases |s| - from
  {
    if OccursAt(s, sub, from) then from
    else
      assert exists j | from + 1 <= j <= |s| - |sub| :: OccursAt(s, sub, j);
      FindSubFrom(s, sub, from + 1)
  }

  /** Python's `s.find(sub)` when `sub in s`. */
  function FindSub(s: string, sub: string): (i: nat)
    requires Contains(s, sub)
    ensures OccursAt(s, sub, i)
    ensures forall j :: 0 <= j < i ==> !OccursAt(s, sub, j)
  {
    FindSubFrom(s, sub, 0)
  }

  /** The first position of `c` in `s`. */
  function IndexOf(s: string, c: char): (i: nat)
    requires c in s
    ensures i < |s| && s[i] == c && c !in s[..i]
  {
    if s[0] == c then 0
    else
      var j := IndexOf(s[1..], c);
      assert s[..j + 1] == [s[0]] + s[1..][..j];
      j + 1
  }

  /** The first position is the only one with no earlier occurrence. */
  lemma IndexOfUnique(s: string, c: char, j: nat)
    requires j < |s| && s[j] == c && c !in s[..j]
    ensures IndexOf(s, c) == j
  {
    var i := IndexOf(s, c);
    assert forall k :: 0 <= k < j ==> s[k] != c by {
      forall k | 0 <= k < j ensures s[k] != c { assert s[..j][k] == s[k]; }
    }
    assert forall k :: 0 <= k < i ==> s[k] != c by {
      forall k | 0 <= k < i ensures s[k] != c { assert s[..i][k] == s[k]; }
    }
  }

  /** The last position of `c` in `s`. */
  function LastIndexOf(s: string, c: char): (i: nat)
    requires c in s
    ensures i < |s| && s[i] == c && c !in s[i + 1..]
  {
    if s[|s| - 1] == c then |s| - 1
    else
      var j := LastIndexOf(s[..|s| - 1], c);
      assert s[j + 1..] == s[..|s| - 1][j + 1..] + [s[|s| - 1]];
      j
  }

  /** The last position is the only one with no later occurrence. */
  lemma LastIndexOfUnique(s: string, c: char, j: nat)
    requires j < |s| && s[j] == c && c !in s[j + 1..]
    ensures LastIndexOf(s, c) == j
  {
    var i := LastIndexOf(s, c);
    assert forall k :: j < k < |s| ==> s[k] != c by {
      forall k | j < k < |s| ensures s[k] != c { assert s[j + 1..][k - j - 1] == s[k]; }
    }
    assert forall k :: i < k < |s| ==> s[k] != c by {
      forall k | i < k < |s| ensures s[k] != c { assert s[i + 1..][k - i - 1] == s[k]; }
    }
  }

  /** Python's `s.endswith(suffix)`. */
  predicate EndsWith(s: string, suffix: string) {
    |suffix| <= |s| && s[|s| - |suffix|..] == suffix
  }

  // ---------------------------------------------------------------------------
  // Splitting

  /** The pieces of a split glued back together with the separator. */
  function JoinWith(parts: seq<string>, sep: char): string
    requires |parts| >= 1
  {
    if |parts| == 1 then parts[0] else parts[0] + [sep] + JoinWith(parts[1..], sep)
  }

  /** Python's `s.split(sep)` for a one-character separator: every occurrence
      splits and empty pieces are kept, so there is always at least one piece. */
  function Split(s: string, sep: char): (parts: seq<string>)
    ensures |parts| >= 1
    ensures forall k :: 0 <= k < |parts| ==> sep !in parts[k]
    ensures JoinWith(parts, sep) == s
    decreases |s|
  {
    if sep in s then
      var i := IndexOf(s, sep);
      var rest := Split(s[i + 1..], sep);
      assert ([s[..i]] + rest)[1..] == rest;
      assert s == s[..i] + [sep] + s[i + 1..];
      [s[..i]] + rest
    else
      [s]
  }

  function Last<T>(xs: seq<T>): T
    requires |xs| > 0
  {
    xs[|xs| - 1]
  }

  /** Splitting at the first separator. */
  lemma SplitAtFirst(s: string, sep: char, j: nat)
    requires j < |s| && s[j] == sep && sep !in s[..j]
    ensures Split(s, sep) == [s[..j]] + Split(s[j + 1..], sep)
  {
    IndexOfUnique(s, sep, j);
  }

  /** `s.split(sep)[-1]` is whatever follows the last separator. */
  lemma {:induction false} SplitLastAfterSeparator(a: string, sep: char, b: string)
    requires sep !in b
    ensures Last(Split(a + [sep] + b, sep)) == b
    decreases |a|
  {
    if sep in a {
      var j := IndexOf(a, sep);
      var tail := a[j + 1..];
      SplitLastAfterSeparator(tail, sep, b);
      SplitLastStep(a, sep, b, j);
    } else {
      SplitLastFirst(a, sep, b);
    }
  }

  lemma SplitLastStep(a: string, sep: char, b: string, j: nat)
    requires j < |a| && a[j] == sep && sep !in a[..j]
    ensures Last(Split(a + [sep] + b, sep)) == Last(Split(a[j + 1..] + [sep] + b, sep))
  {
    var s := a + ([sep] + b);
    var tail := a[j + 1..] + ([sep] + b);
    assert s == a + [sep] + b;
    assert tail == a[j + 1..] + [sep] + b;
    SlicesAround(a, [sep] + b, j);
    SplitAtFirst(s, sep, j);
    LastCons(a[..j], Split(tail, sep));
  }

  /** Cutting `a + t` at an index `j` inside `a`. */
  lemma SlicesAround(a: string, t: string, j: nat)
    requires j < |a|
    ensures (a + t)[..j] == a[..j] && (a + t)[j] == a[j] && (a + t)[j + 1..] == a[j + 1..] + t
  {
  }

  lemma LastCons<T>(x: T, xs: seq<T>)
    requires |xs| > 0
    ensures Last([x] + xs) == Last(xs)
  {
  }

  lemma SplitLastFirst(a: string, sep: char, b: string)
    requires sep !in a && sep !in b
    ensures Last(Split(a + [sep] + b, sep)) == b
  {
    var s := a + [sep] + b;
    assert s[..|a|] == a;
    SplitAtFirst(s, sep, |a|);
    assert s[|a| + 1..] == b;
  }

  // ---------------------------------------------------------------------------
  // Stripping

  /** Python's `str.isspace` for one character. */
  predicate IsSpace(c: char) {
    || c == ' ' || c == '\t' || c == '\n' || c == '\r'
    || c == '\U{000B}' || c == '\U{000C}'
    || ('\U{001C}' <= c <= '\U{001F}')
    || c == '\U{0085}' || c == '\U{00A0}' || c == '\U{1680}'
    || ('\U{2000}' <= c <= '\U{200A}')
    || c == '\U{2028}' || c == '\U{2029}' || c == '\U{202F}' || c == '\U{205F}'
    || c == '\U{3000}'
  }

  function LStripIf(s: string, strip: char -> bool): (r: string)
    ensures |r| <= |s| && r == s[|s| - |r|..]
    ensures |r| == 0 || !strip(r[0])
    ensures forall k :: 0 <= k < |s| - |r| ==> strip(s[k])
  {
    if |s| > 0 && strip(s[0]) then
      var r := LStripIf(s[1..], strip);
      assert forall k :: 1 <= k < |s| - |r| ==> s[k] == s[1..][k - 1];
      r
    else
      s
  }

  function RStripIf(s: string, strip: char -> bool): (r: string)
    ensures |r| <= |s| && r == s[..|r|]
    ensures |r| == 0 || !strip(r[|r| - 1])
    ensures forall k :: |r| <= k < |s| ==> strip(s[k])
  {
    if |s| > 0 && strip(s[|s| - 1]) then
      var r := RStripIf(s[..|s| - 1], strip);
      assert forall k :: |r| <= k < |s| - 1 ==> s[k] == s[..|s| - 1][k];
      r
    else
      s
  }

  /** Python's `s.strip()`. */
  function Strip(s: string): string {
    RStripIf(LStripIf(s, IsSpace), IsSpace)
  }

  /** Python's `s.strip(ch)` for a single character. */
  function StripChar(s: string, ch: char): string {
    RStripIf(LStripIf(s, c => c == ch), c => c == ch)
  }

  /** Stripping a prefix of strippable characters in front of a non-strippable one. */
  lemma {:induction false} LStripPrefix(w: string, t: string, strip: char -> bool)
    requires forall k :: 0 <= k < |w| ==> strip(w[k])
    requires |t| == 0 || !strip(t[0])
    ensures LStripIf(w + t, strip) == t
    decreases |w|
  {
    if |w| > 0 {
      assert (w + t)[1..] == w[1..] + t;
      LStripPrefix(w[1..], t, strip);
    } else {
      assert w + t == t;
    }
  }

  /** Stripping a suffix of strippable characters behind a non-strippable one. */
  lemma {:induction false} RStripSuffix(t: string, w: string, strip: char -> bool)
    requires forall k :: 0 <= k < |w| ==> strip(w[k])
    requires |t| == 0 || !strip(t[|t| - 1])
    ensures RStripIf(t + w, strip) == t
    decreases |w|
  {
    if |w| > 0 {
      assert (t + w)[..|t + w| - 1] == t + w[..|w| - 1];
      RStripSuffix(t, w[..|w| - 1], strip);
    } else {
      assert t + w == t;
    }
  }

  /** `Strip` of text framed by whitespace recovers the text, provided the
      text itself starts and ends with a non-space character. */
  lemma StripFramed(w1: string, t: string, w2: string)
    requires forall k :: 0 <= k < |w1| ==> IsSpace(w1[k])
    requires forall k :: 0 <= k < |w2| ==> IsSpace(w2[k])
    requires |t| > 0 && !IsSpace(t[0]) && !IsSpace(t[|t| - 1])
    ensures Strip(w1 + t + w2) == t
  {
    assert w1 + t + w2 == w1 + (t + w2);
    LStripPrefix(w1, t + w2, IsSpace);
    RStripSuffix(t, w2, IsSpace);
  }

  /** `StripChar` removes exactly one framing character on each side when the
      text inside neither starts nor ends with it. */
  lemma StripCharFramed(t: string, ch: char)
    requires |t| == 0 || (t[0] != ch && t[|t| - 1] != ch)
    ensures StripChar([ch] + t + [ch], ch) == t
  {
    var strip := c => c == ch;
    if |t| == 0 {
      assert [ch] + t + [ch] == [ch, ch];
      LStripPrefix([ch, ch], [], strip);
      assert [ch, ch] + [] == [ch, ch];
    } else {
      assert [ch] + t + [ch] == [ch] + (t + [ch]);
      LStripPrefix([ch], t + [ch], strip);
      RStripSuffix(t, [ch], strip);
    }
  }

  // ---------------------------------------------------------------------------
  // Integers

  predicate IsDigit(c: char) {
    '0' <= c <= '9'
  }

  function DigitValue(c: char): nat
    requires IsDigit(c)
  {
    (c as int) - ('0' as int)
  }

  function DigitChar(d: nat): (c: char)
    requires d < 10
    ensures IsDigit(c) && DigitValue(c) == d
  {
    (('0' as int) + d) as char
  }

  /** Python's `f'{n}'` for a non-negative integer: its decimal digits. */
  function NatToString(n: nat): (s: string)
    ensures |s| >= 1
    ensures forall k :: 0 <= k < |s| ==> IsDigit(s[k])
  {
    if n < 10 then [DigitChar(n)] else NatToString(n / 10) + [DigitChar(n % 10)]
  }

  /** Python's `str(n)` for any integer: the digits of its magnitude, after a
      minus sign when it is negative. */
  function IntToString(n: int): (s: string)
    ensures |s| >= 1
    ensures s[0] == '-' <==> n < 0
    ensures forall k :: 0 < k < |s| ==> IsDigit(s[k])
  {
    if n >= 0 then NatToString(n) else "-" + NatToString(-n)
  }

  /** The body of a base-10 integer literal as `int()` accepts it: digits, with
      single underscores allowed between two digits. */
  predicate ValidDigits(s: string) {
    && |s| > 0
    && IsDigit(s[0])
    && forall k {:trigger s[k]} :: 0 <= k < |s| ==> IsDigit(s[k]) || (s[k] == '_' && k + 1 < |s| && IsDigit(s[k + 1]))
  }

  lemma ValidDigitsEnd(s: string)
    requires ValidDigits(s)
    ensures IsDigit(s[|s| - 1])
  {
  }

  /** The value of the digits of `s`, underscores ignored. */
  function DigitsValue(s: string): nat
    decreases |s|
  {
    if |s| == 0 then 0
    else if IsDigit(s[|s| - 1]) then 10 * DigitsValue(s[..|s| - 1]) + DigitValue(s[|s| - 1])
    else DigitsValue(s[..|s| - 1])
  }

  /** Python's `int(s)`: surrounding whitespace is ignored, one optional sign,
      then digits; anything else raises `ValueError`. */
  function ParseInt(s: string): (r: Result<int>)
    ensures r.Failure? ==> r.error == ValueError("invalid literal for int() with base 10")
    ensures r.Success? ==> |Strip(s)| > 0 && IsDigit(Strip(s)[|Strip(s)| - 1])
    ensures r.Success? && r.value < 0 ==> Strip(s)[0] == '-'
  {
    var t := Strip(s);
    var signed := |t| > 0 && (t[0] == '+' || t[0] == '-');
    var body := if signed then t[1..] else t;
    if !ValidDigits(body) then
      Failure(ValueError("invalid literal for int() with base 10"))
    else
      var magnitude: int := DigitsValue(body);
      ValidDigitsEnd(body);
      Success(if signed && t[0] == '-' then -magnitude else magnitude)
  }

  lemma {:induction false} DigitsValueOfNatToString(n: nat)
    ensures DigitsValue(NatToString(n)) == n
  {
    var s := NatToString(n);
    if n >= 10 {
      DigitsValueOfNatToString(n / 10);
      assert s[..|s| - 1] == NatToString(n / 10);
    } else {
      assert s[..0] == [];
    }
  }

  /** `int(f'{n}') == n`: the label map's ids survive printing and parsing. */
  lemma ParseIntOfNatToString(n: nat)
    ensures ParseInt(NatToString(n)) == Success(n)
  {
    var s := NatToString(n);
    StripDigits(n);
    assert !(s[0] == '+' || s[0] == '-');
    assert ValidDigits(s);
    DigitsValueOfNatToString(n);
  }

  /** `int(str(n)) == n` for every integer, negative ones included. */
  lemma ParseIntOfIntToString(n: int)
    ensures ParseInt(IntToString(n)) == Success(n)
  {
    if n >= 0 {
      ParseIntOfNatToString(n);
    } else {
      ParseIntOfNegative(-n);
    }
  }

  lemma ParseIntOfNegative(m: nat)
    requires m > 0
    ensures ParseInt("-" + NatToString(m)) == Success(-(m as int))
  {
    var d := NatToString(m);
    assert ("-" + d)[|"-" + d| - 1] == d[|d| - 1];
    StripUntouched("-" + d);
    assert ValidDigits(d);
    DigitsValueOfNatToString(m);
    ParseIntMinus(d);
  }

  /** A minus sign before valid digits negates their value. */
  lemma ParseIntMinus(d: string)
    requires ValidDigits(d) && Strip("-" + d) == "-" + d
    ensures ParseInt("-" + d) == Success(-(DigitsValue(d) as int))
  {
    assert ("-" + d)[1..] == d;
  }

  /** `Strip` leaves text alone that neither starts nor ends with whitespace. */
  lemma StripUntouched(s: string)
    requires |s| > 0 && !IsSpace(s[0]) && !IsSpace(s[|s| - 1])
    ensures Strip(s) == s
  {
  }

  lemma StripDigits(n: nat)
    ensures Strip(NatToString(n)) == NatToString(n)
  {
    var s := NatToString(n);
    StripFramed([], s, []);
    assert [] + s + [] == s;
  }

  /** Different numbers print differently. */
  lemma NatToStringInjective(m: nat, n: nat)
    requires NatToString(m) == NatToString(n)
    ensures m == n
  {
    ParseIntOfNatToString(m);
    ParseIntOfNatToString(n);
  }

  // ---------------------------------------------------------------------------
  // Lines of a text file

  /** The translation a file opened in text mode applies on reading: `\r\n`
      and a lone `\r` both become `\n`. */
  function NormalizeNewlines(s: string): (r: string)
    ensures '\r' !in r
    decreases |s|
  {
    if |s| == 0 then s
    else if s[0] == '\r' then
      "\n" + NormalizeNewlines(if |s| > 1 && s[1] == '\n' then s[2..] else s[1..])
    else
      [s[0]] + NormalizeNewlines(s[1..])
  }

  lemma {:induction false} NormalizeNewlinesIdentity(s: string)
    requires '\r' !in s
    ensures NormalizeNewlines(s) == s
    decreases |s|
  {
    if |s| > 0 {
      assert s[0] != '\r';
      NormalizeNewlinesIdentity(s[1..]);
      assert s == [s[0]] + s[1..];
    }
  }

  function Concat(lines: seq<string>): string {
    if |lines| == 0 then [] else lines[0] + Concat(lines[1..])
  }

  /** The lines `for line in f` yields from already translated text: each ends
      in its `\n` terminator except possibly the last, and there is no empty
      trailing line. */
  function Lines(s: string): (lines: seq<string>)
    ensures Concat(lines) == s
    ensures forall k :: 0 <= k < |lines| ==> |lines[k]| > 0
    ensures forall k :: 0 <= k < |lines| - 1 ==> lines[k][|lines[k]| - 1] == '\n'
    ensures forall k :: 0 <= k < |lines| ==> '\n' !in lines[k][..|lines[k]| - 1]
    decreases |s|
  {
    if |s| == 0 then []
    else if '\n' in s then
      var i := IndexOf(s, '\n');
      var rest := Lines(s[i + 1..]);
      FirstLineTerminated(s, i);
      LinesStep(s[..i + 1], s[i + 1..], rest);
      assert s[..i + 1] + s[i + 1..] == s;
      [s[..i + 1]] + rest
    else
      SingleLine(s);
      [s]
  }

  /** Text without a line break is one unterminated line. */
  lemma SingleLine(s: string)
    requires |s| > 0 && '\n' !in s
    ensures var lines := [s];
      && Concat(lines) == s
      && (forall k :: 0 <= k < |lines| ==> |lines[k]| > 0)
      && (forall k :: 0 <= k < |lines| ==> '\n' !in lines[k][..|lines[k]| - 1])
  {
    ConcatCons(s, []);
    assert s + [] == s;
    assert forall j :: 0 <= j < |s| - 1 ==> s[..|s| - 1][j] == s[j];
  }

  lemma FirstLineTerminated(s: string, i: nat)
    requires i < |s| && s[i] == '\n' && '\n' !in s[..i]
    ensures Terminated(s[..i + 1])
  {
    assert s[..i + 1][..i] == s[..i];
  }

  /** A terminated first line in front of the lines of the rest. */
  lemma LinesStep(first: string, tail: string, rest: seq<string>)
    requires Terminated(first)
    requires Concat(rest) == tail
    requires forall k :: 0 <= k < |rest| ==> |rest[k]| > 0
    requires forall k :: 0 <= k < |rest| - 1 ==> rest[k][|rest[k]| - 1] == '\n'
    requires forall k :: 0 <= k < |rest| ==> '\n' !in rest[k][..|rest[k]| - 1]
    ensures var lines := [first] + rest;
      && Concat(lines) == first + tail
      && (forall k :: 0 <= k < |lines| ==> |lines[k]| > 0)
      && (forall k :: 0 <= k < |lines| - 1 ==> lines[k][|lines[k]| - 1] == '\n')
      && (forall k :: 0 <= k < |lines| ==> '\n' !in lines[k][..|lines[k]| - 1])
  {
    var lines := [first] + rest;
    ConcatCons(first, rest);
    forall k | 1 <= k < |lines| ensures lines[k] == rest[k - 1] { }
  }

  /** Concatenating two lists of pieces one after the other. */
  lemma {:induction false} ConcatAppend(a: seq<string>, b: seq<string>)
    ensures Concat(a + b) == Concat(a) + Concat(b)
    decreases |a|
  {
    if |a| > 0 {
      assert (a + b)[0] == a[0] && (a + b)[1..] == a[1..] + b;
      ConcatAppend(a[1..], b);
      assert Concat(a + b) == a[0] + Concat(a[1..] + b);
    } else {
      assert a + b == b;
    }
  }

  lemma ConcatCons(x: string, rest: seq<string>)
    ensures Concat([x] + rest) == x + Concat(rest)
  {
    assert ([x] + rest)[1..] == rest;
  }

  lemma {:induction false} NotInConcat(ls: seq<string>, c: char)
    requires forall k :: 0 <= k < |ls| ==> c !in ls[k]
    ensures c !in Concat(ls)
    decreases |ls|
  {
    if |ls| > 0 {
      var tail := ls[1..];
      assert forall k :: 0 <= k < |tail| ==> tail[k] == ls[k + 1];
      NotInConcat(tail, c);
    }
  }

  /** The lines of a file's contents, as Python's text-mode reading yields them. */
  function ReadLines(text: string): seq<string> {
    Lines(NormalizeNewlines(text))
  }

  lemma LinesCons(a: string, b: string)
    requires '\n' !in a
    ensures Lines(a + "\n" + b) == [a + "\n"] + Lines(b)
  {
    var s := a + "\n" + b;
    assert s[|a|] == '\n' && s[..|a|] == a;
    IndexOfUnique(s, '\n', |a|);
    assert s[..|a| + 1] == a + "\n";
    assert s[|a| + 1..] == b;
  }

  /** A line as `for line in f` yields it before the end of the file: one
      `\n`, at its end. */
  predicate Terminated(line: string) {
    |line| > 0 && line[|line| - 1] == '\n' && '\n' !in line[..|line| - 1]
  }

  lemma TerminatedLine(a: string)
    requires '\n' !in a
    ensures Terminated(a + "\n")
  {
    assert (a + "\n")[..|a|] == a;
  }

  lemma ConcatTerminated(ls: seq<string>, rest: string)
    requires |ls| > 0 && Terminated(ls[0])
    ensures Concat(ls) + rest == ls[0][..|ls[0]| - 1] + "\n" + (Concat(ls[1..]) + rest)
  {
    var line := ls[0];
    assert line == line[..|line| - 1] + "\n";
    assert Concat(ls) == line + Concat(ls[1..]);
  }

  lemma LinesOfTerminatedFirst(ls: seq<string>, rest: string)
    requires |ls| > 0 && Terminated(ls[0])
    ensures Lines(Concat(ls) + rest) == [ls[0]] + Lines(Concat(ls[1..]) + rest)
  {
    var a := ls[0][..|ls[0]| - 1];
    ConcatTerminated(ls, rest);
    LinesCons(a, Concat(ls[1..]) + rest);
    assert a + "\n" == ls[0];
  }

  /** Regrouping `[x] + (tail + r)`, stated apart so that the proofs using
      it keep a small context. */
  lemma ConsAppend<T>(x: T, tail: seq<T>, mid: seq<T>, r: seq<T>)
    requires mid == tail + r
    ensures [x] + mid == ([x] + tail) + r
  {
  }

  lemma LinesOfTerminatedStep(ls: seq<string>, rest: string)
    requires |ls| > 0 && Terminated(ls[0])
    requires Lines(Concat(ls[1..]) + rest) == ls[1..] + Lines(rest)
    ensures Lines(Concat(ls) + rest) == ls + Lines(rest)
  {
    LinesOfTerminatedFirst(ls, rest);
    ConsAppend(ls[0], ls[1..], Lines(Concat(ls[1..]) + rest), Lines(rest));
    HeadTail(ls);
  }

  lemma HeadTail<T>(xs: seq<T>)
    requires |xs| > 0
    ensures [xs[0]] + xs[1..] == xs
  {
  }

  /** Text made of terminated lines is read back as exactly those lines. */
  lemma {:induction false} LinesOfTerminated(ls: seq<string>, rest: string)
    requires forall k :: 0 <= k < |ls| ==> Terminated(ls[k])
    ensures Lines(Concat(ls) + rest) == ls + Lines(rest)
    decreases |ls|
  {
    if |ls| > 0 {
      var tail := ls[1..];
      assert forall k :: 0 <= k < |tail| ==> Terminated(tail[k]);
      LinesOfTerminated(tail, rest);
      LinesOfTerminatedStep(ls, rest);
    } else {
      assert Concat(ls) + rest == rest;
    }
  }
}

=== FILE: store.dfy ===
/** Annotation records and the annotations directory they are written to.

    The directory is a map from annotation file name to the JSON list the
    file holds. Both writers in the pipeline (the manual form handler and the
    auto-annotator) walk their inputs in order and write one file per item,
    overwriting whatever file of that name was there; an exception stops the
    walk, and the files written before it stay written. */
module AnnotationStore {
  import opened Outcomes

  /** One annotation as the JSON files hold it:
      `{'class_name': ..., 'bbox': [ymin, xmin, ymax, xmax], 'score': ...}`. */
  datatype Record = Record(className: string, bbox: seq<real>, score: real)

  /** The annotations directory: file name to the list of records in it. */
  type Store = map<string, seq<Record>>

  /** The directory after a walk, and the exception that ended it early, if any. */
  datatype Outcome = Outcome(store: Store, failure: Option<Error>)

  /** One item of a walk: the file it writes and the list it writes there,
      or the exception computing that list raised. */
  type Write = (string, Result<seq<Record>>)

  predicate AllSucceed(writes: seq<Write>) {
    forall k :: 0 <= k < |writes| ==> writes[k].1.Success?
  }

  /** The files a walk names. */
  function FileNames(writes: seq<Write>): set<string> {
    set k | 0 <= k < |writes| :: writes[k].0
  }

  /** Performs the writes in order, stopping at the first failing item. */
  function ApplyWrites(writes: seq<Write>, store: Store): (out: Outcome)
    ensures out.failure.None? <==> AllSucceed(writes)
    ensures store.Keys <= out.store.Keys <= store.Keys + FileNames(writes)
    ensures forall x :: x in store && x !in FileNames(writes) ==> out.store[x] == store[x]
    decreases |writes|
  {
    if |writes| == 0 then Outcome(store, None)
    else
      var tail := writes[1..];
      assert forall k :: 0 <= k < |tail| ==> tail[k] == writes[k + 1];
      FileNamesCons(writes);
      match writes[0].1
      case Failure(e) => Outcome(store, Some(e))
      case Success(records) => ApplyWrites(tail, store[writes[0].0 := records])
  }

  lemma FileNamesCons(writes: seq<Write>)
    requires |writes| > 0
    ensures FileNames(writes) == {writes[0].0} + FileNames(writes[1..])
  {
    var tail := writes[1..];
    forall x | x in FileNames(writes) ensures x in {writes[0].0} + FileNames(tail) {
      var k :| 0 <= k < |writes| && writes[k].0 == x;
      if k > 0 { assert tail[k - 1].0 == x; }
    }
  }

  /** A walk that completes writes every file it names. */
  lemma {:induction false} ApplyWritesKeys(writes: seq<Write>, store: Store)
    requires AllSucceed(writes)
    ensures ApplyWrites(writes, store).store.Keys == store.Keys + FileNames(writes)
    decreases |writes|
  {
    if |writes| > 0 {
      var tail := writes[1..];
      assert forall k :: 0 <= k < |tail| ==> tail[k] == writes[k + 1];
      FileNamesCons(writes);
      ApplyWritesKeys(tail, store[writes[0].0 := writes[0].1.value]);
    } else {
      assert FileNames(writes) == {};
    }
  }

  /** The last item naming a file decides what the file holds. */
  lemma {:induction false} LastWriteWins(writes: seq<Write>, store: Store, k: nat)
    requires AllSucceed(writes)
    requires k < |writes| && writes[k].0 !in FileNames(writes[k + 1..])
    ensures var out := ApplyWrites(writes, store).store;
      writes[k].0 in out && out[writes[k].0] == writes[k].1.value
    decreases |writes|
  {
    var tail := writes[1..];
    assert forall j :: 0 <= j < |tail| ==> tail[j] == writes[j + 1];
    var next := store[writes[0].0 := writes[0].1.value];
    if k == 0 {
      assert tail == writes[k + 1..];
    } else {
      assert tail[k - 1 + 1..] == writes[k + 1..];
      LastWriteWins(tail, next, k - 1);
    }
  }

  /** The first failing item ends the walk with its exception, after the
      items before it have been written. */
  lemma {:induction false} FirstFailureStops(writes: seq<Write>, store: Store, k: nat)
    requires k < |writes| && writes[k].1.Failure?
    requires AllSucceed(writes[..k])
    ensures ApplyWrites(writes, store)
      == Outcome(ApplyWrites(writes[..k], store).store, Some(writes[k].1.error))
    decreases k
  {
    if k > 0 {
      var tail := writes[1..];
      assert writes[..k][0] == writes[0];
      assert writes[..k][1..] == tail[..k - 1];
      FirstFailureStops(tail, store[writes[0].0 := writes[0].1.value], k - 1);
    }
  }
}

=== FILE: strorder.dfy ===
/** Python's ordering of `str` values (lexicographic by code point) and
    `sorted(set(xs))` on lists of strings. */
module StringOrder {

  /** Python's `a < b` on strings. */
  predicate Less(a: string, b: string)
    decreases |a|
  {
    if |a| == 0 then |b| > 0
    else if |b| == 0 then false
    else if a[0] != b[0] then a[0] < b[0]
    else Less(a[1..], b[1..])
  }

  lemma {:induction false} LessIrreflexive(a: string)
    ensures !Less(a, a)
    decreases |a|
  {
    if |a| > 0 {
      LessIrreflexive(a[1..]);
    }
  }

  lemma {:induction false} LessTransitive(a: string, b: string, c: string)
    requires Less(a, b) && Less(b, c)
    ensures Less(a, c)
    decreases |a|
  {
    if |a| > 0 && a[0] == b[0] && b[0] == c[0] {
      LessTransitive(a[1..], b[1..], c[1..]);
    }
  }

  /** Any two different strings are ordered one way or the other. */
  lemma {:induction false} LessTotal(a: string, b: string)
    requires a != b
    ensures Less(a, b) || Less(b, a)
    decreases |a|
  {
    if |a| > 0 && |b| > 0 && a[0] == b[0] {
      assert a == [a[0]] + a[1..] && b == [b[0]] + b[1..];
      LessTotal(a[1..], b[1..]);
    }
  }

  lemma {:induction false} LessAsymmetric(a: string, b: string)
    ensures Less(a, b) ==> !Less(b, a)
    decreases |a|
  {
    if |a| > 0 && |b| > 0 && a[0] == b[0] {
      LessAsymmetric(a[1..], b[1..]);
    }
  }

  predicate Ascending(xs: seq<string>) {
    forall i, j | 0 <= i < j < |xs| :: Less(xs[i], xs[j])
  }

  function Elements(xs: seq<string>): set<string> {
    set i | 0 <= i < |xs| :: xs[i]
  }

  /** Inserts `x` at its place in an ascending list, unless it is already there. */
  function Insert(x: string, xs: seq<string>): (r: seq<string>)
    requires Ascending(xs)
    ensures Ascending(r)
    ensures Elements(r) == Elements(xs) + {x}
    decreases |xs|
  {
    if |xs| == 0 then
      assert Elements([x]) == {x} by { assert [x][0] == x; }
      [x]
    else if x == xs[0] then
      assert Elements(xs) == Elements(xs) + {x} by { assert xs[0] == x; }
      xs
    else if Less(x, xs[0]) then
      InsertFront(x, xs);
      [x] + xs
    else
      var tail := xs[1..];
      var rest := Insert(x, tail);
      LessTotal(x, xs[0]);
      InsertAfterHead(xs[0], tail, x, rest);
      ElementsCons(xs[0], tail);
      ElementsCons(xs[0], rest);
      assert xs == [xs[0]] + tail;
      [xs[0]] + rest
  }

  lemma ElementsCons(h: string, t: seq<string>)
    ensures Elements([h] + t) == {h} + Elements(t)
  {
    var s := [h] + t;
    forall y | y in Elements(s) ensures y in {h} + Elements(t) {
      var i :| 0 <= i < |s| && s[i] == y;
      if i > 0 { assert t[i - 1] == y; }
    }
    forall y | y in Elements(t) ensures y in Elements(s) {
      var i :| 0 <= i < |t| && t[i] == y;
      assert s[i + 1] == y;
    }
    assert s[0] == h;
  }

  lemma InsertFront(x: string, xs: seq<string>)
    requires Ascending(xs) && |xs| > 0 && Less(x, xs[0])
    ensures Ascending([x] + xs) && Elements([x] + xs) == Elements(xs) + {x}
  {
    var r := [x] + xs;
    forall i, j | 0 <= i < j < |r| ensures Less(r[i], r[j]) {
      if i == 0 && j > 1 {
        LessTransitive(x, xs[0], xs[j - 1]);
      }
    }
    ElementsCons(x, xs);
  }

  lemma InsertAfterHead(h: string, tail: seq<string>, x: string, rest: seq<string>)
    requires Ascending([h] + tail) && Ascending(rest)
    requires Elements(rest) == Elements(tail) + {x} && Less(h, x)
    ensures Ascending([h] + rest)
  {
    var xs := [h] + tail;
    var r := [h] + rest;
    forall j | 1 <= j < |r| ensures Less(h, r[j]) {
      assert r[j] == rest[j - 1];
      assert rest[j - 1] in Elements(rest);
      if rest[j - 1] != x {
        var k :| 0 <= k < |tail| && tail[k] == rest[j - 1];
        assert xs[k + 1] == tail[k] && xs[0] == h;
      }
    }
  }

  /** `sorted(set(xs))`: the distinct values of `xs` in ascending order. */
  function SortedDistinct(xs: seq<string>): (r: seq<string>)
    ensures Ascending(r)
    ensures Elements(r) == Elements(xs)
    decreases |xs|
  {
    if |xs| == 0 then
      assert Elements(xs) == {};
      []
    else
      var front := xs[..|xs| - 1];
      var r := Insert(xs[|xs| - 1], SortedDistinct(front));
      assert xs == front + [xs[|xs| - 1]];
      assert Elements(xs) == Elements(front) + {xs[|xs| - 1]} by {
        forall y | y in Elements(xs) ensures y in Elements(front) + {xs[|xs| - 1]} {
          var i :| 0 <= i < |xs| && xs[i] == y;
          if i < |xs| - 1 { assert front[i] == y; }
        }
        forall y | y in Elements(front) ensures y in Elements(xs) {
          var i :| 0 <= i < |front| && front[i] == y;
          assert xs[i] == y;
        }
      }
      r
  }

  /** The head of an ascending list is below every other element. */
  lemma HeadLeast(xs: seq<string>, y: string)
    requires Ascending(xs) && y in Elements(xs)
    ensures y == xs[0] || Less(xs[0], y)
  {
    var i :| 0 <= i < |xs| && xs[i] == y;
    if i > 0 {
      assert Less(xs[0], xs[i]);
    }
  }

  lemma HeadNotInTail(xs: seq<string>)
    requires Ascending(xs) && |xs| > 0
    ensures xs[0] !in Elements(xs[1..])
  {
    LessIrreflexive(xs[0]);
    var tail := xs[1..];
    forall k | 0 <= k < |tail| ensures tail[k] != xs[0] {
      assert Less(xs[0], xs[k + 1]);
    }
  }

  /** An ascending list is determined by its elements, so `sorted(set(xs))`
      is the only ascending arrangement of the values of `xs`. */
  lemma {:induction false} AscendingUnique(a: seq<string>, b: seq<string>)
    requires Ascending(a) && Ascending(b) && Elements(a) == Elements(b)
    ensures a == b
    decreases |a|
  {
    assert |a| > 0 ==> a[0] in Elements(b);
    assert |b| > 0 ==> b[0] in Elements(a);
    if |a| > 0 && |b| > 0 {
      HeadLeast(b, a[0]);
      HeadLeast(a, b[0]);
      LessAsymmetric(a[0], b[0]);
      assert a[0] == b[0];
      ElementsCons(a[0], a[1..]);
      ElementsCons(b[0], b[1..]);
      assert a == [a[0]] + a[1..] && b == [b[0]] + b[1..];
      HeadNotInTail(a);
      HeadNotInTail(b);
      assert Elements(a[1..]) == Elements(a) - {a[0]};
      assert Elements(b[1..]) == Elements(b) - {b[0]};
      AscendingUnique(a[1..], b[1..]);
    }
  }

  /** An ascending list has no duplicates. */
  lemma AscendingDistinct(xs: seq<string>)
    requires Ascending(xs)
    ensures forall i, j | 0 <= i < j < |xs| :: xs[i] != xs[j]
  {
    forall i, j | 0 <= i < j < |xs| ensures xs[i] != xs[j] {
      LessIrreflexive(xs[i]);
    }
  }
}

=== FILE: tfrecord.dfy ===
/** The record builder: pairs every image file of the images directory with
    its annotation file and turns the annotations into the per-object lists
    of one training example. */
module TfRecord {
  import opened Outcomes
  import opened PyStrings
  import opened PyLists
  import opened Paths
  import opened AnnotationStore

  /** The label map dictionary: class name to id. */
  type LabelMapDict = map<string, int>

  /** The per-object lists of one `tf.train.Example`, and the image it is for. */
  datatype Example = Example(
    filename: string,
    xmins: seq<real>,
    xmaxs: seq<real>,
    ymins: seq<real>,
    ymaxs: seq<real>,
    classesText: seq<string>,
    classes: seq<int>)

  /** One annotation can be turned into a row: its box has four coordinates
      and its class is in the label map. */
  predicate Convertible(a: Record, labels: LabelMapDict) {
    |a.bbox| >= 4 && a.className in labels
  }

  /** The values one annotation appends to the lists. */
  datatype Row = Row(xmin: real, xmax: real, ymin: real, ymax: real, text: string, id: int)

  /** One pass of the loop of `create_tf_example`: the box is split out of
      `[ymin, xmin, ymax, xmax]`; a box with fewer than four entries raises
      IndexError before the label lookup, and an unmapped class raises
      KeyError. */
  function RowOf(a: Record, labels: LabelMapDict): (r: Result<Row>)
    ensures r.Success? <==> Convertible(a, labels)
    ensures r.Failure? ==> r.error == if |a.bbox| < 4 then IndexError else KeyError(a.className)
  {
    if |a.bbox| < 4 then Failure(IndexError)
    else if a.className !in labels then Failure(KeyError(a.className))
    else Success(Row(a.bbox[1], a.bbox[3], a.bbox[0], a.bbox[2], a.className, labels[a.className]))
  }

  /** The lists of an example, one entry per row, in row order. */
  function Columns(filename: string, rows: seq<Row>): Example {
    Example(
      filename,
      seq(|rows|, i requires 0 <= i < |rows| => rows[i].xmin),
      seq(|rows|, i requires 0 <= i < |rows| => rows[i].xmax),
      seq(|rows|, i requires 0 <= i < |rows| => rows[i].ymin),
      seq(|rows|, i requires 0 <= i < |rows| => rows[i].ymax),
      seq(|rows|, i requires 0 <= i < |rows| => rows[i].text),
      seq(|rows|, i requires 0 <= i < |rows| => rows[i].id))
  }

  /** `create_tf_example(image_path, annotations, label_map_dict)`: one row
      per annotation, in annotation order, or the exception of the first
      annotation that cannot be converted. */
  function CreateTfExample(filename: string, annotations: seq<Record>, labels: LabelMapDict): (r: Result<Example>)
    ensures r.Success? <==> forall k :: 0 <= k < |annotations| ==> Convertible(annotations[k], labels)
    ensures r.Success? ==> var e := r.value;
      && e.filename == filename
      && |e.xmins| == |e.xmaxs| == |e.ymins| == |e.ymaxs| == |e.classesText| == |e.classes| == |annotations|
      && forall k :: 0 <= k < |annotations| ==>
           && |annotations[k].bbox| >= 4
           && e.xmins[k] == annotations[k].bbox[1]
           && e.ymins[k] == annotations[k].bbox[0]
           && e.xmaxs[k] == annotations[k].bbox[3]
           && e.ymaxs[k] == annotations[k].bbox[2]
           && e.classesText[k] == annotations[k].className
           && annotations[k].className in labels
           && e.classes[k] == labels[annotations[k].className]
    ensures r.Failure? ==> exists k :: (0 <= k < |annotations| && FirstUnconvertible(annotations, labels, k)
      && r.error == (if |annotations[k].bbox| < 4 then IndexError else KeyError(annotations[k].className)))
  {
    var rs := seq(|annotations|, k requires 0 <= k < |annotations| => RowOf(annotations[k], labels));
    AllRows(annotations, labels, rs);
    var rows :- AllValues(rs);
    ColumnsOfRows(filename, annotations, labels, rows);
    Success(Columns(filename, rows))
  }

  /** Converting the annotations in order stops at the first one that cannot
      be converted. */
  lemma AllRows(annotations: seq<Record>, labels: LabelMapDict, rs: seq<Result<Row>>)
    requires |rs| == |annotations| && forall k :: 0 <= k < |rs| ==> rs[k] == RowOf(annotations[k], labels)
    ensures var r := AllValues(rs);
      && (r.Success? <==> forall k :: 0 <= k < |annotations| ==> Convertible(annotations[k], labels))
      && (r.Success? ==> |r.value| == |annotations| && forall k :: 0 <= k < |rs| ==> r.value[k] == rs[k].value)
      && (r.Failure? ==> exists k :: (0 <= k < |annotations| && FirstUnconvertible(annotations, labels, k)
            && r.error == (if |annotations[k].bbox| < 4 then IndexError else KeyError(annotations[k].className))))
  {
    var r := AllValues(rs);
    if r.Failure? {
      var k :| 0 <= k < |rs| && FirstFailure(rs, k) && r.error == rs[k].error;
      assert FirstUnconvertible(annotations, labels, k);
    }
  }

  /** The columns of the converted rows hold each annotation's box corners,
      class name and class id at the annotation's index. */
  lemma ColumnsOfRows(filename: string, annotations: seq<Record>, labels: LabelMapDict, rows: seq<Row>)
    requires |rows| == |annotations|
    requires forall k :: 0 <= k < |rows| ==> Convertible(annotations[k], labels) && RowOf(annotations[k], labels) == Success(rows[k])
    ensures var e := Columns(filename, rows);
      && e.filename == filename
      && |e.xmins| == |e.xmaxs| == |e.ymins| == |e.ymaxs| == |e.classesText| == |e.classes| == |annotations|
      && forall k :: 0 <= k < |annotations| ==>
           && |annotations[k].bbox| >= 4
           && e.xmins[k] == annotations[k].bbox[1]
           && e.ymins[k] == annotations[k].bbox[0]
           && e.xmaxs[k] == annotations[k].bbox[3]
           && e.ymaxs[k] == annotations[k].bbox[2]
           && e.classesText[k] == annotations[k].className
           && annotations[k].className in labels
           && e.classes[k] == labels[annotations[k].className]
  {
  }

  /** `annotations[k]` is the first annotation that cannot be converted. */
  predicate FirstUnconvertible(annotations: seq<Record>, labels: LabelMapDict, k: nat)
    requires k < |annotations|
  {
    !Convertible(annotations[k], labels) && forall j :: 0 <= j < k ==> Convertible(annotations[j], labels)
  }

  /** An image file whose annotation file exists. */
  predicate Paired(f: string, store: Store) {
    IsImageFile(f) && AnnotationFileName(f) in store
  }

  /** The image files of a listing that have an annotation file, in order. */
  function PairedImages(listing: seq<string>, store: Store): (imgs: seq<string>)
    ensures |imgs| <= |listing|
    ensures forall k :: 0 <= k < |imgs| ==> imgs[k] in listing && Paired(imgs[k], store)
    ensures forall i :: 0 <= i < |listing| ==> (listing[i] in imgs <==> Paired(listing[i], store))
    decreases |listing|
  {
    if |listing| == 0 then []
    else
      var rest := PairedImages(listing[1..], store);
      FilterStep(listing, f => Paired(f, store), rest);
      if Paired(listing[0], store) then [listing[0]] + rest else rest
  }

  /** The paired images are the listing filtered by `Paired`: one entry per
      listed image file whose annotation file exists, in listing order, and
      nothing else. */
  lemma {:induction false} PairedImagesInOrder(listing: seq<string>, store: Store)
    ensures IsFilter(listing, f => Paired(f, store), PairedImages(listing, store))
    decreases |listing|
  {
    var keep := f => Paired(f, store);
    if |listing| == 0 {
      assert FilteredAt(listing, keep, [], []);
    } else {
      PairedImagesInOrder(listing[1..], store);
      FilteredCons(listing, keep, PairedImages(listing[1..], store));
    }
  }

  /** `create_tfrecord(image_dir, annotations_dir, output_path, label_map_dict)`
      on a directory listing and the annotations directory: the examples
      written, one per paired image in listing order, or the exception of the
      first image whose example cannot be built. */
  function CreateTfRecord(listing: seq<string>, store: Store, labels: LabelMapDict): (r: Result<seq<Example>>)
    ensures Collected(ExampleResults(PairedImages(listing, store), store, labels), r)
  {
    AllValues(ExampleResults(PairedImages(listing, store), store, labels))
  }

  /** The example for one paired image. */
  function ExampleOf(img: string, store: Store, labels: LabelMapDict): (r: Result<Example>)
    requires AnnotationFileName(img) in store
    ensures var anns := store[AnnotationFileName(img)];
      && (r.Success? <==> forall k :: 0 <= k < |anns| ==> Convertible(anns[k], labels))
      && (r.Success? ==> r.value.filename == img && |r.value.classes| == |anns|)
  {
    CreateTfExample(img, store[AnnotationFileName(img)], labels)
  }

  /** The example of each paired image, in order. */
  function ExampleResults(imgs: seq<string>, store: Store, labels: LabelMapDict): (rs: seq<Result<Example>>)
    requires forall k :: 0 <= k < |imgs| ==> AnnotationFileName(imgs[k]) in store
    ensures |rs| == |imgs| && forall k :: 0 <= k < |imgs| ==> rs[k] == ExampleOf(imgs[k], store, labels)
  {
    seq(|imgs|, k requires 0 <= k < |imgs| => ExampleOf(imgs[k], store, labels))
  }

  /** An image file yields an example exactly when its annotation file exists. */
  lemma ExampleIffAnnotated(listing: seq<string>, store: Store, labels: LabelMapDict, i: nat)
    requires i < |listing| && IsImageFile(listing[i])
    requires CreateTfRecord(listing, store, labels).Success?
    ensures (exists k | 0 <= k < |CreateTfRecord(listing, store, labels).value| ::
               CreateTfRecord(listing, store, labels).value[k].filename == listing[i])
        <==> AnnotationFileName(listing[i]) in store
  {
    var imgs := PairedImages(listing, store);
    var es := CreateTfRecord(listing, store, labels).value;
    assert forall k :: 0 <= k < |imgs| ==> es[k].filename == imgs[k];
    if AnnotationFileName(listing[i]) in store {
      var k :| 0 <= k < |imgs| && imgs[k] == listing[i];
      assert es[k].filename == listing[i];
    }
  }
}
